=== FILE: README.md ===
# ImageDecoder core in Dafny

A model of the decoding core of ImageDecoder, a C++ library that turns PNG,
JPEG, EXR, BMP, ICO, PCX and TGA files into texture buffers. Every piece is a
pure function over byte sequences (`Bytes = seq<byte>`, `byte` = 0..255), and
the stateful classes are immutable values. The Dafny modules follow the
library's structure:

- `Detect`: signature detection (`DetectImageFormat`, and `DetectFormat`
  in the decoder, which has the same body) and `CreateImageWrapper`.
- `Decoder`: the dispatcher `DecodeImage`.
  - For PNG, JPEG and EXR it maps a codec's reported layout and depth to a
    texture layout, rejecting the unsupported ones before any pixel is
    decoded.
  - It routes BMP, PCX and TGA to their decoders.
- `Tga`: the Truevision TGA header and data offset.
  - The run-length packet loop (32, 24 and 16 bits), with its registers
    carried across scanlines.
  - The raw 32/24/16-bit and 8-bit paths, the bottom-up row order, the
    A1R5G5B5 expansion, and the X/Y mirror step chosen by the descriptor
    byte.
- `Pcx`: the ZSoft PCX header.
  - The single-plane palettised run-length stream.
  - The three-plane stream, whose runs carry from one plane segment to the
    next.
- `BmpSupport` and `Bmp`: the packed BMP file and info headers and the
  header-version detection from `bfOffBits`.
  - `IsMaskRGB8` and the two header loaders.
  - `UncompressBMPData`: stride padding, row direction, the 8-bit palette,
    the 24/32-bit copies, and the bitfield extraction and rescaling.
- `Bits`: the batched count-trailing-zeros and the de Bruijn
  count-leading-zeros on 32-bit words, and `Align` with its 64-bit
  wrap-around.
- `Ico`: the icon directory walk, which picks the first widest 32-bit entry
  that probes as PNG or as a header-less, half-height BMP. It also models
  the icon's `GetRaw`.
- `Wrapper`: the state shared by all wrappers: construction, `Reset`,
  `SetCompressed`, `SetRaw`, `GetRaw`, `GetCompressed` and
  `SetAnimationInfo`.
- `Vectors`: the growable `Vector<T>` with capacity doubling.
- Supporting modules:
  - `Formats`: the enumerations and the pixel and buffer layout.
  - `Grid`: images as rows, and flattening.
  - `Bytes`: little-endian fields.
  - `Seqs`, `Arith` and `Results`: small helpers.

The library-backed codecs (libpng, libjpeg-turbo, OpenEXR) are parameters of
type `Formats.Codec`. Each is a header probe that may fail and a pixel
decode that may fail.

Failure is a `Result` with a message. The source often returns `false`
without setting its warning; the model writes that as the empty message.

The pixel paths read the input without bounds checks. A buffer too short for
them is undefined behaviour in the source. The model never invents an error
for that case:
- The public decoders require the buffer to hold what they read (the
  `HoldsData` predicates).
- The inner readers return `None` where a read would leave the buffer.

## Model

| member | source | states |
|---|---|---|
| Detect.StartsWith | Source/Wrapper/ImageWrapperModule.cpp:18-31 | A buffer shorter than the signature never matches. Otherwise the result is true exactly when the leading bytes equal the signature. |
| Detect.MatchesFrom | Source/Wrapper/ImageWrapperModule.cpp:24-28 | From position i on, the comparison loop succeeds exactly when the buffer's slice i..n equals the signature's tail. |
| Detect.DetectImageFormat | Source/Wrapper/ImageWrapperModule.cpp:59-74 | Each of PNG, JPEG, BMP, ICO and EXR is returned exactly when its signature is present. TGA, PCX and grayscale JPEG are never returned. The identical DetectFormat is at Decoder.cpp:755-770. |
| Detect.SignaturesExclusive | Source/Wrapper/ImageWrapperModule.cpp:10-14 | No buffer carries two of the five signatures, so the order of the tests never decides the result. |
| Detect.DetectIsSignature | Source/Wrapper/ImageWrapperModule.cpp:59-74 | The result is Invalid exactly when none of the five signatures is present. |
| Detect.DetectReadsEightBytes | Source/Wrapper/ImageWrapperModule.cpp:59-74 | Detection gives the same result on the buffer and on its first eight bytes. |
| Detect.IcnsIsInvalid | Source/Wrapper/ImageWrapperModule.cpp:15 | The ICNS signature is declared but never compared: a buffer starting with it is Invalid. |
| Detect.CreateImageWrapper | Source/Wrapper/ImageWrapperModule.cpp:42-57 | A wrapper exists exactly for PNG, JPEG, grayscale JPEG, BMP, ICO and EXR. JPEG gets 4 components and grayscale JPEG 1. BMP gets the file-header, full-height wrapper. |
| Detect.DetectedHasWrapper | Source/Wrapper/ImageWrapperModule.cpp:42-74 | Every non-Invalid detection result has a wrapper, and Invalid has none. |
| Decoder.PngTarget | Source/Decoder/Decoder.cpp:383-408 | Gray, RGBA or BGRA up to 8 bits become (RGBA8, RGBA, 8); at exactly 16 bits they become (RGBA16, RGBA, 16). Everything else is unsupported. Both directions are stated. |
| Decoder.JpegTarget | Source/Decoder/Decoder.cpp:447-472 | Gray or RGBA become RGBA8 up to 8 bits and RGBA16 above. BGRA is unsupported. |
| Decoder.ExrTarget | Source/Decoder/Decoder.cpp:513-521 | Only RGBA at 16 bits is supported, and it becomes RGBA16F. |
| Decoder.DecodeWithCodec | Source/Decoder/Decoder.cpp:372-431 | Success exactly when the probe, the layout mapping and the pixel decode all succeed. A refused header fails with no warning. An unsupported layout fails with "X file contains data in an unsupported format.". A failed decode, after the probe and the mapping succeeded, fails with "Failed to decode X.". On success the record holds the probed description and the requested texture. |
| Decoder.FailureNamesCause | Source/Decoder/Decoder.cpp:372-431 | The warning alone identifies the failing step, in both directions. No warning means the probe failed. The unsupported-format text means the layout mapping failed. The decode text means the pixel decode failed. |
| Decoder.UnsupportedNeverDecodes | Source/Decoder/Decoder.cpp:405-408 | An unsupported layout is rejected whatever the pixel decoder would do. |
| Decoder.DecodeBmp | Source/Decoder/Decoder.cpp:549-576 | Success exactly when the BMP header loads, and failure carries no warning. On success the image is BGRA8 at the stored bit count (8, 24 or 32) with width * height * 4 bytes. The 8-bit pixels use the corrected palette of Findings row 1. |
| Decoder.DecodeImage | Source/Decoder/Decoder.cpp:368-719 | The output record names the requested container. PNG, JPEG and EXR go to the codec path with their own names and layout mappings. BMP, PCX and TGA go to their own decoders. ICO, grayscale JPEG and Invalid always fail silently. The texture layout belongs to the container's family. For TGA the buffer must hold the pixel data only when the header is accepted. |
| Decoder.TgaRefusedBeforeReading | Source/Decoder/Decoder.cpp:705-717 | A TGA buffer whose header is short or outside the accepted types needs nothing behind the header, and DecodeImage refuses it without a warning. |
| Decoder.DetectedBmpDecodes | Source/Decoder/Decoder.cpp:549-576 | A buffer that detection reports as BMP, and that holds both headers, decodes exactly when its info header passes the wrapper's checks. |
| Decoder.DecodedDepth | Source/Decoder/Decoder.cpp:383-526 | For PNG, JPEG and EXR the texture depth is 8 for RGBA8 and 16 for the 16-bit layouts. |
| Tga.ParseEncodeHeader | Source/Decoder/Decoder.cpp:40-53 | Reading the 18 packed little-endian header bytes written for any header gives that header back. |
| Tga.DataOffset | Source/Decoder/Decoder.cpp:57-59 | Pixel data starts after the 18-byte header and the id field. With no colour map it starts right there. |
| Tga.DataOffsetByEntrySize | Source/Decoder/Decoder.cpp:57-59 | The skipped colour map takes 2 bytes per entry of 15 or 16 bits, 3 bytes per entry of 24 bits and 4 bytes per entry of 32 bits. The same offset is computed at lines 95-96 and 134-135. |
| Tga.Expand16 | Source/Decoder/Decoder.cpp:163-167 | Each output colour byte of an A1R5G5B5 pixel has its low three bits clear. Alpha is 0 or 0x80. |
| Tga.Expand16Fields | Source/Decoder/Decoder.cpp:163-167 | B, G and R are the 5-bit fields at bits 0, 5 and 10 moved to the top of their bytes. Alpha is 0x80 exactly when bit 15 is set. |
| Tga.Pack16Expand16 | Source/Decoder/Decoder.cpp:163-167 | The expansion loses nothing: packing the expanded pixel gives the file pixel back. |
| Tga.ReadPixel | Source/Decoder/Decoder.cpp:116-124 | A 24-bit pixel is its three bytes with alpha 255. A 32-bit pixel is its four bytes. A 16-bit pixel is the expansion of its little-endian word. |
| Tga.ReadPixelsInBounds | Source/Decoder/Decoder.cpp:193-204 | Reading n pixels succeeds exactly when they lie inside the buffer. |
| Tga.Step | Source/Decoder/Decoder.cpp:66-87 | One iteration of the run-length loop keeps the invariant that the loop is never inside a repeat run and a literal packet at once. It never moves the read position back. |
| Tga.RunMatchesPackets | Source/Decoder/Decoder.cpp:64-88 | From any reachable register state, the loop emits exactly what the packet scheme describes. A header with bit 7 set repeats the next pixel (h & 0x7F) + 1 times; one with bit 7 clear is followed by (h & 0x7F) + 1 literal pixels. Runs continue across scanlines. |
| Tga.DecodeRleIsPackets | Source/Decoder/Decoder.cpp:56-172 | The three run-length decoders succeed exactly when the packet stream covers width * height pixels. They store that stream bottom-up. |
| Tga.BottomUpIndex | Source/Decoder/Decoder.cpp:180-181 | Texture pixel (x, y) of a bottom-up image is stream pixel (h - 1 - y) * w + x. |
| Tga.RawRowsAreBottomUp | Source/Decoder/Decoder.cpp:175-223 | The raw 32-bit and 24-bit paths read width * height pixels as one stream and store it bottom-up. |
| Tga.ReadRow16 | Source/Decoder/Decoder.cpp:194-203 | The inner 16-bit loop reads w consecutive pixels from the row start. |
| Tga.DecodeRaw16 | Source/Decoder/Decoder.cpp:186-205 | The 16-bit raw loop, with its sequential read pointer and its row index counting down, gives the stream stored bottom-up. |
| Tga.GrayRowsAreBottomUp | Source/Decoder/Decoder.cpp:225-236 | The 8-bit path stores the width * height data bytes bottom-up. |
| Tga.DepthOfBits | Source/Decoder/Decoder.cpp:243-264 | The true-colour paths take 32, 24 and 16 bits per pixel, each at its own pixel size. |
| Tga.Classify | Source/Decoder/Decoder.cpp:304-347 | When the header is accepted, the 8-bit layout is chosen exactly for a colour-mapped type 1 or a grayscale type 3 image. The run-length layouts are only for type 10 and the raw ones only for type 2. |
| Tga.MirrorTwice | Source/Decoder/Decoder.cpp:278-299 | Mirroring twice by the same descriptor gives the image back. |
| Tga.MirrorPixel | Source/Decoder/Decoder.cpp:291-297 | Pixel (x, y) lands at buffer element Destination: x is mirrored when descriptor bit 0x10 is set, and y when bit 0x20 is set. |
| Tga.Decompress | Source/Decoder/Decoder.cpp:304-366 | On success the texture has the header's size. It is G8 with w * h bytes, or BGRA8 with w * h * 4 bytes. |
| Tga.Decode | Source/Decoder/Decoder.cpp:705-717 | Success exactly for an 18-byte header of the 8-bit types, or of colour-mapless type 2 or 10 at 16, 24 or 32 bits. A header outside the accepted types fails silently. An accepted one that cannot be decoded fails with a warning naming the depth or the type. Only an accepted header must have its data in the buffer. |
| Tga.UnacceptedNeedsNoData | Source/Decoder/Decoder.cpp:705-717 | A 1 x 1, 32-bit type-2 header with a colour map and no pixel bytes is refused silently, although its data is missing. |
| Tga.PixelRowsAreStream | Source/Decoder/Decoder.cpp:238-265 | Before mirroring, the true-colour texture rows are the file's pixel stream stored bottom-up. The stream is read as packets for type 10 and as plain pixels for type 2. |
| Tga.DecodedTrueColour | Source/Decoder/Decoder.cpp:238-302 | A true-colour result is the file's pixel stream, stored bottom-up, mirrored as the descriptor asks, written B, G, R, A. |
| Tga.DecodedGray | Source/Decoder/Decoder.cpp:225-302 | An 8-bit result is the w * h data bytes, stored bottom-up and mirrored as the descriptor asks. |
| Tga.DecodedPixel | Source/Decoder/Decoder.cpp:238-302 | End to end for true colour: texture pixel (x, y) is stream pixel (h - 1 - y) * w + x, and its four bytes B, G, R, A land at Destination. |
| Tga.DecodedGrayPixel | Source/Decoder/Decoder.cpp:225-302 | End to end for 8 bits: texture byte (x, y) is data byte (h - 1 - y) * w + x, and it lands at Destination. |
| Pcx.ParseHeader | Source/Decoder/Decoder.cpp:16-36 | The manufacturer, bitsPerPixel and numPlanes bytes are read at offsets 0, 3 and 65. The coordinates and bytesPerLine are 16-bit fields. |
| Pcx.PaletteIndices | Source/Decoder/Decoder.cpp:625-639 | The corrected single-plane reader yields exactly n values, the image's pixel count, whatever the runs' lengths. |
| Pcx.PaletteIndicesCutsAsWritten | Source/Decoder/Decoder.cpp:625-639 | The corrected single-plane reader and the loop as written fail on the same streams. The corrected one yields exactly the first n values the written loop stores. |
| Pcx.PaletteIndicesOvershoot | Source/Decoder/Decoder.cpp:625-639 | For a 1x1 image whose stream is a run of two 5s, the written loop stores two values, one past the output buffer. The corrected reader stores one. |
| Pcx.PaletteIndicesRoundTrip | Source/Decoder/Decoder.cpp:625-639 | The single-plane reader decodes any run list encoded as count byte 0xC0 + n followed by the value, or as a literal below 0xC0. It does so whatever bytes follow. |
| Pcx.ScanlineValuesRoundTrip | Source/Decoder/Decoder.cpp:665-692 | A scanline of the three-plane stream reads back exactly the values of the encoded run list, and the next scanline starts right after the encoding. |
| Pcx.ScanlineStep | Source/Decoder/Decoder.cpp:671-689 | One iteration of the plane loop either pays off an owed run, reads a literal, or reads a run header cut at the plane's end. It continues the scanline reference exactly. |
| Pcx.DecodePlane | Source/Decoder/Decoder.cpp:670-690 | The loop over one colour plane yields countU values and continues the scanline reference. It fails only where the reference reads past the buffer. |
| Pcx.DecodeScanline | Source/Decoder/Decoder.cpp:665-692 | The three plane loops of one scanline, with the overflow carried between planes and reset at the scanline's start, compute ScanlineValues of 3 * countU values. |
| Pcx.PaletteEntry | Source/Decoder/Decoder.cpp:613-623 | Entry i takes R, G, B from the file's last 768 bytes. Entry 0 has alpha 0 and every other entry alpha 255. |
| Pcx.PlanarRow | Source/Decoder/Decoder.cpp:659-688 | The first plane segment goes to byte 2, the second to byte 1 and the third to byte 0. Columns from countU on and every alpha byte stay 0xFF. |
| Pcx.CountU | Source/Decoder/Decoder.cpp:664 | The plane segment length is at most both the width and bytesPerLine. |
| Pcx.Decode | Source/Decoder/Decoder.cpp:581-700 | Success exactly for a buffer of at least 128 bytes with manufacturer 10, 8 bits and 1 or 3 planes. Failure is silent for a short buffer or a wrong manufacturer, and otherwise names "(planes/bits)". The output is BGRA8 at (xMax + 1 - xMin) by (yMax + 1 - yMin) with w * h * 4 bytes. |
| Pcx.SinglePlanePixel | Source/Decoder/Decoder.cpp:595-639 | Pixel i of a single-plane image is the palette entry of the i-th index of the stream, written B, G, R, A. |
| Pcx.ThreePlanePixel | Source/Decoder/Decoder.cpp:640-692 | Pixel (x, y) of a three-plane image takes R, G and B from the three segments of scanline y when x < countU. Otherwise it stays 0xFF. |
| Pcx.ThreePlaneRowsOpaque | Source/Decoder/Decoder.cpp:659-660 | Every pixel of a three-plane image is opaque. |
| Pcx.OnePixelExample | Source/Decoder/Decoder.cpp:591-639 | A 1x1 image with index 1 and palette entry (10, 20, 30) decodes to the bytes 30, 20, 10, 255. |
| BmpSupport.ParseEncodeFileHeader | Source/Wrapper/BmpImageSupport.h:40-46 | The 14-byte packed little-endian file header reads back bfType, bfSize, the reserved fields and bfOffBits at offsets 0, 2, 6, 8 and 10. |
| BmpSupport.ParseInfoHeader | Source/Wrapper/BmpImageSupport.h:66-78 | Every field is read from its packed offset. biHeight is signed (two's complement) and the other fields are unsigned. |
| BmpSupport.ParseEncodeInfoHeader | Source/Wrapper/BmpImageSupport.h:66-78 | Reading the 40 packed bytes written for any info header, a negative height included, gives that header back. |
| BmpSupport.HeaderVersionOf | Source/Wrapper/BmpImageSupport.h:49-60 | bfOffBits 66, 70, 122 and 138 select V2, V3, V4 and V5. Every other offset, 54 included, selects the plain info header. Both directions are stated. |
| BmpSupport.HeaderVersionOfSmallOffset | Source/Wrapper/BmpImageSupport.h:52 | An offset below 14 wraps around in unsigned 64-bit (size_t) arithmetic to at least 2^64 - 14, and selects the plain info header. |
| BmpSupport.SpansEightBitsIff | Source/Wrapper/BmpImageSupport.cpp:5 | CLZ(m) + CTZ(m) == 24 holds exactly when m is non-zero and its highest set bit is seven above its lowest. The bits in between do not matter. |
| BmpSupport.ZeroMaskFails | Source/Wrapper/BmpImageSupport.cpp:5 | A zero mask fails, because both of its counts are 0. |
| BmpSupport.IsMaskRgb8Examples | Source/Wrapper/BmpImageSupport.cpp:5 | The usual 8-bit masks pass, and so does the non-contiguous 0x00810000. A zero red mask fails. The alpha mask never matters. |
| Bits.CountTrailingZeros | Source/Utils/Utils.cpp:5-34 | The result is below 32 and is 0 for a zero word. For a non-zero word it is the index of the lowest set bit: that bit is set and every lower one is clear. |
| Bits.LowestSetBitUnique | Source/Utils/Utils.cpp:5-34 | The lowest set bit is unique, so the contract above fixes the count. |
| Bits.CountLeadingZerosSpec | Source/Utils/Utils.cpp:36-45 | For a non-zero word the de Bruijn count is 31 minus the index of its highest set bit. |
| Bits.CountLeadingZerosCorrect | Source/Utils/Utils.cpp:36-45 | A word whose highest set bit is k counts 31 - k leading zeros. |
| Bits.CountLeadingZerosOfZero | Source/Utils/Utils.cpp:38-44 | The zero word counts 0 leading zeros, not 32. |
| Bits.HighestSetBitUnique | Source/Utils/Utils.cpp:36-45 | The highest set bit is unique, so the count is determined. |
| Bits.SmearIsMask | Source/Utils/Utils.cpp:38-42 | The shift-or cascade turns a word whose highest set bit is k into the mask of bits 0..k. |
| Bits.DeBruijnEntry | Source/Utils/Utils.cpp:37-44 | For the power of two 2^(k+1), the table entry the product selects is 31 - k. |
| Bits.BitSpanRange | Source/Wrapper/Formats/BmpImageWrapper.cpp:169 | 32 - (CTZ + CLZ) is between 1 and 32 for every mask, and 32 for the zero mask. |
| Bits.SingleBitCounts | Source/Wrapper/Formats/BmpImageWrapper.cpp:168-169 | A one-bit mask at bit k has CTZ k and spans one bit. |
| Bits.ByteMaskCounts | Source/Wrapper/Formats/BmpImageWrapper.cpp:168-169 | The byte masks at bits 0, 8 and 16 have CTZ 0, 8 and 16 and span eight bits. |
| Bits.Align | Source/Utils/Utils.h:21-24 | The result is a multiple of the alignment that fits in 64 bits. When v + a - 1 does not overflow, it lies in [v, v + a). |
| Bits.AlignIsLeastMultiple | Source/Utils/Utils.h:13-24 | Below the overflow bound, no multiple of the alignment that is at least v is smaller than Align(v, a). |
| Bits.AlignOfMultiple | Source/Utils/Utils.h:21-24 | A multiple of the alignment is left unchanged, so Align is idempotent below the overflow bound. |
| Bits.AlignWrapsAround | Source/Utils/Utils.h:23 | The uint64 sum wraps: aligning 2^64 - 1 to 4 gives 0. |
| Bmp.CheckInfoHeader | Source/Wrapper/Formats/BmpImageWrapper.cpp:211-230 | An info header passes exactly when compression is RGB or BITFIELDS, planes is 1 and the bit count is 8, 24 or 32. It then records width = biWidth (as int), height = abs(biHeight), BGRA and the bit count. Otherwise it fails with the RLE, 16-bit or "(planes/bits)" message. |
| Bmp.LoadHeader | Source/Wrapper/Formats/BmpImageWrapper.cpp:207-234 | Success exactly for at least 54 bytes starting with "BM" whose info header passes. A short or unsigned buffer fails without a message. |
| Bmp.LoadInfoHeader | Source/Wrapper/Formats/BmpImageWrapper.cpp:236-261 | The same checks at offset 0, with no size or signature test. Every failure carries its message. |
| Bmp.SetCompressed | Source/Wrapper/Formats/BmpImageWrapper.cpp:201-205 | An empty buffer is refused. Otherwise the loader for the wrapper's mode decides. |
| Bmp.HalveTowardZero | Source/Wrapper/Formats/BmpImageWrapper.cpp:55 | C++ int / 2 truncates toward zero, for either sign. |
| Bmp.HalvedHeight | Source/Wrapper/Formats/BmpImageWrapper.cpp:55 | The decoded height is abs(biHeight), or abs(biHeight) / 2 in half-height mode, whatever the sign. |
| Bmp.Stride | Source/Wrapper/Formats/BmpImageWrapper.cpp:84-134 | Rows are a multiple of 4 bytes. 8-bit rows take the least such size of at least w bytes, 24-bit rows of at least 3w bytes, and 32-bit rows exactly 4w. |
| Bmp.SourceRow | Source/Wrapper/Formats/BmpImageWrapper.cpp:83-93 | With a positive biHeight, output row y is stored row h - 1 - y. With a negative one it is stored row y. |
| Bmp.TrueColourPixel | Source/Wrapper/Formats/BmpImageWrapper.cpp:141-153 | The three stored bytes are copied in order and the fourth output byte is 0xFF. |
| Bmp.PaletteCount | Source/Wrapper/Formats/BmpImageWrapper.cpp:61-62 | A biClrUsed of 0 means 256 entries. |
| Bmp.Palette | Source/Wrapper/Formats/BmpImageWrapper.cpp:61-81 | The corrected palette has 256 entries: the first count quads from offset 54, each decoded like a 24-bit pixel (B, G, R, 255), then opaque black. |
| Bmp.PaletteAsWritten | Source/Wrapper/Formats/BmpImageWrapper.cpp:44-81 | As written, entry i holds the quad's bytes 2, 1, 0 then 255 in memory order, and the padding is opaque black. |
| Bmp.PaletteAsWrittenSwapsRedAndBlue | Source/Wrapper/Formats/BmpImageWrapper.cpp:44-116 | The same stored colour decodes to 3, 2, 1, 255 through the written palette and to 1, 2, 3, 255 through the 24-bit path. |
| Bmp.Rescale | Source/Wrapper/Formats/BmpImageWrapper.cpp:170 | The result is the integer nearest to 255 v / d. |
| Bmp.RescaleBound | Source/Wrapper/Formats/BmpImageWrapper.cpp:170 | A value within the field's range rescales into a byte. |
| Bmp.RescaleEnds | Source/Wrapper/Formats/BmpImageWrapper.cpp:170 | 0 maps to 0 and the field's maximum maps to 255. |
| Bmp.RescaleEightBits | Source/Wrapper/Formats/BmpImageWrapper.cpp:170 | An 8-bit field rescales to itself. |
| Bmp.ChannelOfZeroMask | Source/Wrapper/Formats/BmpImageWrapper.cpp:168-181 | A zero mask yields 0 whatever the pixel. |
| Bmp.ChannelOfByteMask | Source/Wrapper/Formats/BmpImageWrapper.cpp:164-182 | With a byte mask at bit 0, 8 or 16, the channel is that byte of the pixel. |
| Bmp.ChannelOfOneBitMask | Source/Wrapper/Formats/BmpImageWrapper.cpp:164-182 | With a one-bit mask, the channel is 255 when the bit is set and 0 otherwise. |
| Bmp.Uncompress | Source/Wrapper/Formats/BmpImageWrapper.cpp:16-199 | With the corrected palette of Findings row 1: something is decoded exactly when the buffer passes the gate (header-less, or at least 54 bytes starting with "BM") and its compression and depth are handled. The result then has the image's width and height (abs(biHeight), halved in half-height mode) and width * height * 4 bytes. |
| Bmp.UncompressPixel | Source/Wrapper/Formats/BmpImageWrapper.cpp:88-190 | Output pixel (x, y) is the four bytes at 4 (x + y w), in B, G, R, A order. |
| Bmp.StoredPixel | Source/Wrapper/Formats/BmpImageWrapper.cpp:83-190 | Output pixel (x, y) is decoded from column x of stored row SourceRow(y), and that row lies inside the buffer. |
| Bmp.IndexedPixel | Source/Wrapper/Formats/BmpImageWrapper.cpp:61-94 | With the corrected palette of Findings row 1, an 8-bit pixel is the quad its index selects, read like a 24-bit pixel. An index at or beyond the palette count gives opaque black. |
| Bmp.IndexedPixelAsWritten | Source/Wrapper/Formats/BmpImageWrapper.cpp:44-94 | With the palette as the source builds it, every 8-bit pixel is the corrected pixel with red and blue exchanged. |
| Bmp.FieldsOpaqueBeforeV4 | Source/Wrapper/Formats/BmpImageWrapper.cpp:173-184 | Bitfield pixels of a header older than version 4 are opaque. |
| Bmp.PlainPathChoice | Source/Wrapper/Formats/BmpImageWrapper.cpp:137-174 | The plain 32-bit path is taken exactly for RGB, or for BITFIELDS with 8-bit masks before version 4. Otherwise the masks come from offset 54, and alpha is used exactly when mask 3 is non-zero and the version is at least 4. |
| Ico.EntryAt | Source/Wrapper/Formats/IcoImageWrapper.cpp:10-19 | A directory entry is 16 packed bytes after the 6-byte directory header. dwBytesInRes is a 32-bit field. |
| Ico.Entries | Source/Wrapper/Formats/IcoImageWrapper.cpp:99-101 | The walk visits idCount entries, entry i being EntryAt(i). |
| Ico.RealWidth | Source/Wrapper/Formats/IcoImageWrapper.cpp:102 | The real width is between 1 and 256, and it is 256 exactly when the width byte is 0. |
| Ico.Probe | Source/Wrapper/Formats/IcoImageWrapper.cpp:104-123 | An entry succeeds as PNG when the PNG probe accepts its bytes. It succeeds as BMP only when PNG refuses and the header-less BMP loader accepts, with the loaded height halved. Otherwise, or for a non-positive size, it fails. |
| Ico.Step | Source/Wrapper/Formats/IcoImageWrapper.cpp:101-125 | An entry is selected exactly when it has 32 bits, is strictly wider than the width to beat, lies in the buffer and probes. Otherwise the selection and the width to beat are unchanged. Only an entry that is probed (32 bits, wider, positive size) is read, and a read past the buffer is flagged exactly for such an entry. |
| Ico.Walk | Source/Wrapper/Formats/IcoImageWrapper.cpp:96-126 | For any directory, after the walk the selected entry probes successfully and its real width is the width to beat. With no selection that width is 0. |
| Ico.WalkReadsPast | Source/Wrapper/Formats/IcoImageWrapper.cpp:101-106 | The walk reads past the buffer exactly when some entry it probes, with the width to beat it meets, does not lie in the buffer. Entries it skips are never read. |
| Ico.HeldEntriesReadInside | Source/Wrapper/Formats/IcoImageWrapper.cpp:101-106 | A directory whose every resource lies in the buffer is walked without reading past it. |
| Ico.WalkFindsViable | Source/Wrapper/Formats/IcoImageWrapper.cpp:96-136 | An entry is selected exactly when some 32-bit entry probes successfully. |
| Ico.WalkSelectsFirstWidest | Source/Wrapper/Formats/IcoImageWrapper.cpp:97-124 | No viable entry is wider than the selected one, and every earlier viable entry is narrower, so ties keep the earliest. |
| Ico.LoadHeader | Source/Wrapper/Formats/IcoImageWrapper.cpp:87-137 | Loading fails silently unless idReserved is 0 and idType is 1 and an entry is selected. It records that entry's probe result, offset and size. Only the directory and the resources the walk probes need lie in the buffer. |
| Ico.FarEntryUnread | Source/Wrapper/Formats/IcoImageWrapper.cpp:101-125 | An icon whose second, narrower entry points past the buffer still loads its first entry, because that entry is never probed. |
| Ico.LoadSelectsFirstWidest | Source/Wrapper/Formats/IcoImageWrapper.cpp:87-137 | An icon loads exactly when its directory has a viable entry, and it selects the first of the widest. |
| Ico.GetRawAsWritten | Source/Wrapper/Formats/IcoImageWrapper.cpp:59-82 | As written, with a zero offset or size nothing is decoded and the data is empty. Otherwise what is decoded is the sub-wrapper's last buffer, not the entry (see StaleSubWrapper). |
| Ico.GetRaw | Source/Wrapper/Formats/IcoImageWrapper.cpp:59-82 | The corrected GetRaw hands over nothing when the offset or size is zero. For a PNG entry it hands over the PNG decode of the entry's own bytes. For a BMP entry it hands over the header-less, half-height BMP decode of the entry's own bytes, or nothing when that fails. |
| Ico.WalkKeepsSelected | Source/Wrapper/Formats/IcoImageWrapper.cpp:101-125 | When no entry after the selected one is probed, the sub-wrapper of the selected container still holds the selected entry's bytes. |
| Ico.LoadedSubDataFresh | Source/Wrapper/Formats/IcoImageWrapper.cpp:59-136 | When no entry after the selected one is a probed 32-bit entry, GetRaw as written and the corrected GetRaw hand back the same data. |
| Ico.BmpIconSize | Source/Wrapper/Formats/IcoImageWrapper.cpp:113-117 | A BMP icon decodes to width * height * 4 bytes, the height being half the stored one. |
| Ico.StaleSubWrapper | Source/Wrapper/Formats/IcoImageWrapper.cpp:101-136 | In a two-entry icon whose wider entry fails both probes, the narrower entry is selected. As written GetRaw then yields no data; the corrected one yields its pixel. |
| Wrapper.New | Source/Wrapper/ImageWrapperBase.cpp:24 | A new wrapper has no data, no error, Invalid formats, zero depths and size, one frame and framerate 0. |
| Wrapper.Reset | Source/Wrapper/ImageWrapperBase.cpp:29-40 | Reset restores that description and clears the error, keeping both buffers. |
| Wrapper.SetCompressed | Source/Wrapper/ImageWrapperBase.cpp:65-79 | It succeeds exactly for a non-empty buffer, and a refused call changes nothing. On success the compressed data is exactly the input, the raw data is empty and the description is reset. |
| Wrapper.SetCompressedForgets | Source/Wrapper/ImageWrapperBase.cpp:65-79 | After a successful call the state does not depend on the earlier state. |
| Wrapper.SetRaw | Source/Wrapper/ImageWrapperBase.cpp:81-102 | The raw data is exactly the input, and the compressed data is empty. Raw format, width and height are recorded. The raw depth is stored in a byte field, so it is kept modulo 256. The rest is reset. |
| Wrapper.GetRaw | Source/Wrapper/ImageWrapperBase.cpp:54-63 | The call succeeds exactly when the decoding step, started with a cleared error, sets no error. It then hands over the raw data and leaves the wrapper's buffer empty. Otherwise it reports the error. |
| Wrapper.GetRawIgnoresOldError | Source/Wrapper/ImageWrapperBase.cpp:55 | An error left from an earlier call never affects GetRaw. |
| Wrapper.SetRawGetRaw | Source/Wrapper/ImageWrapperBase.cpp:54-102 | With a decoding step that keeps a filled buffer, GetRaw hands back exactly the bytes given to SetRaw. |
| Wrapper.GetCompressedIgnoresOldError | Source/Wrapper/ImageWrapperBase.cpp:47-52 | An error left from an earlier call never affects GetCompressed. |
| Wrapper.SetCompressedGetCompressed | Source/Wrapper/ImageWrapperBase.cpp:47-79 | With an encoding step that leaves the compressed buffer alone, as the BMP and ICO ones do (Source/Wrapper/Formats/BmpImageWrapper.cpp:14), GetCompressed hands back exactly the bytes given to a successful SetCompressed. |
| Wrapper.SetAnimationInfo | Source/Wrapper/ImageWrapperBase.cpp:104-109 | It always succeeds, stores both values and changes nothing else. |
| Vectors.Empty | Source/Decoder.h:31-35 | The default vector (and a cleared one) has size 0 and capacity 1. |
| Vectors.Filled | Source/Decoder.h:36-49 | With the doubling capped as push_back caps it, Vector(n, a) holds n copies of a. Its capacity is at least n and below 2n (or 1), a power of two whenever n <= 2^63, and the invariant holds. |
| Vectors.CapacityAsWrittenValues | Source/Decoder.h:41-44 | As written, the constructor's capacity is 2^k after k doublings for k < 64, and 0 from then on. |
| Vectors.FilledAsWrittenNeverStops | Source/Decoder.h:41-44 | As written, for a size above 2^63 the capacity never reaches the size, so the loop never ends. |
| Vectors.Grow | Source/Decoder.h:70-73 | A full vector's capacity doubles, capped at SIZE_MAX, and stays a power of two or the cap. |
| Vectors.GrowAsWrittenAgrees | Source/Decoder.h:70-73 | Below 2^63 the size_t doubling as written equals the intended one. |
| Vectors.GrowAsWrittenWraps | Source/Decoder.h:70-73 | At capacity 2^63 the written doubling wraps to 0, where the cap SIZE_MAX was intended. |
| Vectors.PushBack | Source/Decoder.h:62-82 | Below the maximum size the value is appended and the earlier elements are kept. The capacity is kept when there is room and doubled (capped) when full. A vector at the maximum size is unchanged. The invariant is preserved. |
| Vectors.PopBack | Source/Decoder.h:83-86 | The size drops by one, the remaining elements and the capacity are unchanged, and the invariant is kept. |
| Vectors.PopBackPushBack | Source/Decoder.h:62-86 | pop_back undoes push_back. |
| Vectors.Append | Source/Decoder.h:104-107 | k pushes of a value append k copies and never shrink the capacity. |
| Vectors.ShrinkAsWrittenSize | Source/Decoder.h:99-102 | The shrinking loop as written keeps n + (size - n) / 2 elements instead of n. |
| Vectors.ResizeAsWrittenKeepsTwo | Source/Decoder.h:93-109 | Resizing four elements down to one keeps two. |
| Vectors.Resize | Source/Decoder.h:93-109 | The corrected resize ends with exactly n elements, the first min(size, n) unchanged. An equal size changes nothing, and n = 0 clears. |
| Grid.FlipInvolution | Source/Decoder/Decoder.cpp:278-299 | Flipping the same way twice restores the image. |
| Grid.FlipMovesBlock | Source/Decoder/Decoder.cpp:291-297 | The block at (X, Y) of the buffer moves to (DestX, DestY), each coordinate mirrored when its flag is set. |
| Formats.ImageBytesPixel | Source/Decoder/Decoder.cpp:87 | In a 4-byte-per-pixel texture, byte 4 (x + y w) + c is channel c of pixel (x, y). |

## Left out

- The PNG, JPEG and EXR adapters (libpng, libjpeg-turbo, OpenEXR) are not part of this model. Each is a `Codec` parameter: a header probe and a pixel decode, either of which may fail.
- The `Decode` export at Source/Decoder/Decoder.cpp:721-730 only copies the warning into a vector it then drops. Its result is DecodeImage's.
- Logging (`std::cerr`, `LogMessage`) is not modelled.
  - Where the source only logs, the model returns `None` or an empty message.
  - CheckInfoHeader keeps the logged text as its message.
- The BMP colour-space check at Source/Wrapper/Formats/BmpImageWrapper.cpp:156-162 only logs a warning. Its read is part of `Bmp.HoldsData`; its message is not modelled.
- The throwing `Assert` macro (Source/Utils/Utils.h:26-36) is not modelled. `Wrapper.SetRaw` requires what it asserts.
- Reads the source does without bounds checks are not modelled as errors. The TGA, PCX, BMP and ICO paths never check their reads. Each model requires the buffer to hold them (`HoldsData`), and the inner readers return `None` where a read would leave the buffer.
  - For ICO, that is the directory and the resource of each entry the walk probes (`Ico.WalkReadsPast`). An entry the walk skips may point anywhere.
- Pcx.Decode: requires a non-negative width and height. They are the int values xMax + 1 - xMin and yMax + 1 - yMin of uint16 fields (Source/Decoder/Decoder.cpp:592-593), and the source does not check their signs. When exactly one is negative, the allocation of width * height * 4 bytes (Decoder.cpp:609, 654) gets a negative size, which throws out of DecodeImage. When both are negative the product is positive, and the source reports success with a negative width and height: the single-plane path decodes width * height pixels, and the three-plane path fills the buffer with 0xFF and decodes no row. The model says nothing about either case.
  - It also requires the stream to cover the image.
  - A single-plane run reaching past the image's end is cut there, as in Findings row 6. The source writes the rest of the run past its buffer.
- Pcx.Decode: sizes are unbounded. The source allocates width * height * 4 bytes as an int product (Source/Decoder/Decoder.cpp:609, 654). At 2^31 or more that product overflows, which is undefined behaviour; the model returns the full-size image.
- Tga.Decompress: requires the data its header announces (`Tga.HoldsData`), including run-length packets covering the image, because DecompressTGA reads them without a bounds check. Tga.Decode and Decoder.DecodeImage ask for it only of an accepted header, since any other header is refused before a read.
- Tga.Decompress: sizes are unbounded. The 16-bit width and height are multiplied as int (Source/Decoder/Decoder.cpp:320, 333, 358). A product w * h * 4 (w * h for 8 bits) of 2^31 or more overflows, which is undefined behaviour; the model's sizes are exact products. Tga.Decode and Decoder.DecodeImage inherit this.
- Bmp.Uncompress: requires 0 <= biWidth, width * 4 < 2^31 and width * height * 4 < 2^31 (in `SideDataHeld`). The source resizes its buffer by the int product height * width * 4 (Source/Wrapper/Formats/BmpImageWrapper.cpp:57, 101, 127). A negative biWidth makes that size negative, and a large one overflows; neither is modelled.
- Bmp.Uncompress: decodes 8-bit images with the corrected palette of Findings row 1. The pixels the source produces are stated by Bmp.IndexedPixelAsWritten.
- Decoder.DecodeBmp: inherits both Bmp.Uncompress restrictions: the width and size bounds, and the corrected palette.
- Bmp.Rescale: the source multiplies by a single-precision ratio and rounds. The model computes round(255 v / d) exactly, with d = 2^span - 1 odd so no tie arises. For wide fields the float product can differ by one.
- Bmp.Scale: stores `(int)round(...)` into a byte as the value modulo 256. The bound into 0..255 is proved only for field values within the mask's span.
- Bmp.Abs: returns 2^31 for the height -2^31. In C++ `abs(INT_MIN)` is undefined.
- Decoder.DecodeImage: on failure the model returns only the warning. The fields the source has already written into the output record before failing are not modelled.
- Ico.GetRaw and Ico.GetRawAsWritten: a PNG sub-wrapper's failed decode is modelled as empty raw data. The error it sets belongs to the sub-wrapper, not the icon.
- Wrapper.SetCompressed: has no null pointer. A null buffer and an empty one are the same refused input.
- `std::move` of the raw buffer is modelled as handing it over and leaving the wrapper's buffer empty.
- Vectors.Filled: models the intended loop, capped at SIZE_MAX the way push_back caps growth. The source's clamp of n to `_max_capacity` (Source/Decoder.h:37-39) can never fire, since `_max_capacity` is SIZE_MAX. For n above 2^63 the source's doubling wraps to 0 and the loop never ends (Findings row 5).
- The `Vector` accessors (`size`, `capacity`, `operator[]`, `begin`, `end`, `data`, `empty`), the copy constructor and copy assignment (Source/Decoder.h:50-61, 110-138) are not modelled. Copying a value is the identity here.
- The `Vector<uint8_t>` overload of `IImageWrapper::GetRaw` (Source/Wrapper/ImageWrapperBase.cpp:6-19) is not modelled. It compares a size with itself.
- The compression paths are not modelled: BMP and ICO only log, and the others call the libraries. `Wrapper.GetCompressed` takes the encoding step as a parameter.
- Source/Utils.h repeats `Align` from Source/Utils/Utils.h word for word, so it is modelled once.
- The declaration-only headers and Test/main.cpp are not part of this model.
- Multi-byte pixel reads assume a little-endian host, as the source's casts to `uint16_t*` and `uint32_t*` do.

## Findings

| source | as written | input that shows it | evidently intended | confidence | as-written member | corrected member |
|---|---|---|---|---|---|---|
| Source/Wrapper/Formats/BmpImageWrapper.cpp:44-81 | The 8-bit palette is built in a local colour struct declared r, g, b, a. Each pixel is therefore stored as red, green, blue, alpha, although the image is reported as BGRA. | An 8-bit BMP whose palette quad is (blue 1, green 2, red 3). Its pixel decodes to the bytes 3, 2, 1, 255, while the 24-bit path gives 1, 2, 3, 255 for the same colour. | Blue-first bytes (q[0], q[1], q[2], 255), like the 24 and 32-bit paths. | high; not executed | Bmp.PaletteAsWrittenSwapsRedAndBlue | Bmp.Palette |
| Source/Wrapper/Formats/IcoImageWrapper.cpp:101-134 | The PNG and BMP sub-wrappers are shared by every probe. A later, wider 32-bit entry that fails its probes still overwrites the sub-wrapper's bytes, and GetRaw decodes those. | An icon whose first entry is a 16-wide 32-bit BMP and whose second is a 32-wide BMP with RLE compression. Entry 0 is selected, but GetRaw yields no pixels and still reports success. | GetRaw decodes the selected entry's own bytes. | high; not executed | Ico.StaleSubWrapper | Ico.GetRaw |
| Source/Decoder.h:99-102 | The shrinking loop of `resize` counts `s` up from the new size while `pop_back` lowers `_size`, so it stops half way. | A vector of four elements resized to one keeps two. | Exactly n elements remain. | high; not executed | Vectors.ResizeAsWrittenKeepsTwo | Vectors.Resize |
| Source/Decoder.h:70-73 | The capacity is doubled in size_t before it is compared with the cap, so it wraps to 0 at 2^63. | A full vector of capacity 2^63 that is pushed to. | Capacity capped at SIZE_MAX. | low (needs a 2^63-element vector); not executed | Vectors.GrowAsWrittenWraps | Vectors.Grow |
| Source/Decoder.h:41-44 | The constructor doubles the capacity in size_t until it reaches the size. For a size above 2^63 the capacity climbs to 2^63, wraps to 0, and stays there. | `Vector(2^63 + 1, a)`. | The capacity stops at SIZE_MAX, as in push_back. | medium (needs a request above 2^63 elements); not executed | Vectors.FilledAsWrittenNeverStops | Vectors.Filled |
| Source/Decoder/Decoder.cpp:625-639 | The single-plane PCX loop checks for the end of the image only between packets, so a run is always written whole. A run reaching past the end writes past the output buffer. | A 1x1 single-plane image whose stream is 0xC2, 5: two values are written into a buffer of one pixel. | The run is cut at the end of the image, as the three-plane path cuts runs at the end of a plane. | high; not executed | Pcx.PaletteIndicesOvershoot | Pcx.PaletteIndices |

=== FILE: arith.dfy ===
/** Small facts about products of naturals. Each is kept in a lemma of its
    own so that a proof about buffer offsets states exactly the step it
    needs and the solver never searches the products itself. */
module Arith {

  lemma MulSucc(a: nat, b: nat)
    ensures (a + 1) * b == a * b + b
  {
  }

  lemma MulSuccRight(a: nat, b: nat)
    ensures a * (b + 1) == a * b + a
  {
  }

  lemma MulLeRight(a: nat, b: nat, c: nat)
    requires b <= c
    ensures a * b <= a * c
  {
  }

  lemma MulLe(a: nat, b: nat, c: nat)
    requires a <= b
    ensures a * c <= b * c
  {
  }

  lemma MulComm(a: nat, b: nat)
    ensures a * b == b * a
  {
  }

  lemma MulAssoc(a: nat, b: nat, c: nat)
    ensures a * b * c == a * (b * c)
  {
  }

  lemma MulAdd(a: nat, b: nat, c: nat)
    ensures (a + b) * c == a * c + b * c
  {
  }
}

=== FILE: bits.dfy ===
/** Bit utilities: trailing/leading zero counts of a 32-bit word and
    power-of-two alignment (Source/Utils/Utils.cpp, Source/Utils/Utils.h). */
module Bits {

  /** 2 to the power `n`. */
  function Pow2(n: nat): (r: nat)
    ensures r >= 1
  {
    if n == 0 then 1 else 2 * Pow2(n - 1)
  }

  predicate IsPowerOfTwo(a: nat)
    ensures IsPowerOfTwo(a) ==> a >= 1
  {
    a == 1 || (a >= 2 && a % 2 == 0 && IsPowerOfTwo(a / 2))
  }

  // ---------------------------------------------------------------------------
  // Count trailing zeros
  // ---------------------------------------------------------------------------

  /** Bit `k` of `n` is set and every bit below it is clear. */
  predicate IsLowestSetBit(n: bv32, k: bv32)
  {
    k < 32 && (n >> k) & 1 == 1 && n & ((1 << k) - 1) == 0
  }

  /** The source's batched count: test the low 16, 8, 4, 2 bits in turn,
      shifting them out when they are all clear, then look at the last bit.
      A zero word yields 0. */
  function CountTrailingZeros(n: bv32): (r: bv32)
    ensures r < 32
    ensures n != 0 ==> IsLowestSetBit(n, r)
    ensures n == 0 ==> r == 0
  {
    if n == 0 then 0
    else
      var b1: bv32, x1: bv32 :=
        if n & 0x0000_FFFF == 0 then 16 else 0, if n & 0x0000_FFFF == 0 then n >> 16 else n;
      var b2: bv32, x2: bv32 :=
        if x1 & 0xFF == 0 then b1 + 8 else b1, if x1 & 0xFF == 0 then x1 >> 8 else x1;
      var b3: bv32, x3: bv32 :=
        if x2 & 0xF == 0 then b2 + 4 else b2, if x2 & 0xF == 0 then x2 >> 4 else x2;
      var b4: bv32, x4: bv32 :=
        if x3 & 0x3 == 0 then b3 + 2 else b3, if x3 & 0x3 == 0 then x3 >> 2 else x3;
      b4 + ((x4 & 1) ^ 1)
  }

  /** Masking a word with a single bit leaves nothing or that bit. */
  lemma MaskedBit(word: bv32, k: bv32)
    requires k < 32
    ensures word & (1 << k) == 0 || word & (1 << k) == 1 << k
  {
  }

  /** A single bit shifted up by `k` and back down is bit 0 again. */
  lemma UnitShiftBack(k: bv32)
    requires k < 32
    ensures ((1 as bv32) << k) >> k == 1
  {
  }

  /** Bit `k` of a word, masked and shifted down to bit 0. */
  lemma ShiftedMaskedBit(word: bv32, k: bv32)
    requires k < 32
    ensures (word & (1 << k)) >> k == (if word & (1 << k) != 0 then 1 else 0)
  {
    MaskedBit(word, k);
    UnitShiftBack(k);
  }

  /** A byte of a word, masked in place and shifted down, is the word
      shifted down and masked. */
  lemma ShiftedByte(word: bv32, k: bv32)
    requires k == 0 || k == 8 || k == 16
    ensures (word & (0xFF << k)) >> k == (word >> k) & 0xFF
  {
    if k == 0 {
    } else if k == 8 {
      assert (word & 0xFF00) >> 8 == (word >> 8) & 0xFF;
    } else {
      assert (word & 0xFF_0000) >> 16 == (word >> 16) & 0xFF;
    }
  }

  /** The lowest set bit is unique, so the contract of CountTrailingZeros
      pins its result down completely. */
  lemma LowestSetBitUnique(n: bv32, j: bv32, k: bv32)
    requires IsLowestSetBit(n, j) && IsLowestSetBit(n, k)
    ensures j == k
  {
  }

  // ---------------------------------------------------------------------------
  // Count leading zeros (de Bruijn)
  // ---------------------------------------------------------------------------

  /** Bit `k` of `x` is set and every bit above it is clear. */
  predicate IsHighestSetBit(x: bv32, k: bv32)
  {
    k < 32 && x >> k == 1
  }

  const DeBruijn32: seq<bv32> :=
    [0, 31, 9, 30, 3, 8, 13, 29, 2, 5, 7, 21, 12, 24, 28, 19,
     1, 10, 4, 14, 6, 22, 25, 20, 11, 15, 23, 26, 16, 27, 17, 18]

  /** Copies the highest set bit into every lower position. */
  function Smear(x: bv32): bv32
  {
    var x1 := x | (x >> 1);
    var x2 := x1 | (x1 >> 2);
    var x3 := x2 | (x2 >> 4);
    var x4 := x3 | (x3 >> 8);
    x4 | (x4 >> 16)
  }

  function DeBruijnIndex(y: bv32): bv32
  {
    (y * 0x076b_e629) >> 27
  }

  /** The source's count: smear, add one (a power of two, or 0 on
      wrap-around), and look the product with the de Bruijn constant up. */
  function CountLeadingZeros(x: bv32): bv32
  {
    DeBruijn32[DeBruijnIndex(Smear(x) + 1) as int]
  }

  lemma SmearOr(a: bv32, b: bv32)
    ensures Smear(a | b) == Smear(a) | Smear(b)
  {
  }

  /** A power of two smears to itself and every bit below it. */
  lemma SmearPowerOfTwo(p: bv32)
    requires p != 0 && p & (p - 1) == 0
    ensures Smear(p) == p + (p - 1)
    ensures Smear(p - 1) == p - 1
  {
  }

  lemma SmearIsMask(x: bv32, k: bv32)
    requires IsHighestSetBit(x, k)
    ensures Smear(x) == (if k == 31 then 0xFFFF_FFFF else (1 << (k + 1)) - 1)
  {
    var p: bv32 := 1 << k;
    var low := x & (p - 1);
    assert p != 0 && p & (p - 1) == 0;
    assert x == p | low;
    SmearOr(p, low);
    SmearPowerOfTwo(p);
    SmearOr(low, p - 1);
    assert low | (p - 1) == p - 1;
    assert Smear(low) | (p - 1) == p - 1;
    assert p + (p - 1) == (if k == 31 then 0xFFFF_FFFF else (1 << (k + 1)) - 1);
  }

  lemma DeBruijnEntry(k: bv32)
    requires k < 31
    ensures DeBruijn32[DeBruijnIndex(1 << (k + 1)) as int] == 31 - k
  {
  }

  /** For a non-zero word whose highest set bit is `k`, the count is `31 - k`. */
  lemma CountLeadingZerosCorrect(x: bv32, k: bv32)
    requires IsHighestSetBit(x, k)
    ensures CountLeadingZeros(x) == 31 - k
  {
    SmearIsMask(x, k);
    if k < 31 {
      DeBruijnEntry(k);
    }
  }

  /** Every non-zero word has a highest set bit. */
  lemma HighestSetBitExists(x: bv32) returns (k: bv32)
    requires x != 0
    ensures IsHighestSetBit(x, k)
  {
    k := 31;
    while x >> k == 0
      invariant k < 32
      invariant k < 31 ==> x >> (k + 1) == 0
      decreases k
    {
      k := k - 1;
    }
  }

  /** For x != 0 the count is 31 minus the index of the highest set bit. */
  lemma CountLeadingZerosSpec(x: bv32)
    requires x != 0
    ensures CountLeadingZeros(x) < 32
    ensures IsHighestSetBit(x, 31 - CountLeadingZeros(x))
  {
    var k := HighestSetBitExists(x);
    CountLeadingZerosCorrect(x, k);
  }

  /** A zero word counts as 0 leading zeros, not 32: x + 1 is 1 and the
      table entry at index 0 is 0. */
  lemma CountLeadingZerosOfZero()
    ensures CountLeadingZeros(0) == 0
  {
    assert Smear(0) + 1 == 1;
  }

  /** The highest set bit is unique. */
  lemma HighestSetBitUnique(x: bv32, j: bv32, k: bv32)
    requires IsHighestSetBit(x, j) && IsHighestSetBit(x, k)
    ensures j == k
  {
  }

  lemma LowestBelowHighest(x: bv32, t: bv32, k: bv32)
    requires IsLowestSetBit(x, t) && IsHighestSetBit(x, k)
    ensures t <= k
  {
  }

  /** The number of bit positions from the lowest to the highest set bit of
      a mask, `32 - (CTZ + CLZ)` in unsigned 32-bit arithmetic. */
  function BitSpan(mask: bv32): bv32
  {
    32 - (CountTrailingZeros(mask) + CountLeadingZeros(mask))
  }

  /** A non-zero mask spans between 1 and 32 bits; the zero mask, whose two
      counts are both 0, spans 32. */
  lemma BitSpanRange(mask: bv32)
    ensures 1 <= BitSpan(mask) <= 32
    ensures mask == 0 ==> BitSpan(mask) == 32
  {
    if mask == 0 {
      CountLeadingZerosOfZero();
    } else {
      CountLeadingZerosSpec(mask);
      LowestBelowHighest(mask, CountTrailingZeros(mask), 31 - CountLeadingZeros(mask));
    }
  }

  /** A single-bit mask has bit `k` as both its lowest and highest set bit,
      so it spans one bit. */
  lemma SingleBitCounts(k: bv32)
    requires k < 32
    ensures CountTrailingZeros(1 << k) == k
    ensures BitSpan(1 << k) == 1
  {
    var mask: bv32 := 1 << k;
    assert IsLowestSetBit(mask, k);
    LowestSetBitUnique(mask, CountTrailingZeros(mask), k);
    CountLeadingZerosCorrect(mask, k);
  }

  /** The byte masks of the blue, green and red channels: each spans eight
      bits from bit `k`. */
  lemma ByteMaskCounts(k: bv32)
    requires k == 0 || k == 8 || k == 16
    ensures CountTrailingZeros(0xFF << k) == k
    ensures BitSpan(0xFF << k) == 8
  {
    if k == 0 {
      CountLeadingZerosCorrect(0x0000_00FF, 7);
    } else if k == 8 {
      CountLeadingZerosCorrect(0x0000_FF00, 15);
    } else {
      CountLeadingZerosCorrect(0x00FF_0000, 23);
    }
  }

  // ---------------------------------------------------------------------------
  // Align
  // ---------------------------------------------------------------------------

  const TwoTo64: nat := 0x1_0000_0000_0000_0000

  lemma DivMod(s: int, a: int)
    requires s >= 0 && a >= 1
    ensures s == a * (s / a) + s % a
    ensures 0 <= s % a < a
  {
  }

  lemma {:induction false} MulAtLeast(a: int, d: int)
    requires a >= 1 && d >= 1
    ensures a * d >= a
  {
    if d > 1 {
      MulAtLeast(a, d - 1);
      assert a * d == a * (d - 1) + a;
    }
  }

  lemma MultipleMod(q: int, a: int)
    requires q >= 0 && a >= 1
    ensures (a * q) % a == 0
  {
    var x := a * q;
    DivMod(x, a);
    var d := q - x / a;
    assert a * d == x % a;
    if d >= 1 {
      MulAtLeast(a, d);
    } else if d <= -1 {
      MulAtLeast(a, -d);
    }
  }

  lemma RoundDownFacts(s: int, a: int)
    requires s >= 0 && a >= 1
    ensures (s - s % a) % a == 0
    ensures s - a < s - s % a <= s
  {
    DivMod(s, a);
    MultipleMod(s / a, a);
  }

  /** Two distinct multiples of `a` are at least `a` apart. */
  lemma MultiplesApart(m: int, r: int, a: int)
    requires m >= 0 && r >= 0 && a >= 1 && m % a == 0 && r % a == 0 && m < r
    ensures r - m >= a
  {
    DivMod(m, a);
    DivMod(r, a);
    var d := r / a - m / a;
    assert r - m == a * d;
    if d < 0 {
      MulAtLeast(a, -d);
    } else if d > 0 {
      MulAtLeast(a, d);
    }
  }

  /** The largest multiple of `a` not above `s`. */
  function RoundDown(s: nat, a: nat): (r: nat)
    requires a >= 1
    ensures r % a == 0
    ensures s - a < r <= s
  {
    RoundDownFacts(s, a);
    s - s % a
  }

  /** `(uint64(v) + a - 1) & ~(a - 1)`: the sum wraps modulo 2^64, and for a
      power of two `a` clearing the bits below log2(a) subtracts the
      remainder modulo `a`. */
  function Align(v: nat, alignment: nat): (r: nat)
    requires v < TwoTo64
    requires alignment < TwoTo64 && IsPowerOfTwo(alignment)
    ensures r < TwoTo64
    ensures r % alignment == 0
    ensures v + alignment - 1 < TwoTo64 ==> v <= r < v + alignment
  {
    var sum := if v + alignment - 1 < TwoTo64 then v + alignment - 1 else v + alignment - 1 - TwoTo64;
    RoundDown(sum, alignment)
  }

  /** Below the wrap-around bound, Align gives the least multiple of
      `alignment` that is at least `v`. */
  lemma AlignIsLeastMultiple(v: nat, alignment: nat, m: nat)
    requires v < TwoTo64 && alignment < TwoTo64 && IsPowerOfTwo(alignment)
    requires v + alignment - 1 < TwoTo64
    requires m % alignment == 0 && m >= v
    ensures Align(v, alignment) <= m
  {
    var r := Align(v, alignment);
    if m < r {
      MultiplesApart(m, r, alignment);
    }
  }

  /** A multiple of `alignment` is left where it is, so Align is idempotent
      below the wrap-around bound. */
  lemma AlignOfMultiple(m: nat, alignment: nat)
    requires m < TwoTo64 && alignment < TwoTo64 && IsPowerOfTwo(alignment)
    requires m + alignment - 1 < TwoTo64
    requires m % alignment == 0
    ensures Align(m, alignment) == m
  {
    AlignIsLeastMultiple(m, alignment, m);
  }

  /** The uint64 sum wraps: aligning the largest uint64 value to 4 gives 0. */
  lemma AlignWrapsAround()
    ensures IsPowerOfTwo(4) && Align(TwoTo64 - 1, 4) == 0
  {
  }
}

=== FILE: bmp.dfy ===
/** FBmpImageWrapper (Source/Wrapper/Formats/BmpImageWrapper.cpp): the
    header checks run by SetCompressed, and the decoding of 8-bit
    palettised, 24-bit and 32-bit (plain or bitfield) images into a B8G8R8A8
    buffer by Uncompress. */
module Bmp {
  import opened Results
  import opened Bytes
  import opened Formats
  import opened BmpSupport
  import Bits
  import Grid
  import Arith

  // ---------------------------------------------------------------------------
  // Header checks
  // ---------------------------------------------------------------------------

  /** The two construction flags: whether the buffer starts with the 14-byte
      file header, and whether the stored height counts the image twice (the
      colour image and the mask of an icon). */
  datatype Mode = Mode(hasHeader: bool, halfHeight: bool)

  /** What a successful header check records in the wrapper. */
  datatype Properties = Properties(width: int, height: nat, format: RgbFormat, bitDepth: nat)

  const HeadersSize: nat := FileHeaderSize + InfoHeaderSize

  const RleMessage: string := "RLE compression of BMP images not supported"
  const SixteenBitMessage: string :=
    "BMP 16 bit format no longer supported. Use terrain tools for importing/exporting heightmaps."

  function UnsupportedMessage(planes: nat, bitCount: nat): string
  {
    "BMP uses an unsupported format (" + NatToString(planes) + "/" + NatToString(bitCount) + ")"
  }

  function Abs(x: int): (a: nat)
    ensures a == x || a == -x
  {
    if x < 0 then -x else x
  }

  /** The buffer starts with the characters 'B' and 'M'. */
  predicate StartsWithBm(s: Bytes)
  {
    |s| >= 2 && s[0] == 0x42 && s[1] == 0x4D
  }

  predicate SupportedCompression(c: nat)
  {
    c == CompressionRgb || c == CompressionBitfields
  }

  predicate SupportedDepth(planes: nat, bitCount: nat)
  {
    planes == 1 && (bitCount == 8 || bitCount == 24 || bitCount == 32)
  }

  /** The checks both loaders apply to the info header at `off`. A failure
      carries the text the source writes to the error stream. */
  function CheckInfoHeader(s: Bytes, off: nat): (r: Result<Properties>)
    requires off + 20 <= |s|
    ensures r.Ok? <==> SupportedCompression(Compression(s, off)) && SupportedDepth(Planes(s, off), BitCount(s, off))
    ensures r.Ok? ==> r.value == Properties(ToInt32(Width(s, off)), Abs(Height(s, off)), Bgra, BitCount(s, off))
    ensures r.Err? && !SupportedCompression(Compression(s, off)) ==> r.message == RleMessage
    ensures r.Err? && SupportedCompression(Compression(s, off)) ==>
              r.message == (if Planes(s, off) == 1 && BitCount(s, off) == 16 then SixteenBitMessage
                            else UnsupportedMessage(Planes(s, off), BitCount(s, off)))
  {
    var compression, planes, bitCount := Compression(s, off), Planes(s, off), BitCount(s, off);
    if !SupportedCompression(compression) then Err(RleMessage)
    else if SupportedDepth(planes, bitCount) then
      Ok(Properties(ToInt32(Width(s, off)), Abs(Height(s, off)), Bgra, bitCount))
    else if planes == 1 && bitCount == 16 then Err(SixteenBitMessage)
    else Err(UnsupportedMessage(planes, bitCount))
  }

  /** LoadBMPHeader: a buffer of at least 54 bytes starting with "BM" whose
      info header passes the checks. */
  function LoadHeader(s: Bytes): (r: Result<Properties>)
    ensures r.Ok? <==>
              |s| >= HeadersSize && StartsWithBm(s)
              && SupportedCompression(Compression(s, FileHeaderSize))
              && SupportedDepth(Planes(s, FileHeaderSize), BitCount(s, FileHeaderSize))
    ensures r.Ok? ==> r.value.width == ToInt32(Width(s, FileHeaderSize))
                      && r.value.height == Abs(Height(s, FileHeaderSize))
                      && r.value.format == Bgra && r.value.bitDepth == BitCount(s, FileHeaderSize)
    ensures r.Err? ==> (r.message == "" <==> |s| < HeadersSize || !StartsWithBm(s))
  {
    if |s| >= HeadersSize && s[0] == 0x42 && s[1] == 0x4D then CheckInfoHeader(s, FileHeaderSize)
    else Err("")
  }

  /** LoadBMPInfoHeader: the same checks on a buffer that starts with the
      info header, with no size or signature test. */
  function LoadInfoHeader(s: Bytes): (r: Result<Properties>)
    requires |s| >= 20
    ensures r.Ok? <==> SupportedCompression(Compression(s, 0)) && SupportedDepth(Planes(s, 0), BitCount(s, 0))
    ensures r.Ok? ==> r.value.width == ToInt32(Width(s, 0)) && r.value.height == Abs(Height(s, 0))
                      && r.value.format == Bgra && r.value.bitDepth == BitCount(s, 0)
    ensures r.Err? ==> r.message != ""
  {
    CheckInfoHeader(s, 0)
  }

  /** SetCompressed: an empty buffer is refused by the base class; otherwise
      the loader that matches the mode runs. */
  function SetCompressed(s: Bytes, m: Mode): (r: Result<Properties>)
    requires m.hasHeader || |s| == 0 || |s| >= 20
    ensures |s| == 0 ==> r == Err("")
    ensures |s| > 0 ==> r == (if m.hasHeader then LoadHeader(s) else LoadInfoHeader(s))
  {
    if |s| == 0 then Err("")
    else if m.hasHeader then LoadHeader(s)
    else LoadInfoHeader(s)
  }

  // ---------------------------------------------------------------------------
  // Geometry
  // ---------------------------------------------------------------------------

  /** C++ `int / 2`, which truncates toward zero. */
  function HalveTowardZero(h: int): (r: int)
    ensures h >= 0 ==> 0 <= r && 2 * r <= h < 2 * r + 2
    ensures h < 0 ==> r <= 0 && 2 * r - 2 < h <= 2 * r
  {
    if h >= 0 then h / 2 else -((-h) / 2)
  }

  /** The decoded height: |biHeight|, or |biHeight / 2| in half-height mode. */
  function DecodedHeight(biHeight: int, halfHeight: bool): nat
  {
    Abs(if halfHeight then HalveTowardZero(biHeight) else biHeight)
  }

  /** Halving toward zero and then dropping the sign is halving the
      magnitude, so an icon's decoded height is the stored one over two
      whatever its sign. */
  lemma HalvedHeight(biHeight: int)
    ensures DecodedHeight(biHeight, true) == Abs(biHeight) / 2
    ensures DecodedHeight(biHeight, false) == Abs(biHeight)
  {
  }

  /** Bytes from one stored row to the next: rows of 8-bit and 24-bit
      images are padded to a multiple of four bytes, 32-bit rows need none. */
  function Stride(bitCount: nat, width: nat): (r: nat)
    requires bitCount == 8 || bitCount == 24 || bitCount == 32
    requires width * 4 < 0x8000_0000
    ensures r % 4 == 0
    ensures bitCount == 8 ==> width <= r < width + 4
    ensures bitCount == 24 ==> 3 * width <= r < 3 * width + 4
    ensures bitCount == 32 ==> r == 4 * width
  {
    assert IsFour: Bits.IsPowerOfTwo(4);
    if bitCount == 8 then Bits.Align(width, 4)
    else if bitCount == 24 then Bits.Align(width * 3, 4)
    else width * 4
  }

  /** Stored row `r` of the output row `y`: with a positive biHeight the
      rows are stored bottom-up, with a negative one top-down. */
  function SourceRow(y: nat, height: nat, negative: bool): (r: nat)
    requires y < height
    ensures r < height
    ensures negative ==> r == y
    ensures !negative ==> r + y == height - 1
  {
    if negative then y else height - 1 - y
  }

  /** The start of a stored row, below `limit` by at least `extent` bytes
      when the last row is. */
  function RowStart(bitsOffset: nat, r: nat, stride: nat, height: nat, extent: nat, limit: nat): (p: nat)
    requires r < height && bitsOffset + (height - 1) * stride + extent <= limit
    ensures p + extent <= limit
    ensures p == bitsOffset + r * stride
  {
    Arith.MulLe(r, height - 1, stride);
    bitsOffset + r * stride
  }

  // ---------------------------------------------------------------------------
  // Pixels
  // ---------------------------------------------------------------------------

  /** The three stored bytes of a 24-bit or plain 32-bit pixel are copied in
      order, and the fourth byte becomes 0xFF. */
  function TrueColourPixel(s: Bytes, p: nat): (px: Pixel)
    requires p + 3 <= |s|
    ensures px.b == s[p] && px.g == s[p + 1] && px.r == s[p + 2] && px.a == 255
  {
    Pixel(s[p], s[p + 1], s[p + 2], 255)
  }

  /** The palette quads start right after the two headers, at byte 54 of the
      buffer, in every mode. */
  const PaletteOffset: nat := 54

  /** The number of palette entries read: biClrUsed as an `int`, or 256
      when it is 0. */
  function PaletteCount(clrUsed: nat): (c: int)
    requires clrUsed < 0x1_0000_0000
    ensures clrUsed == 0 ==> c == 256
  {
    if clrUsed != 0 then ToInt32(clrUsed) else 256
  }

  /** The palette quads the decoder reads lie inside the buffer. */
  predicate PaletteHeld(s: Bytes, count: int)
  {
    count <= 0 || PaletteOffset + 4 * count - 1 <= |s|
  }

  /** The 256-entry palette: the first `count` quads (blue, green, red,
      reserved), padded with opaque black. Each entry is the pixel a 24-bit
      image storing the quad's first three bytes would decode to. */
  function Palette(s: Bytes, count: int): (pal: seq<Pixel>)
    requires PaletteHeld(s, count)
    ensures |pal| == 256
    ensures forall i :: 0 <= i < 256 && i < count ==>
              PaletteOffset + 4 * i + 3 <= |s| && pal[i] == TrueColourPixel(s, PaletteOffset + 4 * i)
    ensures forall i :: 0 <= i < 256 && count <= i ==> pal[i] == Pixel(0, 0, 0, 255)
  {
    seq(256, i requires 0 <= i < 256 =>
      if i < count then TrueColourPixel(s, PaletteOffset + 4 * i) else Pixel(0, 0, 0, 255))
  }

  /** The palette as the source builds it: its FColor is declared r, g, b,
      a, so each entry lands in memory as red, green, blue, alpha, the
      reverse of the blue-first order of every other path. */
  function PaletteAsWritten(s: Bytes, count: int): (pal: seq<Pixel>)
    requires PaletteHeld(s, count)
    ensures |pal| == 256
    ensures forall i :: 0 <= i < 256 && i < count ==>
              PaletteOffset + 4 * i + 3 <= |s|
              && pal[i] == Pixel(s[PaletteOffset + 4 * i + 2], s[PaletteOffset + 4 * i + 1], s[PaletteOffset + 4 * i], 255)
    ensures forall i :: 0 <= i < 256 && count <= i ==> pal[i] == Pixel(0, 0, 0, 255)
  {
    seq(256, i requires 0 <= i < 256 =>
      if i < count then
        var q := PaletteOffset + 4 * i;
        Pixel(s[q + 2], s[q + 1], s[q], 255)
      else Pixel(0, 0, 0, 255))
  }

  /** The discrepancy: a quad storing blue 1, green 2, red 3 decodes, as
      written, to bytes 3, 2, 1, 255, while a 24-bit pixel storing the same
      colour decodes to 1, 2, 3, 255 -- red and blue are exchanged in
      8-bit images only. */
  lemma PaletteAsWrittenSwapsRedAndBlue()
    ensures var s: Bytes := seq(PaletteOffset, _ => 0) + [1, 2, 3, 0];
            PaletteHeld(s, 1)
            && PaletteAsWritten(s, 1)[0] == Pixel(3, 2, 1, 255)
            && TrueColourPixel(s, PaletteOffset) == Pixel(1, 2, 3, 255)
            && Palette(s, 1)[0] == Pixel(1, 2, 3, 255)
  {
    var s: Bytes := seq(PaletteOffset, _ => 0) + [1, 2, 3, 0];
    assert s[PaletteOffset] == 1 && s[PaletteOffset + 1] == 2 && s[PaletteOffset + 2] == 3;
  }

  // ---------------------------------------------------------------------------
  // Bitfields
  // ---------------------------------------------------------------------------

  lemma Pow2AtLeastTwo(n: nat)
    requires n >= 1
    ensures Bits.Pow2(n) >= 2
  {
  }

  /** round(v * 255 / d) for d = 2^bits - 1, computed exactly: d is odd, so
      no value lies halfway between two integers. The result is the integer
      nearest to 255 v / d. */
  function Rescale(v: nat, d: nat): (r: nat)
    requires d >= 1
    ensures var e: int := d * r - 255 * v; -(d as int) < 2 * e <= d
  {
    var n := 510 * v + d;
    Bits.DivMod(n, 2 * d);
    n / (2 * d)
  }

  /** A value within the field's range rescales into a byte. */
  lemma RescaleBound(v: nat, d: nat)
    requires d >= 1 && v <= d
    ensures Rescale(v, d) <= 255
  {
    var r := Rescale(v, d);
    if r >= 256 {
      Arith.MulLeRight(d, 256, r);
    }
  }

  /** The ends of the range map to 0 and 255. */
  lemma RescaleEnds(d: nat)
    requires d >= 1
    ensures Rescale(0, d) == 0
    ensures Rescale(d, d) == 255
  {
    var r := Rescale(d, d);
    Arith.MulComm(d, r);
    if r >= 256 {
      Arith.MulLeRight(d, 256, r);
    } else if r <= 254 {
      Arith.MulLeRight(d, r, 254);
    }
  }

  /** An 8-bit field is copied unchanged. */
  lemma RescaleEightBits(v: nat)
    requires v <= 255
    ensures Rescale(v, 255) == v
  {
  }

  /** A field value of `span` bits rescaled to eight bits; `(int)round(...)`
      stored into a byte keeps the low eight bits. */
  function Scale(v: bv32, span: nat): byte
    requires span >= 1
  {
    Pow2AtLeastTwo(span);
    Rescale(v as nat, Bits.Pow2(span) - 1) % 256
  }

  /** An 8-bit field value is kept as it is. */
  lemma ScaleEightBits(v: bv32)
    requires v <= 0xFF
    ensures Scale(v, 8) == v as nat
  {
    assert Bits.Pow2(8) == 256;
    RescaleEightBits(v as nat);
  }

  /** The mask's field of a pixel, shifted down to bit 0 and rescaled from
      the mask's span to eight bits. */
  function Channel(word: bv32, mask: bv32): (c: byte)
  {
    Bits.BitSpanRange(mask);
    Scale((word & mask) >> Bits.CountTrailingZeros(mask), Bits.BitSpan(mask) as nat)
  }

  /** A zero mask gives 0 whatever the pixel. */
  lemma ChannelOfZeroMask(word: bv32)
    ensures Channel(word, 0) == 0
  {
    Bits.CountLeadingZerosOfZero();
    RescaleEnds(Bits.Pow2(32) - 1);
  }

  /** With the usual 8-bit masks each channel is one byte of the pixel. */
  lemma ChannelOfByteMask(word: bv32, k: bv32)
    requires k == 0 || k == 8 || k == 16
    ensures Channel(word, 0xFF << k) == ((word >> k) & 0xFF) as nat
  {
    Bits.ByteMaskCounts(k);
    Bits.ShiftedByte(word, k);
    ScaleEightBits((word >> k) & 0xFF);
  }

  lemma ChannelOfBlueMask(word: bv32)
    ensures Channel(word, 0x0000_00FF) == (word & 0xFF) as nat
  {
    ChannelOfByteMask(word, 0);
  }

  lemma ChannelOfGreenMask(word: bv32)
    ensures Channel(word, 0x0000_FF00) == ((word >> 8) & 0xFF) as nat
  {
    ChannelOfByteMask(word, 8);
  }

  lemma ChannelOfRedMask(word: bv32)
    ensures Channel(word, 0x00FF_0000) == ((word >> 16) & 0xFF) as nat
  {
    ChannelOfByteMask(word, 16);
  }

  /** A one-bit mask maps a set bit to 255 and a clear bit to 0. */
  lemma ChannelOfOneBitMask(word: bv32, k: bv32)
    requires k < 32
    ensures Channel(word, 1 << k) == (if word & (1 << k) != 0 then 255 else 0)
  {
    Bits.SingleBitCounts(k);
    Bits.ShiftedMaskedBit(word, k);
    ScaleOneBit((word & (1 << k)) >> k);
  }

  /** A one-bit field is 0 or 255. */
  lemma ScaleOneBit(v: bv32)
    requires v <= 1
    ensures Scale(v, 1) == (if v == 1 then 255 else 0)
  {
    assert Bits.Pow2(1) == 2;
    RescaleEnds(1);
  }

  // ---------------------------------------------------------------------------
  // Layouts
  // ---------------------------------------------------------------------------

  /** How a stored row turns into pixels. */
  datatype Layout =
    | Indexed(palette: seq<Pixel>)
    | TrueColour
    | Plain32
    | Fields32(masks: ColoursMask, hasAlpha: bool)

  predicate ValidLayout(l: Layout)
  {
    l.Indexed? ==> |l.palette| == 256
  }

  /** The bytes a row of `w` pixels reads: the fourth byte of the last plain
      32-bit pixel is skipped, not read. */
  function RowExtent(l: Layout, w: nat): nat
  {
    match l
    case Indexed(_) => w
    case TrueColour => 3 * w
    case Plain32 => if w == 0 then 0 else 4 * w - 1
    case Fields32(_, _) => 4 * w
  }

  /** Pixel `x` of the stored row at `start`. The bitfield path emits the
      blue, green and red fields (masks 2, 1, 0) and then the alpha field,
      or 0xFF when there is none. */
  function PixelAt(s: Bytes, start: nat, x: nat, w: nat, l: Layout): (px: Pixel)
    requires ValidLayout(l) && x < w && start + RowExtent(l, w) <= |s|
  {
    match l
    case Indexed(palette) => palette[s[start + x]]
    case TrueColour => TrueColourPixel(s, start + 3 * x)
    case Plain32 => TrueColourPixel(s, start + 4 * x)
    case Fields32(masks, hasAlpha) =>
      var word := U32(s, start + 4 * x) as bv32;
      Pixel(Channel(word, masks.blue), Channel(word, masks.green), Channel(word, masks.red),
            if hasAlpha then Channel(word, masks.alpha) else 255)
  }

  function Row(s: Bytes, start: nat, w: nat, l: Layout): (row: seq<Pixel>)
    requires ValidLayout(l) && start + RowExtent(l, w) <= |s|
    ensures |row| == w
    ensures forall x :: 0 <= x < w ==> row[x] == PixelAt(s, start, x, w, l)
  {
    seq(w, x requires 0 <= x < w => PixelAt(s, start, x, w, l))
  }

  /** Every stored row the decoder reads lies inside the buffer. */
  predicate RowsHeld(n: nat, bitsOffset: nat, stride: nat, w: nat, h: nat, l: Layout)
  {
    h == 0 || bitsOffset + (h - 1) * stride + RowExtent(l, w) <= n
  }

  /** The output rows, top first: output row `y` is stored row
      SourceRow(y). */
  function Rows(s: Bytes, bitsOffset: nat, stride: nat, w: nat, h: nat, negative: bool, l: Layout)
    : (rows: seq<seq<Pixel>>)
    requires ValidLayout(l) && RowsHeld(|s|, bitsOffset, stride, w, h, l)
    ensures Grid.IsGrid(rows, w, h)
    ensures forall y :: 0 <= y < h ==>
              rows[y] == Row(s, RowStart(bitsOffset, SourceRow(y, h, negative), stride, h, RowExtent(l, w), |s|), w, l)
  {
    seq(h, y requires 0 <= y < h =>
      Row(s, RowStart(bitsOffset, SourceRow(y, h, negative), stride, h, RowExtent(l, w), |s|), w, l))
  }

  // ---------------------------------------------------------------------------
  // Uncompress
  // ---------------------------------------------------------------------------

  /** Uncompress decodes a header-less buffer, or one of at least 54 bytes
      starting with "BM". */
  predicate Gate(s: Bytes, m: Mode)
  {
    !m.hasHeader || (|s| >= HeadersSize && StartsWithBm(s))
  }

  /** Where the info header starts. */
  function InfoOffset(m: Mode): nat
  {
    if m.hasHeader then FileHeaderSize else 0
  }

  /** Where the pixel rows start: bfOffBits, or right after the info header. */
  function BitsOffset(s: Bytes, m: Mode): nat
    requires m.hasHeader ==> |s| >= FileHeaderSize
  {
    if m.hasHeader then ParseFileHeader(s).bfOffBits else InfoHeaderSize
  }

  /** A buffer without a file header is taken to hold a plain info header. */
  function Version(s: Bytes, m: Mode): HeaderVersion
    requires m.hasHeader ==> |s| >= FileHeaderSize
  {
    if m.hasHeader then HeaderVersionOf(ParseFileHeader(s).bfOffBits) else BitmapInfo
  }

  /** The info header the decoder reads lies inside the buffer. */
  predicate HeaderHeld(s: Bytes, m: Mode)
  {
    |s| >= InfoOffset(m) + 20 && (m.hasHeader ==> |s| >= HeadersSize)
  }

  /** The header describes an image the decoder handles. */
  predicate Decodable(s: Bytes, m: Mode)
    requires HeaderHeld(s, m)
  {
    var off := InfoOffset(m);
    SupportedCompression(Compression(s, off)) && SupportedDepth(Planes(s, off), BitCount(s, off))
  }

  /** bAssumeRGBCompression: plain RGB, or bitfields whose masks are the
      usual 8-bit ones in a header older than version 4. */
  predicate AssumeRgb(s: Bytes, m: Mode)
    requires HeaderHeld(s, m)
    requires Compression(s, InfoOffset(m)) == CompressionBitfields ==> |s| >= PaletteOffset + 16
  {
    var c := Compression(s, InfoOffset(m));
    c == CompressionRgb
    || (c == CompressionBitfields && IsMaskRgb8(ParseColoursMask(s, PaletteOffset)) && !AtLeastV4(Version(s, m)))
  }

  /** The image's width and height as the decoder computes them. */
  function ImageWidth(s: Bytes, m: Mode): int
    requires HeaderHeld(s, m)
  {
    ToInt32(Width(s, InfoOffset(m)))
  }

  function ImageHeight(s: Bytes, m: Mode): nat
    requires HeaderHeld(s, m)
  {
    DecodedHeight(Height(s, InfoOffset(m)), m.halfHeight)
  }

  /** What the decoder reads besides the rows: the palette quads, the colour
      masks and, for bitfields in a version 4 or 5 header, the colour-space
      tag (which only selects a warning); and the int arithmetic on the
      sizes stays in range. */
  predicate SideDataHeld(s: Bytes, m: Mode)
    requires HeaderHeld(s, m) && Decodable(s, m)
  {
    var off := InfoOffset(m);
    var w := ImageWidth(s, m);
    var bitCount := BitCount(s, off);
    0 <= w && w * 4 < 0x8000_0000 && w * ImageHeight(s, m) * 4 < 0x8000_0000
    && (bitCount == 8 ==> |s| >= off + 36 && PaletteHeld(s, PaletteCount(ClrUsed(s, off))))
    && (bitCount == 32 && Compression(s, off) == CompressionBitfields ==>
          |s| >= PaletteOffset + 16
          && (!AssumeRgb(s, m) && AtLeastV4(Version(s, m)) ==> |s| >= FileHeaderSize + ColourSpaceOffset + 4))
  }

  function LayoutOf(s: Bytes, m: Mode): (l: Layout)
    requires HeaderHeld(s, m) && Decodable(s, m) && SideDataHeld(s, m)
    ensures ValidLayout(l)
  {
    var off := InfoOffset(m);
    var bitCount := BitCount(s, off);
    if bitCount == 8 then Indexed(Palette(s, PaletteCount(ClrUsed(s, off))))
    else if bitCount == 24 then TrueColour
    else if AssumeRgb(s, m) then Plain32
    else
      var masks := ParseColoursMask(s, PaletteOffset);
      Fields32(masks, masks.alpha != 0 && AtLeastV4(Version(s, m)))
  }

  /** The rows the decoder reads lie inside the buffer. */
  predicate DataHeld(s: Bytes, m: Mode)
    requires HeaderHeld(s, m) && Decodable(s, m) && SideDataHeld(s, m)
  {
    var w: nat := ImageWidth(s, m);
    RowsHeld(|s|, BitsOffset(s, m), Stride(BitCount(s, InfoOffset(m)), w), w, ImageHeight(s, m), LayoutOf(s, m))
  }

  /** Everything the decoder reads without a check is in the buffer. */
  predicate HoldsData(s: Bytes, m: Mode)
  {
    Gate(s, m) ==>
      HeaderHeld(s, m) && (Decodable(s, m) ==> SideDataHeld(s, m) && DataHeld(s, m))
  }

  /** The decoded image: its size and its B8G8R8A8 buffer. */
  datatype Raster = Raster(width: nat, height: nat, data: Bytes)

  /** The rows of a decodable image. */
  function ImageRows(s: Bytes, m: Mode): (rows: seq<seq<Pixel>>)
    requires HoldsData(s, m) && Gate(s, m) && Decodable(s, m)
    ensures Grid.IsGrid(rows, ImageWidth(s, m), ImageHeight(s, m))
  {
    var off := InfoOffset(m);
    var w: nat := ImageWidth(s, m);
    Rows(s, BitsOffset(s, m), Stride(BitCount(s, off), w), w, ImageHeight(s, m),
         Height(s, off) < 0, LayoutOf(s, m))
  }

  /** Uncompress followed by UncompressBMPData. None when nothing is decoded:
      the buffer fails the gate, or the compression or depth is not handled
      (the source only writes a message then, and the raw data stays empty
      with no error set). */
  function Uncompress(s: Bytes, m: Mode): (r: Option<Raster>)
    requires HoldsData(s, m)
    ensures r.Some? <==> Gate(s, m) && Decodable(s, m)
    ensures r.Some? ==>
              r.value.width == ImageWidth(s, m) && r.value.height == ImageHeight(s, m)
              && |r.value.data| == r.value.width * r.value.height * 4
  {
    if !Gate(s, m) || !Decodable(s, m) then None
    else
      var w: nat, h := ImageWidth(s, m), ImageHeight(s, m);
      var rows := ImageRows(s, m);
      ImageBytesLength(rows, w, h);
      Some(Raster(w, h, ImageBytes(rows)))
  }

  /** Where the stored pixel behind output pixel (x, y) starts. */
  function StoredRowStart(s: Bytes, m: Mode, y: nat): (p: nat)
    requires HoldsData(s, m) && Gate(s, m) && Decodable(s, m)
    requires y < ImageHeight(s, m)
    ensures p + RowExtent(LayoutOf(s, m), ImageWidth(s, m)) <= |s|
  {
    var off := InfoOffset(m);
    var w: nat, h := ImageWidth(s, m), ImageHeight(s, m);
    RowStart(BitsOffset(s, m), SourceRow(y, h, Height(s, off) < 0), Stride(BitCount(s, off), w), h,
             RowExtent(LayoutOf(s, m), w), |s|)
  }

  /** Output pixel (x, y) is the four bytes at 4 (x + y w) of the buffer,
      in B, G, R, A order. */
  lemma UncompressPixel(s: Bytes, m: Mode, x: nat, y: nat)
    requires HoldsData(s, m) && Gate(s, m) && Decodable(s, m)
    requires x < ImageWidth(s, m) && y < ImageHeight(s, m)
    ensures Uncompress(s, m).Some?
    ensures var r := Uncompress(s, m).value;
            var px := ImageRows(s, m)[y][x];
            var i := PixelOffset(x, y, r.width);
            i + 3 < |r.data|
            && r.data[i] == px.b && r.data[i + 1] == px.g && r.data[i + 2] == px.r && r.data[i + 3] == px.a
  {
    var w: nat, h := ImageWidth(s, m), ImageHeight(s, m);
    UncompressIsImageRows(s, m);
    ImageBytesPixel(ImageRows(s, m), w, h, x, y);
  }

  lemma UncompressIsImageRows(s: Bytes, m: Mode)
    requires HoldsData(s, m) && Gate(s, m) && Decodable(s, m)
    ensures Uncompress(s, m).Some? && Uncompress(s, m).value.data == ImageBytes(ImageRows(s, m))
  {
  }

  /** Output pixel (x, y) is decoded from column x of stored row
      SourceRow(y): bottom-up for a positive biHeight, top-down for a
      negative one. */
  lemma StoredPixel(s: Bytes, m: Mode, x: nat, y: nat)
    requires HoldsData(s, m) && Gate(s, m) && Decodable(s, m)
    requires x < ImageWidth(s, m) && y < ImageHeight(s, m)
    ensures ImageRows(s, m)[y][x] == PixelAt(s, StoredRowStart(s, m, y), x, ImageWidth(s, m), LayoutOf(s, m))
  {
  }

  /** In an 8-bit image, the pixel is the palette entry its stored index
      selects; an index at or beyond the palette count gives opaque black. */
  lemma IndexedPixel(s: Bytes, m: Mode, start: nat, x: nat)
    requires HoldsData(s, m) && Gate(s, m) && Decodable(s, m)
    requires BitCount(s, InfoOffset(m)) == 8
    requires x < ImageWidth(s, m) && start + RowExtent(LayoutOf(s, m), ImageWidth(s, m)) <= |s|
    ensures var count := PaletteCount(ClrUsed(s, InfoOffset(m)));
            var i := s[start + x];
            var px := PixelAt(s, start, x, ImageWidth(s, m), LayoutOf(s, m));
            (i < count ==> px == TrueColourPixel(s, PaletteOffset + 4 * i))
            && (i >= count ==> px == Pixel(0, 0, 0, 255))
  {
  }

  /** The 8-bit path as written: decoding with the palette the source builds
      gives, for every pixel, the corrected pixel with red and blue
      exchanged. */
  lemma IndexedPixelAsWritten(s: Bytes, m: Mode, start: nat, x: nat)
    requires HoldsData(s, m) && Gate(s, m) && Decodable(s, m)
    requires BitCount(s, InfoOffset(m)) == 8
    requires x < ImageWidth(s, m) && start + ImageWidth(s, m) <= |s|
    ensures var count := PaletteCount(ClrUsed(s, InfoOffset(m)));
            var w := ImageWidth(s, m);
            PaletteHeld(s, count)
            && var px := PixelAt(s, start, x, w, LayoutOf(s, m));
               PixelAt(s, start, x, w, Indexed(PaletteAsWritten(s, count))) == px.(b := px.r, r := px.b)
  {
  }

  /** Bitfield pixels of a header older than version 4 are always opaque. */
  lemma FieldsOpaqueBeforeV4(s: Bytes, m: Mode, start: nat, x: nat)
    requires HoldsData(s, m) && Gate(s, m) && Decodable(s, m)
    requires LayoutOf(s, m).Fields32? && !AtLeastV4(Version(s, m))
    requires x < ImageWidth(s, m) && start + RowExtent(LayoutOf(s, m), ImageWidth(s, m)) <= |s|
    ensures PixelAt(s, start, x, ImageWidth(s, m), LayoutOf(s, m)).a == 255
  {
  }

  /** The plain 32-bit path is taken exactly for RGB compression, or for
      bitfields with 8-bit masks in a header older than version 4. */
  lemma PlainPathChoice(s: Bytes, m: Mode)
    requires HoldsData(s, m) && Gate(s, m) && Decodable(s, m)
    requires BitCount(s, InfoOffset(m)) == 32
    ensures LayoutOf(s, m).Plain32? <==>
              Compression(s, InfoOffset(m)) == CompressionRgb
              || (IsMaskRgb8(ParseColoursMask(s, PaletteOffset)) && !AtLeastV4(Version(s, m)))
    ensures LayoutOf(s, m).Fields32? ==>
              Compression(s, InfoOffset(m)) == CompressionBitfields
              && LayoutOf(s, m).masks == ParseColoursMask(s, PaletteOffset)
              && (LayoutOf(s, m).hasAlpha <==> LayoutOf(s, m).masks.alpha != 0 && AtLeastV4(Version(s, m)))
  {
  }
}

=== FILE: bmp_support.dfy ===
/** The BMP header layouts, which the source packs with byte alignment
    (Source/Wrapper/BmpImageSupport.h:40-124), the compression and
    colour-space codes, the header version derived from bfOffBits, and the
    colour-mask test (Source/Wrapper/BmpImageSupport.h,
    Source/Wrapper/BmpImageSupport.cpp). */
module BmpSupport {
  import opened Bytes
  import Bits

  // ---------------------------------------------------------------------------
  // Codes
  // ---------------------------------------------------------------------------

  /** EBitmapCompression. */
  const CompressionRgb: nat := 0
  const CompressionRle8: nat := 1
  const CompressionRle4: nat := 2
  const CompressionBitfields: nat := 3

  /** EBitmapCSType values the decoder recognises without a warning. */
  const ColourSpaceSrgb: nat := 0x7352_4742
  const ColourSpaceWindows: nat := 0x5769_6E20

  /** EBitmapHeaderVersion, in declaration order. */
  datatype HeaderVersion = BitmapInfo | V2 | V3 | V4 | V5

  /** The underlying value of each version. */
  function Rank(v: HeaderVersion): (r: nat)
    ensures r < 5
  {
    match v
    case BitmapInfo => 0
    case V2 => 1
    case V3 => 2
    case V4 => 3
    case V5 => 4
  }

  /** `headerVersion >= BHV_BITMAPV4HEADER`. */
  predicate AtLeastV4(v: HeaderVersion)
  {
    Rank(v) >= Rank(V4)
  }

  // ---------------------------------------------------------------------------
  // Layouts
  // ---------------------------------------------------------------------------

  /** sizeof(FBitmapFileHeader) and sizeof(FBitmapInfoHeader). */
  const FileHeaderSize: nat := 14
  const InfoHeaderSize: nat := 40

  /** FBitmapFileHeader: 14 packed little-endian bytes. */
  datatype FileHeader = FileHeader(
    bfType: nat, bfSize: nat, bfReserved1: nat, bfReserved2: nat, bfOffBits: nat)

  predicate ValidFileHeader(h: FileHeader)
  {
    h.bfType < 0x1_0000 && h.bfSize < 0x1_0000_0000
    && h.bfReserved1 < 0x1_0000 && h.bfReserved2 < 0x1_0000 && h.bfOffBits < 0x1_0000_0000
  }

  function ParseFileHeader(s: Bytes): (h: FileHeader)
    requires |s| >= FileHeaderSize
    ensures ValidFileHeader(h)
    ensures h.bfType == s[0] as int + 0x100 * (s[1] as int)
  {
    FileHeader(U16(s, 0), U32(s, 2), U16(s, 6), U16(s, 8), U32(s, 10))
  }

  function EncodeFileHeader(h: FileHeader): (s: Bytes)
    requires ValidFileHeader(h)
    ensures |s| == FileHeaderSize
  {
    LE16(h.bfType) + LE32(h.bfSize) + LE16(h.bfReserved1) + LE16(h.bfReserved2) + LE32(h.bfOffBits)
  }

  /** Reading back the 14 bytes written for a header gives the header: the
      offsets 0, 2, 6, 8 and 10 of the packed layout are consistent. */
  lemma ParseEncodeFileHeader(h: FileHeader, rest: Bytes)
    requires ValidFileHeader(h)
    ensures ParseFileHeader(EncodeFileHeader(h) + rest) == h
  {
    var s := EncodeFileHeader(h) + rest;
    U16OfLE16(h.bfType, s, 0);
    U32OfLE32(h.bfSize, s, 2);
    U16OfLE16(h.bfReserved1, s, 6);
    U16OfLE16(h.bfReserved2, s, 8);
    U32OfLE32(h.bfOffBits, s, 10);
  }

  /** FBitmapInfoHeader: 40 packed little-endian bytes; biHeight is the only
      signed field. */
  datatype InfoHeader = InfoHeader(
    biSize: nat, biWidth: nat, biHeight: int, biPlanes: nat, biBitCount: nat,
    biCompression: nat, biSizeImage: nat, biXPelsPerMeter: nat, biYPelsPerMeter: nat,
    biClrUsed: nat, biClrImportant: nat)

  predicate ValidInfoHeader(h: InfoHeader)
  {
    h.biSize < 0x1_0000_0000 && h.biWidth < 0x1_0000_0000
    && -0x8000_0000 <= h.biHeight < 0x8000_0000
    && h.biPlanes < 0x1_0000 && h.biBitCount < 0x1_0000
    && h.biCompression < 0x1_0000_0000 && h.biSizeImage < 0x1_0000_0000
    && h.biXPelsPerMeter < 0x1_0000_0000 && h.biYPelsPerMeter < 0x1_0000_0000
    && h.biClrUsed < 0x1_0000_0000 && h.biClrImportant < 0x1_0000_0000
  }

  /** The individual fields at their offsets from the start of the info
      header at `off`; each reads only its own bytes. */
  function Width(s: Bytes, off: nat): (w: nat)
    requires off + 8 <= |s|
    ensures w < 0x1_0000_0000
  {
    U32(s, off + 4)
  }

  function Height(s: Bytes, off: nat): (h: int)
    requires off + 12 <= |s|
    ensures -0x8000_0000 <= h < 0x8000_0000
  {
    I32(s, off + 8)
  }

  function Planes(s: Bytes, off: nat): (p: nat)
    requires off + 14 <= |s|
    ensures p < 0x1_0000
  {
    U16(s, off + 12)
  }

  function BitCount(s: Bytes, off: nat): (b: nat)
    requires off + 16 <= |s|
    ensures b < 0x1_0000
  {
    U16(s, off + 14)
  }

  function Compression(s: Bytes, off: nat): (c: nat)
    requires off + 20 <= |s|
    ensures c < 0x1_0000_0000
  {
    U32(s, off + 16)
  }

  function ClrUsed(s: Bytes, off: nat): (c: nat)
    requires off + 36 <= |s|
    ensures c < 0x1_0000_0000
  {
    U32(s, off + 32)
  }

  function ParseInfoHeader(s: Bytes, off: nat): (h: InfoHeader)
    requires off + InfoHeaderSize <= |s|
    ensures ValidInfoHeader(h)
    ensures h.biWidth == Width(s, off) && h.biHeight == Height(s, off)
    ensures h.biPlanes == Planes(s, off) && h.biBitCount == BitCount(s, off)
    ensures h.biCompression == Compression(s, off) && h.biClrUsed == ClrUsed(s, off)
  {
    InfoHeader(U32(s, off), Width(s, off), Height(s, off), Planes(s, off), BitCount(s, off),
               Compression(s, off), U32(s, off + 20), U32(s, off + 24), U32(s, off + 28),
               ClrUsed(s, off), U32(s, off + 36))
  }

  /** The 40 info-header bytes: the 16 describing the raster, then the 24
      describing compression, resolution and palette use. */
  function EncodeInfoHeader(h: InfoHeader): (s: Bytes)
    requires ValidInfoHeader(h)
    ensures |s| == InfoHeaderSize
  {
    EncodeRasterFields(h) + EncodeStorageFields(h)
  }

  function EncodeRasterFields(h: InfoHeader): (s: Bytes)
    requires ValidInfoHeader(h)
    ensures |s| == 16
  {
    LE32(h.biSize) + LE32(h.biWidth) + LE32(h.biHeight % 0x1_0000_0000) + LE16(h.biPlanes) + LE16(h.biBitCount)
  }

  function EncodeStorageFields(h: InfoHeader): (s: Bytes)
    requires ValidInfoHeader(h)
    ensures |s| == 24
  {
    LE32(h.biCompression) + LE32(h.biSizeImage) + LE32(h.biXPelsPerMeter)
    + LE32(h.biYPelsPerMeter) + LE32(h.biClrUsed) + LE32(h.biClrImportant)
  }

  lemma ParseRasterFields(h: InfoHeader, rest: Bytes)
    requires ValidInfoHeader(h)
    ensures var s := EncodeRasterFields(h) + rest;
            U32(s, 0) == h.biSize && U32(s, 4) == h.biWidth && U32(s, 8) == h.biHeight % 0x1_0000_0000
            && U16(s, 12) == h.biPlanes && U16(s, 14) == h.biBitCount
  {
    var s := EncodeRasterFields(h) + rest;
    U32OfLE32(h.biSize, s, 0);
    U32OfLE32(h.biWidth, s, 4);
    U32OfLE32(h.biHeight % 0x1_0000_0000, s, 8);
    U16OfLE16(h.biPlanes, s, 12);
    U16OfLE16(h.biBitCount, s, 14);
  }

  lemma ParseStorageFields(h: InfoHeader, front: Bytes, rest: Bytes)
    requires ValidInfoHeader(h) && |front| == 16
    ensures var s := front + EncodeStorageFields(h) + rest;
            U32(s, 16) == h.biCompression && U32(s, 20) == h.biSizeImage
            && U32(s, 24) == h.biXPelsPerMeter && U32(s, 28) == h.biYPelsPerMeter
            && U32(s, 32) == h.biClrUsed && U32(s, 36) == h.biClrImportant
  {
    var s := front + EncodeStorageFields(h) + rest;
    U32OfLE32(h.biCompression, s, 16);
    U32OfLE32(h.biSizeImage, s, 20);
    U32OfLE32(h.biXPelsPerMeter, s, 24);
    U32OfLE32(h.biYPelsPerMeter, s, 28);
    U32OfLE32(h.biClrUsed, s, 32);
    U32OfLE32(h.biClrImportant, s, 36);
  }

  /** The two's-complement bytes written for biHeight read back as the same
      signed value, and every other field sits at its packed offset. */
  lemma ParseEncodeInfoHeader(h: InfoHeader, rest: Bytes)
    requires ValidInfoHeader(h)
    ensures ParseInfoHeader(EncodeInfoHeader(h) + rest, 0) == h
  {
    var front := EncodeRasterFields(h);
    var back := EncodeStorageFields(h);
    var s := EncodeInfoHeader(h) + rest;
    assert s == front + (back + rest);
    ParseRasterFields(h, back + rest);
    ParseStorageFields(h, front, rest);
  }

  /** In the version 4 header the four colour masks follow the 40-byte info
      header, and biCSType follows them. */
  const MasksOffset: nat := 40
  const ColourSpaceOffset: nat := 56

  function ColourSpace(s: Bytes, off: nat): (c: nat)
    requires off + ColourSpaceOffset + 4 <= |s|
    ensures c < 0x1_0000_0000
  {
    U32(s, off + ColourSpaceOffset)
  }

  // ---------------------------------------------------------------------------
  // Header version
  // ---------------------------------------------------------------------------

  /** GetHeaderVersion: the size of the info header is taken to be
      bfOffBits - 14, computed in unsigned 64-bit (size_t) arithmetic; sizes 52, 56,
      108 and 124 select V2, V3, V4 and V5, and everything else, 40 included,
      the plain info header. */
  function HeaderVersionOf(bfOffBits: nat): (v: HeaderVersion)
    requires bfOffBits < 0x1_0000_0000
    ensures v == V2 <==> bfOffBits == 66
    ensures v == V3 <==> bfOffBits == 70
    ensures v == V4 <==> bfOffBits == 122
    ensures v == V5 <==> bfOffBits == 138
    ensures v == BitmapInfo <==> bfOffBits !in {66, 70, 122, 138}
  {
    var size := (bfOffBits - FileHeaderSize) % Bits.TwoTo64;
    if size == 52 then V2
    else if size == 56 then V3
    else if size == 108 then V4
    else if size == 124 then V5
    else BitmapInfo
  }

  /** Offsets below 14 wrap around to huge sizes and count as the plain
      info header. */
  lemma HeaderVersionOfSmallOffset(bfOffBits: nat)
    requires bfOffBits < FileHeaderSize
    ensures HeaderVersionOf(bfOffBits) == BitmapInfo
    ensures (bfOffBits - FileHeaderSize) % Bits.TwoTo64 >= Bits.TwoTo64 - FileHeaderSize
  {
  }

  // ---------------------------------------------------------------------------
  // Colour masks
  // ---------------------------------------------------------------------------

  /** FBmiColorsMask: the red, green, blue and alpha masks in that order. */
  datatype ColoursMask = ColoursMask(red: bv32, green: bv32, blue: bv32, alpha: bv32)

  /** RGBAMask[i]. */
  function MaskAt(m: ColoursMask, i: nat): bv32
    requires i < 4
  {
    match i
    case 0 => m.red
    case 1 => m.green
    case 2 => m.blue
    case _ => m.alpha
  }

  function ParseColoursMask(s: Bytes, off: nat): (m: ColoursMask)
    requires off + 16 <= |s|
  {
    ColoursMask(U32(s, off) as bv32, U32(s, off + 4) as bv32, U32(s, off + 8) as bv32, U32(s, off + 12) as bv32)
  }

  /** CountLeadingZeros(m) + CountTrailingZeros(m) == 24. */
  predicate SpansEightBits(mask: bv32)
  {
    Bits.CountLeadingZeros(mask) + Bits.CountTrailingZeros(mask) == 24
  }

  /** Only the positions of the lowest and highest set bits matter: a mask
      passes iff it is non-zero and its highest set bit is seven above its
      lowest one. The bits between them are not looked at. */
  lemma SpansEightBitsIff(mask: bv32)
    ensures SpansEightBits(mask) <==>
              mask != 0 && Bits.IsHighestSetBit(mask, Bits.CountTrailingZeros(mask) + 7)
  {
    if mask == 0 {
      ZeroMaskFails();
    } else {
      NonZeroSpan(mask);
    }
  }

  /** Both counts of the zero mask are 0, so it never spans eight bits. */
  lemma ZeroMaskFails()
    ensures !SpansEightBits(0)
  {
    Bits.CountLeadingZerosOfZero();
  }

  lemma NonZeroSpan(mask: bv32)
    requires mask != 0
    ensures SpansEightBits(mask) <==> Bits.IsHighestSetBit(mask, Bits.CountTrailingZeros(mask) + 7)
  {
    Bits.CountLeadingZerosSpec(mask);
    SpanEnds(mask, Bits.CountLeadingZeros(mask), Bits.CountTrailingZeros(mask));
  }

  /** With the highest set bit at `31 - c`, `c + t == 24` says exactly that
      the highest set bit is at `t + 7`. */
  lemma SpanEnds(mask: bv32, c: bv32, t: bv32)
    requires c < 32 && t < 32 && Bits.IsHighestSetBit(mask, 31 - c)
    ensures c + t == 24 <==> Bits.IsHighestSetBit(mask, t + 7)
  {
    if Bits.IsHighestSetBit(mask, t + 7) {
      Bits.HighestSetBitUnique(mask, 31 - c, t + 7);
    }
  }

  /** IsMaskRGB8: the red, green and blue masks each span exactly eight
      bits; the alpha mask is not consulted. */
  predicate IsMaskRgb8(m: ColoursMask)
  {
    SpansEightBits(m.red) && SpansEightBits(m.green) && SpansEightBits(m.blue)
  }

  /** The usual 8-bit masks pass, and so does a non-contiguous mask whose end
      bits are seven apart; a zero mask fails, whatever the alpha mask. */
  lemma IsMaskRgb8Examples(alpha: bv32)
    ensures IsMaskRgb8(ColoursMask(0x00FF_0000, 0x0000_FF00, 0x0000_00FF, alpha))
    ensures IsMaskRgb8(ColoursMask(0x0081_0000, 0x0000_FF00, 0x0000_00FF, alpha))
    ensures !IsMaskRgb8(ColoursMask(0, 0x0000_FF00, 0x0000_00FF, alpha))
  {
    Bits.CountLeadingZerosCorrect(0x00FF_0000, 23);
    Bits.CountLeadingZerosCorrect(0x0000_FF00, 15);
    Bits.CountLeadingZerosCorrect(0x0000_00FF, 7);
    Bits.CountLeadingZerosCorrect(0x0081_0000, 23);
    Bits.CountLeadingZerosOfZero();
  }
}

=== FILE: bytes.dfy ===
/** Byte buffers and the packed little-endian field readers every header
    parser is built on.

    A byte is an integer in [0, 256). The source's single-byte bit tests
    are written arithmetically on it: for a byte `c`, `c & 0x80` is set iff
    `c >= 0x80`, `c & 0x7F` is `c % 0x80`, `(c & 0xC0) == 0xC0` iff
    `c >= 0xC0`, and `c & 0x3F` is `c % 0x40`. */
module Bytes {

  type byte = b: int | 0 <= b < 256

  type Bytes = seq<byte>

  /** Unsigned 16-bit little-endian field at `off`. */
  function U16(s: Bytes, off: nat): (r: nat)
    requires off + 2 <= |s|
    ensures r < 0x1_0000
  {
    s[off] as nat + 0x100 * (s[off + 1] as nat)
  }

  /** Unsigned 32-bit little-endian field at `off`. */
  function U32(s: Bytes, off: nat): (r: nat)
    requires off + 4 <= |s|
    ensures r < 0x1_0000_0000
  {
    U16(s, off) + 0x1_0000 * U16(s, off + 2)
  }

  /** Reinterprets an unsigned 32-bit value as a two's-complement `int32_t`. */
  function ToInt32(u: nat): (r: int)
    requires u < 0x1_0000_0000
    ensures -0x8000_0000 <= r < 0x8000_0000
    ensures r % 0x1_0000_0000 == u
  {
    if u < 0x8000_0000 then u else u - 0x1_0000_0000
  }

  /** Signed 32-bit little-endian field at `off`. */
  function I32(s: Bytes, off: nat): int
    requires off + 4 <= |s|
  {
    ToInt32(U32(s, off))
  }

  /** The bytes of a 16-bit value in little-endian order. */
  function LE16(v: nat): (r: Bytes)
    requires v < 0x1_0000
    ensures |r| == 2
  {
    [v % 0x100, v / 0x100]
  }

  /** The bytes of a 32-bit value in little-endian order. */
  function LE32(v: nat): (r: Bytes)
    requires v < 0x1_0000_0000
    ensures |r| == 4
  {
    LE16(v % 0x1_0000) + LE16(v / 0x1_0000)
  }

  lemma U16OfBytes(v: nat, s: Bytes, off: nat)
    requires v < 0x1_0000
    requires off + 2 <= |s| && s[off] == v % 0x100 && s[off + 1] == v / 0x100
    ensures U16(s, off) == v
  {
  }

  lemma U16OfLE16(v: nat, s: Bytes, off: nat)
    requires v < 0x1_0000
    requires off + 2 <= |s| && s[off..off + 2] == LE16(v)
    ensures U16(s, off) == v
  {
    assert s[off] == LE16(v)[0] && s[off + 1] == LE16(v)[1];
  }

  lemma U32OfLE32(v: nat, s: Bytes, off: nat)
    requires v < 0x1_0000_0000
    requires off + 4 <= |s| && s[off..off + 4] == LE32(v)
    ensures U32(s, off) == v
  {
    assert s[off..off + 2] == s[off..off + 4][..2] == LE16(v % 0x1_0000);
    assert s[off + 2..off + 4] == s[off..off + 4][2..] == LE16(v / 0x1_0000);
    U16OfLE16(v % 0x1_0000, s, off);
    U16OfLE16(v / 0x1_0000, s, off + 2);
  }

  /** Decimal rendering used by warning messages (`std::to_string`). */
  function NatToString(n: nat): (r: string)
    ensures |r| >= 1
    ensures forall i :: 0 <= i < |r| ==> '0' <= r[i] <= '9'
    decreases n
  {
    var digit := ['0' + (n % 10) as char];
    if n < 10 then digit else NatToString(n / 10) + digit
  }
}

=== FILE: decoder.dfy ===
/** DecodeImage (Source/Decoder/Decoder.cpp): picks the decoder for a
    container tag, normalises what the library-backed codecs report into a
    texture layout, and fills in the output record. */
module Decoder {
  import opened Results
  import opened Bytes
  import opened Formats
  import Bmp
  import Detect
  import BmpSupport
  import Pcx
  import Tga

  /** The texture layout chosen for a source, with the layout and depth the
      codec is then asked to deliver. */
  datatype Target = Target(texture: TextureFormat, format: RgbFormat, bitDepth: int)

  const Rgba8: Target := Target(RGBA8, Rgba, 8)
  const Rgba16: Target := Target(RGBA16, Rgba, 16)

  /** PNG: gray, RGBA or BGRA of at most 8 bits become RGBA8, of exactly 16
      bits RGBA16; nothing else is supported. */
  function PngTarget(format: RgbFormat, bitDepth: int): (t: Option<Target>)
    ensures t.Some? <==> format in {Gray, Rgba, Bgra} && (bitDepth <= 8 || bitDepth == 16)
    ensures t == Some(Rgba8) <==> format in {Gray, Rgba, Bgra} && bitDepth <= 8
    ensures t == Some(Rgba16) <==> format in {Gray, Rgba, Bgra} && bitDepth == 16
  {
    if format == Gray || format == Rgba || format == Bgra then
      if bitDepth <= 8 then Some(Rgba8)
      else if bitDepth == 16 then Some(Rgba16)
      else None
    else None
  }

  /** JPEG: gray or RGBA become RGBA8 up to 8 bits and RGBA16 above;
      BGRA is not supported. */
  function JpegTarget(format: RgbFormat, bitDepth: int): (t: Option<Target>)
    ensures t.Some? <==> format in {Gray, Rgba}
    ensures t == Some(Rgba8) <==> format in {Gray, Rgba} && bitDepth <= 8
    ensures t == Some(Rgba16) <==> format in {Gray, Rgba} && bitDepth > 8
  {
    if format == Gray || format == Rgba then
      if bitDepth <= 8 then Some(Rgba8) else Some(Rgba16)
    else None
  }

  /** EXR: only 16-bit RGBA, which becomes half-float RGBA16F. */
  function ExrTarget(format: RgbFormat, bitDepth: int): (t: Option<Target>)
    ensures t.Some? <==> format == Rgba && bitDepth == 16
    ensures t.Some? ==> t.value == Target(RGBA16F, Rgba, 16)
  {
    if format == Rgba && bitDepth == 16 then Some(Target(RGBA16F, Rgba, 16)) else None
  }

  /** The PNG, JPEG and EXR branches: a buffer the codec refuses falls
      through to the final `return false`; an unsupported layout fails
      before any pixel is decoded; a failed decode fails with its own
      message. */
  function DecodeWithCodec(s: Bytes, kind: ImageFormat, name: string, codec: Codec,
                           target: (RgbFormat, int) -> Option<Target>): (r: Result<DecodedImage>)
    ensures r.Ok? <==>
              codec.probe(s).Some?
              && var h := codec.probe(s).value;
                 target(h.format, h.bitDepth).Some?
                 && codec.raw(s, target(h.format, h.bitDepth).value.format,
                              target(h.format, h.bitDepth).value.bitDepth).Some?
    ensures codec.probe(s).None? ==> r == Err("")
    ensures codec.probe(s).Some? && target(codec.probe(s).value.format, codec.probe(s).value.bitDepth).None? ==>
              r == Err(name + " file contains data in an unsupported format.")
    ensures codec.probe(s).Some? && target(codec.probe(s).value.format, codec.probe(s).value.bitDepth).Some?
            && codec.raw(s, target(codec.probe(s).value.format, codec.probe(s).value.bitDepth).value.format,
                         target(codec.probe(s).value.format, codec.probe(s).value.bitDepth).value.bitDepth).None? ==>
              r == Err("Failed to decode " + name + ".")
    ensures r.Ok? ==>
              var h := codec.probe(s).value;
              var t := target(h.format, h.bitDepth).value;
              r.value == DecodedImage(kind, h.format, h.bitDepth, h.width, h.height, t.texture, t.bitDepth,
                                      codec.raw(s, t.format, t.bitDepth).value)
  {
    match codec.probe(s)
    case None => Err("")
    case Some(h) =>
      match target(h.format, h.bitDepth)
      case None => Err(name + " file contains data in an unsupported format.")
      case Some(t) =>
        match codec.raw(s, t.format, t.bitDepth)
        case None => Err("Failed to decode " + name + ".")
        case Some(data) => Ok(DecodedImage(kind, h.format, h.bitDepth, h.width, h.height, t.texture, t.bitDepth, data))
  }

  /** The warning alone tells the three failures apart: none for a refused
      header, the unsupported-format text for an unusable layout, and the
      decode text for a failed pixel decode. */
  lemma FailureNamesCause(s: Bytes, kind: ImageFormat, name: string, codec: Codec,
                          target: (RgbFormat, int) -> Option<Target>)
    ensures var r := DecodeWithCodec(s, kind, name, codec, target);
            var h := codec.probe(s);
            (r == Err("") <==> h.None?)
            && (r == Err(name + " file contains data in an unsupported format.") <==>
                  h.Some? && target(h.value.format, h.value.bitDepth).None?)
            && (r == Err("Failed to decode " + name + ".") <==>
                  h.Some? && target(h.value.format, h.value.bitDepth).Some?
                  && codec.raw(s, target(h.value.format, h.value.bitDepth).value.format,
                               target(h.value.format, h.value.bitDepth).value.bitDepth).None?)
  {
    var unsupported := name + " file contains data in an unsupported format.";
    var failed := "Failed to decode " + name + ".";
    assert |unsupported| == |name| + 45 && |failed| == |name| + 18;
  }

  /** An unsupported layout is rejected whatever the pixel decoder would
      do: two codecs that read the same header give the same failure. */
  lemma UnsupportedNeverDecodes(s: Bytes, kind: ImageFormat, name: string, codec: Codec, other: Codec,
                                target: (RgbFormat, int) -> Option<Target>)
    requires codec.probe(s).Some? && codec.probe == other.probe
    requires target(codec.probe(s).value.format, codec.probe(s).value.bitDepth).None?
    ensures DecodeWithCodec(s, kind, name, codec, target).Err?
    ensures DecodeWithCodec(s, kind, name, codec, target) == DecodeWithCodec(s, kind, name, other, target)
  {
  }

  /** The mode of the wrapper DecodeImage builds for a BMP file. */
  const FileMode: Bmp.Mode := Bmp.Mode(true, false)

  /** The BMP branch: a header the wrapper refuses falls through to the
      final `return false` (the wrapper only logs); otherwise the image is
      B8G8R8A8 with the stored bit count as both depths, and GetRaw, whose
      Uncompress never sets an error, always succeeds. */
  function DecodeBmp(s: Bytes): (r: Result<DecodedImage>)
    requires Bmp.HoldsData(s, FileMode)
    ensures r.Ok? <==> Bmp.LoadHeader(s).Ok?
    ensures r.Err? ==> r.message == ""
    ensures r.Ok? ==>
              var p := Bmp.LoadHeader(s).value;
              r.value.sourceType == Formats.Bmp && r.value.sourceFormat == Bgra
              && r.value.textureFormat == BGRA8
              && r.value.sourceBitDepth == r.value.bitDepth == p.bitDepth
              && r.value.width == p.width && r.value.height == p.height
              && p.bitDepth in {8, 24, 32}
              && r.value.width >= 0 && |r.value.data| == r.value.width * r.value.height * 4
  {
    match Bmp.SetCompressed(s, FileMode)
    case Err(_) => Err("")
    case Ok(p) =>
      var raster := Bmp.Uncompress(s, FileMode);
      Bmp.HalvedHeight(BmpSupport.Height(s, BmpSupport.FileHeaderSize));
      var data := if raster.Some? then raster.value.data else [];
      Ok(DecodedImage(Formats.Bmp, p.format, p.bitDepth, p.width, p.height, BGRA8, p.bitDepth, data))
  }

  /** What DecodeImage reads without checking, for the containers it
      decodes itself. */
  predicate HoldsData(f: ImageFormat, s: Bytes)
  {
    (f == Formats.Bmp ==> Bmp.HoldsData(s, FileMode))
    && (f == Formats.Pcx ==> Pcx.HoldsData(s))
    && (f == Formats.Tga && Tga.Accepted(s) ==> Tga.HoldsData(s))
  }

  /** DecodeImage. ICO, grayscale JPEG and Invalid tags have no branch and
      fail without a warning. */
  function DecodeImage(f: ImageFormat, s: Bytes, png: Codec, jpeg: Codec, exr: Codec): (r: Result<DecodedImage>)
    requires HoldsData(f, s)
    ensures r.Ok? ==> r.value.sourceType == f
    ensures f in {Ico, GrayscaleJpeg, InvalidImage} ==> r == Err("")
    ensures r.Ok? && f in {Png, Jpeg} ==> r.value.textureFormat in {RGBA8, RGBA16}
    ensures r.Ok? && f == Exr ==> r.value.textureFormat == RGBA16F
    ensures r.Ok? && f in {Formats.Bmp, Formats.Pcx} ==> r.value.textureFormat == BGRA8
    ensures r.Ok? && f == Formats.Tga ==> r.value.textureFormat in {G8, BGRA8}
    ensures f == Png ==> r == DecodeWithCodec(s, Png, "PNG", png, PngTarget)
    ensures f == Jpeg ==> r == DecodeWithCodec(s, Jpeg, "JPEG", jpeg, JpegTarget)
    ensures f == Exr ==> r == DecodeWithCodec(s, Exr, "EXR", exr, ExrTarget)
    ensures f == Formats.Bmp ==> r == DecodeBmp(s)
    ensures f == Formats.Pcx ==> r == Pcx.Decode(s)
    ensures f == Formats.Tga ==> r == Tga.Decode(s)
  {
    match f
    case Png => DecodeWithCodec(s, Png, "PNG", png, PngTarget)
    case Jpeg => DecodeWithCodec(s, Jpeg, "JPEG", jpeg, JpegTarget)
    case Exr => DecodeWithCodec(s, Exr, "EXR", exr, ExrTarget)
    case Bmp => DecodeBmp(s)
    case Pcx => Pcx.Decode(s)
    case Tga => Tga.Decode(s)
    case _ => Err("")
  }

  /** Detection and decoding agree on BMP: a buffer detection reports as BMP
      and that holds both headers decodes exactly when its info header passes
      the wrapper's checks, whatever the codecs do. */
  lemma DetectedBmpDecodes(s: Bytes, png: Codec, jpeg: Codec, exr: Codec)
    requires Detect.DetectImageFormat(s) == Formats.Bmp && |s| >= Bmp.HeadersSize
    requires Bmp.HoldsData(s, FileMode)
    ensures HoldsData(Formats.Bmp, s)
    ensures DecodeImage(Formats.Bmp, s, png, jpeg, exr).Ok? <==> Bmp.CheckInfoHeader(s, BmpSupport.FileHeaderSize).Ok?
  {
    assert s[..2] == Detect.BmpMagic;
    assert s[0] == 0x42 && s[1] == 0x4D;
  }

  /** A TGA header outside the accepted types, or a buffer shorter than
      the header, is refused without a warning and without reading past
      the header, whatever follows it. */
  lemma TgaRefusedBeforeReading(s: Bytes, png: Codec, jpeg: Codec, exr: Codec)
    requires !Tga.Accepted(s)
    ensures HoldsData(Formats.Tga, s)
    ensures DecodeImage(Formats.Tga, s, png, jpeg, exr) == Err("")
  {
  }

  /** For the library-backed codecs the texture's bit depth follows its
      layout: 8 for RGBA8, 16 for the 16-bit layouts. */
  lemma DecodedDepth(f: ImageFormat, s: Bytes, png: Codec, jpeg: Codec, exr: Codec)
    requires HoldsData(f, s) && f in {Png, Jpeg, Exr}
    requires DecodeImage(f, s, png, jpeg, exr).Ok?
    ensures var d := DecodeImage(f, s, png, jpeg, exr).value;
            (d.textureFormat == RGBA8 ==> d.bitDepth == 8)
            && (d.textureFormat in {RGBA16, RGBA16F} ==> d.bitDepth == 16)
  {
  }
}

=== FILE: detect.dfy ===
/** Container detection by signature (Source/Wrapper/ImageWrapperModule.cpp,
    and the identical DetectFormat at the end of Source/Decoder/Decoder.cpp)
    and the choice of wrapper for a detected container. */
module Detect {
  import opened Results
  import opened Bytes
  import opened Formats
  import opened Seqs

  const PngMagic: Bytes := [0x89, 0x50, 0x4E, 0x47, 0x0D, 0x0A, 0x1A, 0x0A]
  const JpegMagic: Bytes := [0xFF, 0xD8, 0xFF]
  const BmpMagic: Bytes := [0x42, 0x4D]
  const IcoMagic: Bytes := [0x00, 0x00, 0x01, 0x00]
  const ExrMagic: Bytes := [0x76, 0x2F, 0x31, 0x01]
  /** Declared next to the others but never tested. */
  const IcnsMagic: Bytes := [0x69, 0x63, 0x6E, 0x73]

  /** The byte-by-byte comparison loop from position `i` on. */
  function MatchesFrom(s: Bytes, magic: Bytes, i: nat): (r: bool)
    requires i <= |magic| <= |s|
    ensures r <==> s[i..|magic|] == magic[i..]
    decreases |magic| - i
  {
    if i == |magic| then true
    else if s[i] != magic[i] then false
    else
      var r := MatchesFrom(s, magic, i + 1);
      assert s[i..|magic|] == [s[i]] + s[i + 1..|magic|];
      assert magic[i..] == [magic[i]] + magic[i + 1..];
      r
  }

  /** StartsWith: too short a buffer never matches; otherwise the leading
      bytes are compared with the signature. */
  function StartsWith(s: Bytes, magic: Bytes): (r: bool)
    ensures r <==> |s| >= |magic| && s[..|magic|] == magic
  {
    if |s| < |magic| then false
    else
      var r := MatchesFrom(s, magic, 0);
      assert magic[0..] == magic;
      r
  }

  /** DetectImageFormat and DetectFormat: the signatures are tried in the
      order PNG, JPEG, BMP, ICO, EXR and the first one that matches wins. */
  function DetectImageFormat(s: Bytes): (f: ImageFormat)
    ensures f == Png <==> StartsWith(s, PngMagic)
    ensures f == Jpeg <==> StartsWith(s, JpegMagic)
    ensures f == Bmp <==> StartsWith(s, BmpMagic)
    ensures f == Ico <==> StartsWith(s, IcoMagic)
    ensures f == Exr <==> StartsWith(s, ExrMagic)
    ensures f != Tga && f != Pcx && f != GrayscaleJpeg
  {
    if StartsWith(s, PngMagic) then Png
    else if StartsWith(s, JpegMagic) then Jpeg
    else if StartsWith(s, BmpMagic) then Bmp
    else if StartsWith(s, IcoMagic) then Ico
    else if StartsWith(s, ExrMagic) then Exr
    else InvalidImage
  }

  /** The signature that selects each detectable container. */
  function MagicOf(f: ImageFormat): (m: Bytes)
    requires f in {Png, Jpeg, Bmp, Ico, Exr}
    ensures 2 <= |m| <= 8
  {
    match f
    case Png => PngMagic
    case Jpeg => JpegMagic
    case Bmp => BmpMagic
    case Ico => IcoMagic
    case Exr => ExrMagic
  }

  /** The five signatures begin with five different bytes, so at most one
      matches and the order of the tests never decides the result. */
  lemma {:induction false} SignaturesExclusive(s: Bytes, f: ImageFormat, g: ImageFormat)
    requires f in {Png, Jpeg, Bmp, Ico, Exr} && g in {Png, Jpeg, Bmp, Ico, Exr}
    requires StartsWith(s, MagicOf(f)) && StartsWith(s, MagicOf(g))
    ensures f == g
  {
    assert s[0] == s[..|MagicOf(f)|][0] == MagicOf(f)[0];
    assert s[0] == s[..|MagicOf(g)|][0] == MagicOf(g)[0];
  }

  /** Detection returns a container exactly when its signature is present,
      and Invalid when none is. */
  lemma DetectIsSignature(s: Bytes)
    ensures DetectImageFormat(s) == InvalidImage <==>
              forall f | f in {Png, Jpeg, Bmp, Ico, Exr} :: !StartsWith(s, MagicOf(f))
  {
    assert MagicOf(Png) == PngMagic && MagicOf(Jpeg) == JpegMagic && MagicOf(Bmp) == BmpMagic;
    assert MagicOf(Ico) == IcoMagic && MagicOf(Exr) == ExrMagic;
  }

  /** At most the first eight bytes decide the result. */
  lemma DetectReadsEightBytes(s: Bytes)
    ensures DetectImageFormat(s) == DetectImageFormat(s[..Min(|s|, 8)])
  {
    var t := s[..Min(|s|, 8)];
    forall m: Bytes | |m| <= 8
      ensures StartsWith(s, m) <==> StartsWith(t, m)
    {
      if |s| >= |m| {
        assert t[..|m|] == s[..|m|];
      }
    }
  }

  /** A buffer carrying the ICNS signature is not recognised. */
  lemma IcnsIsInvalid(s: Bytes)
    requires StartsWith(s, IcnsMagic)
    ensures DetectImageFormat(s) == InvalidImage
  {
    assert s[0] == s[..4][0] == 0x69;
  }

  /** The wrapper CreateImageWrapper allocates: a JPEG wrapper carries its
      component count, a BMP wrapper whether a file header precedes the info
      header and whether the stored height counts an AND mask too. */
  datatype WrapperKind =
    | PngWrapper
    | JpegWrapper(components: nat)
    | BmpWrapper(hasHeader: bool, halfHeight: bool)
    | IcoWrapper
    | ExrWrapper

  /** CreateImageWrapper: a wrapper for PNG, JPEG, grayscale JPEG (one
      component), BMP (file header, full height), ICO and EXR; none for the
      other tags. */
  function CreateImageWrapper(f: ImageFormat): (w: Option<WrapperKind>)
    ensures w.Some? <==> f in {Png, Jpeg, GrayscaleJpeg, Bmp, Ico, Exr}
    ensures f == Jpeg ==> w == Some(JpegWrapper(4))
    ensures f == GrayscaleJpeg ==> w == Some(JpegWrapper(1))
    ensures f == Bmp ==> w == Some(BmpWrapper(true, false))
  {
    match f
    case Png => Some(PngWrapper)
    case Jpeg => Some(JpegWrapper(4))
    case GrayscaleJpeg => Some(JpegWrapper(1))
    case Bmp => Some(BmpWrapper(true, false))
    case Ico => Some(IcoWrapper)
    case Exr => Some(ExrWrapper)
    case _ => None
  }

  /** Every container detection can report has a wrapper. */
  lemma DetectedHasWrapper(s: Bytes)
    ensures DetectImageFormat(s) != InvalidImage <==> CreateImageWrapper(DetectImageFormat(s)).Some?
  {
  }
}

=== FILE: formats.dfy ===
/** The format tags of Source/Decoder.h and the decoded-image record that
    DecodeImage fills in (Source/Decoder/Decoder.cpp). */
module Formats {
  import opened Results
  import opened Bytes
  import Grid

  /** EImageFormat: the container formats the library recognises. */
  datatype ImageFormat = InvalidImage | Png | Jpeg | GrayscaleJpeg | Bmp | Ico | Exr | Pcx | Tga

  /** ERGBFormat: the channel layout a wrapper reports or is asked for. */
  datatype RgbFormat = InvalidRgb | Rgba | Bgra | Gray

  /** ETextureSourceFormat: the layout of the decoded buffer. */
  datatype TextureFormat =
    InvalidTexture | G8 | G16 | BGRA8 | BGRE8 | RGBA16 | RGBA16F | RGBA8 | RGBE8

  /** One 4-byte pixel; the fields name memory bytes 0, 1, 2, 3 in that
      order, so a BGRA8 buffer holds b, g, r, a. */
  datatype Pixel = Pixel(b: byte, g: byte, r: byte, a: byte)

  /** The bytes of a pixel row in memory order. */
  function PixelBytes(ps: seq<Pixel>): (s: Bytes)
    ensures |s| == 4 * |ps|
  {
    if |ps| == 0 then []
    else [ps[0].b, ps[0].g, ps[0].r, ps[0].a] + PixelBytes(ps[1..])
  }

  /** Byte `4 * i + c` of the buffer is channel `c` of pixel `i`. */
  lemma {:induction false} PixelBytesIndex(ps: seq<Pixel>, i: nat)
    requires i < |ps|
    ensures PixelBytes(ps)[4 * i] == ps[i].b
    ensures PixelBytes(ps)[4 * i + 1] == ps[i].g
    ensures PixelBytes(ps)[4 * i + 2] == ps[i].r
    ensures PixelBytes(ps)[4 * i + 3] == ps[i].a
  {
    if i > 0 {
      PixelBytesIndex(ps[1..], i - 1);
    }
  }

  /** The buffer of a 4-byte-per-pixel image, row after row. */
  function ImageBytes(rows: seq<seq<Pixel>>): Bytes
  {
    PixelBytes(Grid.Flatten(rows))
  }

  lemma ImageBytesLength(rows: seq<seq<Pixel>>, w: nat, h: nat)
    requires Grid.IsGrid(rows, w, h)
    ensures |ImageBytes(rows)| == w * h * 4
  {
    Grid.FlattenLength(rows, w, h);
  }

  /** Where pixel (x, y) of a `w`-wide 4-byte-per-pixel buffer starts. */
  function PixelOffset(x: nat, y: nat, w: nat): nat
  {
    4 * (x + y * w)
  }

  /** Byte `4 * (x + y * w) + c` of an image's buffer is channel `c` of
      pixel (x, y). */
  lemma ImageBytesPixel(rows: seq<seq<Pixel>>, w: nat, h: nat, x: nat, y: nat)
    requires Grid.IsGrid(rows, w, h) && x < w && y < h
    ensures |ImageBytes(rows)| == w * h * 4 && 4 * (x + y * w) + 3 < w * h * 4
    ensures ImageBytes(rows)[4 * (x + y * w)] == rows[y][x].b
    ensures ImageBytes(rows)[4 * (x + y * w) + 1] == rows[y][x].g
    ensures ImageBytes(rows)[4 * (x + y * w) + 2] == rows[y][x].r
    ensures ImageBytes(rows)[4 * (x + y * w) + 3] == rows[y][x].a
  {
    Grid.FlattenIndex(rows, w, h, x, y);
    PixelBytesIndex(Grid.Flatten(rows), x + y * w);
  }

  /** The fields of the output record DecodeImage writes: the source
      description (container, native layout and depth) and the decoded
      texture. */
  datatype DecodedImage = DecodedImage(
    sourceType: ImageFormat,
    sourceFormat: RgbFormat,
    sourceBitDepth: int,
    width: int,
    height: int,
    textureFormat: TextureFormat,
    bitDepth: int,
    data: Bytes)

  /** What a library-backed wrapper reports after reading a header. */
  datatype CodecHeader = CodecHeader(width: int, height: int, format: RgbFormat, bitDepth: int)

  /** A codec the library delegates to (libpng, libjpeg-turbo, OpenEXR):
      `probe` is SetCompressed with the header read, `raw` is GetRaw asked
      for a layout and depth. Both may fail. */
  datatype Codec = Codec(probe: Bytes -> Option<CodecHeader>, raw: (Bytes, RgbFormat, int) -> Option<Bytes>)
}

=== FILE: grid.dfy ===
/** Images as rows of pixels. The source stores an image as one buffer in
    which pixel (x, y) of a `w`-wide image sits at index `x + y * w`; here an
    image is a sequence of rows, and Flatten gives back the buffer. */
module Grid {
  import Arith

  /** `rows` holds `h` rows of `w` pixels each. */
  predicate IsGrid<T>(rows: seq<seq<T>>, w: nat, h: nat)
  {
    |rows| == h && forall y :: 0 <= y < h ==> |rows[y]| == w
  }

  /** The row-major buffer of an image. */
  function Flatten<T>(rows: seq<seq<T>>): seq<T>
  {
    if |rows| == 0 then [] else rows[0] + Flatten(rows[1..])
  }

  lemma {:induction false} FlattenLength<T>(rows: seq<seq<T>>, w: nat, h: nat)
    requires IsGrid(rows, w, h)
    ensures |Flatten(rows)| == w * h
  {
    if h > 0 {
      FlattenLength(rows[1..], w, h - 1);
    }
  }

  /** Pixel (x, y) of the image is element `x + y * w` of its buffer. */
  lemma {:induction false} FlattenIndex<T>(rows: seq<seq<T>>, w: nat, h: nat, x: nat, y: nat)
    requires IsGrid(rows, w, h)
    requires x < w && y < h
    ensures |Flatten(rows)| == w * h
    ensures x + y * w < w * h
    ensures Flatten(rows)[x + y * w] == rows[y][x]
  {
    FlattenLength(rows, w, h);
    if y > 0 {
      FlattenIndex(rows[1..], w, h - 1, x, y - 1);
      assert x + y * w == w + (x + (y - 1) * w);
    }
  }

  /** Cuts a buffer of `w * h` elements into `h` rows of `w`. */
  function Chunk<T>(s: seq<T>, w: nat, h: nat): (rows: seq<seq<T>>)
    requires |s| == w * h
    ensures IsGrid(rows, w, h)
  {
    if h == 0 then []
    else
      Arith.MulSuccRight(w, h - 1);
      [s[..w]] + Chunk(s[w..], w, h - 1)
  }

  /** Chunk and Flatten are inverse to each other. */
  lemma {:induction false} FlattenChunk<T>(s: seq<T>, w: nat, h: nat)
    requires |s| == w * h
    ensures Flatten(Chunk(s, w, h)) == s
  {
    if h > 0 {
      assert |s| == w + w * (h - 1);
      FlattenChunk(s[w..], w, h - 1);
      assert Chunk(s, w, h)[1..] == Chunk(s[w..], w, h - 1);
    }
  }

  lemma {:induction false} ChunkFlatten<T>(rows: seq<seq<T>>, w: nat, h: nat)
    requires IsGrid(rows, w, h)
    ensures |Flatten(rows)| == w * h
    ensures Chunk(Flatten(rows), w, h) == rows
  {
    FlattenLength(rows, w, h);
    if h > 0 {
      ChunkFlatten(rows[1..], w, h - 1);
      var s := Flatten(rows);
      assert s[..w] == rows[0];
      assert s[w..] == Flatten(rows[1..]);
    }
  }

  /** Row `y` of a chunked buffer is the slice starting at `y * w`. */
  lemma {:induction false} ChunkRow<T>(s: seq<T>, w: nat, h: nat, y: nat)
    requires |s| == w * h && y < h
    ensures y * w + w <= |s|
    ensures Chunk(s, w, h)[y] == s[y * w .. y * w + w]
  {
    Arith.MulSuccRight(w, h - 1);
    Arith.MulSucc(y, w);
    Arith.MulLe(y + 1, h, w);
    Arith.MulComm(h, w);
    if y == 0 {
      assert Chunk(s, w, h)[0] == s[..w];
    } else {
      var k := y - 1;
      Arith.MulSucc(k, w);
      ChunkRow(s[w..], w, h - 1, k);
      assert Chunk(s, w, h)[y] == Chunk(s[w..], w, h - 1)[k];
      assert s[w..][k * w .. k * w + w] == s[y * w .. y * w + w];
    }
  }

  /** One more row of `w` elements at the end of the buffer is one more row
      at the bottom of the image. */
  lemma {:induction false} ChunkSnoc<T>(s: seq<T>, row: seq<T>, w: nat, h: nat)
    requires |s| == w * h && |row| == w
    ensures |s + row| == w * (h + 1)
    ensures Chunk(s + row, w, h + 1) == Chunk(s, w, h) + [row]
  {
    if h == 0 {
      assert (s + row)[..w] == row;
    } else {
      assert |s| == w + w * (h - 1);
      assert (s + row)[w..] == s[w..] + row;
      assert (s + row)[..w] == s[..w];
      ChunkSnoc(s[w..], row, w, h - 1);
    }
  }

  // ---------------------------------------------------------------------------
  // Mirroring
  // ---------------------------------------------------------------------------

  function Reverse<T>(s: seq<T>): (r: seq<T>)
    ensures |r| == |s|
    ensures forall i :: 0 <= i < |s| ==> r[i] == s[|s| - 1 - i]
  {
    seq(|s|, i requires 0 <= i < |s| => s[|s| - 1 - i])
  }

  lemma ReverseSnoc<T>(s: seq<T>, x: T)
    ensures Reverse(s + [x]) == [x] + Reverse(s)
  {
  }

  lemma ReverseReverse<T>(s: seq<T>)
    ensures Reverse(Reverse(s)) == s
  {
  }

  /** Mirrors an image: each row left-right when `flipX`, the order of the
      rows when `flipY`. */
  function Flip<T>(rows: seq<seq<T>>, flipX: bool, flipY: bool): (r: seq<seq<T>>)
    ensures |r| == |rows|
    ensures forall y :: 0 <= y < |rows| ==>
              r[y] == (var row := rows[if flipY then |rows| - 1 - y else y];
                       if flipX then Reverse(row) else row)
  {
    var ys := if flipY then Reverse(rows) else rows;
    seq(|ys|, y requires 0 <= y < |ys| => if flipX then Reverse(ys[y]) else ys[y])
  }

  /** Flipping keeps the dimensions. */
  lemma FlipIsGrid<T>(rows: seq<seq<T>>, w: nat, h: nat, flipX: bool, flipY: bool)
    requires IsGrid(rows, w, h)
    ensures IsGrid(Flip(rows, flipX, flipY), w, h)
  {
  }

  /** Pixel (x, y) of a flipped grid is the pixel at the mirrored
      coordinates of the original. */
  lemma FlipPixel<T>(rows: seq<seq<T>>, w: nat, h: nat, flipX: bool, flipY: bool, x: nat, y: nat)
    requires IsGrid(rows, w, h) && x < w && y < h
    ensures IsGrid(Flip(rows, flipX, flipY), w, h)
    ensures Flip(rows, flipX, flipY)[if flipY then h - y - 1 else y][if flipX then w - x - 1 else x]
            == rows[y][x]
  {
    FlipIsGrid(rows, w, h, flipX, flipY);
    var dy := if flipY then h - y - 1 else y;
    var row := rows[y];
    assert (if flipY then h - 1 - dy else dy) == y;
    assert Flip(rows, flipX, flipY)[dy] == if flipX then Reverse(row) else row;
  }

  /** Flipping the same way twice restores the image. */
  lemma FlipInvolution<T>(rows: seq<seq<T>>, flipX: bool, flipY: bool)
    ensures Flip(Flip(rows, flipX, flipY), flipX, flipY) == rows
  {
    var once := Flip(rows, flipX, flipY);
    var twice := Flip(once, flipX, flipY);
    forall y | 0 <= y < |rows|
      ensures twice[y] == rows[y]
    {
      if flipX {
        ReverseReverse(rows[y]);
      }
    }
  }

  /** The source's index arithmetic: the block at (X, Y) of the buffer moves
      to (DestX, DestY), where each coordinate is mirrored when its flag is
      set. */
  lemma FlipMovesBlock<T>(rows: seq<seq<T>>, w: nat, h: nat, flipX: bool, flipY: bool, x: nat, y: nat)
    requires IsGrid(rows, w, h) && x < w && y < h
    ensures var destX := if flipX then w - x - 1 else x;
            var destY := if flipY then h - y - 1 else y;
            |Flatten(Flip(rows, flipX, flipY))| == w * h
            && |Flatten(rows)| == w * h
            && destX + destY * w < w * h && x + y * w < w * h
            && Flatten(Flip(rows, flipX, flipY))[destX + destY * w] == Flatten(rows)[x + y * w]
  {
    var destX := if flipX then w - x - 1 else x;
    var destY := if flipY then h - y - 1 else y;
    FlipPixel(rows, w, h, flipX, flipY, x, y);
    FlattenIndex(Flip(rows, flipX, flipY), w, h, destX, destY);
    FlattenIndex(rows, w, h, x, y);
  }
}

=== FILE: ico.dfy ===
/** The ICO wrapper (Source/Wrapper/Formats/IcoImageWrapper.cpp): the icon
    directory is walked for the widest 32-bit entry that decodes, each
    candidate being probed as PNG first and then as a BMP without file
    header whose stored height covers the image and its AND mask. */
module Ico {
  import opened Results
  import opened Bytes
  import opened Formats
  import Bmp
  import BmpSupport

  const DirectorySize: nat := 6
  const EntrySize: nat := 16

  /** An unsigned 32-bit field. */
  type Dword = n: nat | n < 0x1_0000_0000

  /** The fields of FIconDirEntry the walk reads. */
  datatype Entry = Entry(width: byte, bitCount: nat, bytesInRes: Dword, imageOffset: nat)

  /** Entry `i` of the directory: 16 packed bytes after the 6-byte
      directory header, bWidth at +0, wBitCount at +6, dwBytesInRes at +8,
      dwImageOffset at +12. */
  function EntryAt(s: Bytes, i: nat): (e: Entry)
    requires DirectorySize + EntrySize * (i + 1) <= |s|
    ensures e.width == s[DirectorySize + EntrySize * i]
  {
    var o := DirectorySize + EntrySize * i;
    Entry(s[o], U16(s, o + 6), U32(s, o + 8), U32(s, o + 12))
  }

  /** The first `count` directory entries. */
  function Entries(s: Bytes, count: nat): (es: seq<Entry>)
    requires DirectorySize + EntrySize * count <= |s|
    ensures |es| == count && forall i :: 0 <= i < count ==> es[i] == EntryAt(s, i)
  {
    seq(count, i requires 0 <= i < count => EntryAt(s, i))
  }

  /** A width byte of 0 stands for 256. */
  function RealWidth(e: Entry): (w: nat)
    ensures 1 <= w <= 256 && (w == 256 <==> e.width == 0)
  {
    if e.width == 0 then 256 else e.width
  }

  /** `(int)dwBytesInRes`: the size handed to SetCompressed. */
  function ResourceSize(e: Entry): int
  {
    ToInt32(e.bytesInRes)
  }

  /** What probing a 32-bit entry reads lies in the buffer, and a resource
      the PNG codec refuses holds a BMP info header's checked fields. */
  predicate EntryHeld(s: Bytes, e: Entry, png: Codec)
  {
    e.bitCount == 32 && ResourceSize(e) > 0 ==>
      e.imageOffset + ResourceSize(e) <= |s|
      && (png.probe(s[e.imageOffset..e.imageOffset + ResourceSize(e)]).None? ==> ResourceSize(e) >= 20)
  }

  /** The bytes of an entry's image. */
  function Resource(s: Bytes, e: Entry, png: Codec): (b: Bytes)
    requires EntryHeld(s, e, png) && e.bitCount == 32 && ResourceSize(e) > 0
    ensures |b| == ResourceSize(e)
  {
    s[e.imageOffset..e.imageOffset + ResourceSize(e)]
  }

  /** What a successful probe reports: the container and the size and
      layout the icon takes over. */
  datatype Probed = Probed(isPng: bool, width: int, height: int, format: RgbFormat)

  /** The wrapper used for an icon's BMP images. */
  const IconMode: Bmp.Mode := Bmp.Mode(false, true)

  /** Probing one entry: an empty or negative size is refused by
      SetCompressed; then PNG, then BMP, whose height is halved. */
  function Probe(s: Bytes, e: Entry, png: Codec): (r: Option<Probed>)
    requires EntryHeld(s, e, png) && e.bitCount == 32
    ensures r.Some? ==> ResourceSize(e) > 0
    ensures r.Some? && r.value.isPng ==>
              var h := png.probe(Resource(s, e, png));
              h.Some? && r.value == Probed(true, h.value.width, h.value.height, h.value.format)
    ensures r.Some? && !r.value.isPng ==>
              var b := Resource(s, e, png);
              png.probe(b).None? && Bmp.SetCompressed(b, IconMode).Ok?
              && var p := Bmp.SetCompressed(b, IconMode).value;
                 r.value == Probed(false, p.width, p.height / 2, p.format)
    ensures r.None? && ResourceSize(e) > 0 ==>
              png.probe(Resource(s, e, png)).None? && Bmp.SetCompressed(Resource(s, e, png), IconMode).Err?
  {
    if ResourceSize(e) <= 0 then None
    else
      var b := Resource(s, e, png);
      match png.probe(b)
      case Some(h) => Some(Probed(true, h.width, h.height, h.format))
      case None =>
        match Bmp.SetCompressed(b, IconMode)
        case Ok(p) => Some(Probed(false, p.width, p.height / 2, p.format))
        case Err(_) => None
  }

  /** An entry the walk can select: 32 bits per pixel, a resource in the
      buffer and a probe that succeeds. */
  predicate Viable(s: Bytes, e: Entry, png: Codec)
  {
    e.bitCount == 32 && EntryHeld(s, e, png) && Probe(s, e, png).Some?
  }

  /** An entry the walk probes once `largest` is the width to beat: the
      source hands its resource to a sub-wrapper whether or not the probe
      then succeeds. */
  predicate Probed32(e: Entry, largest: nat)
  {
    e.bitCount == 32 && RealWidth(e) > largest && ResourceSize(e) > 0
  }

  /** The walk's state: whether an entry was selected, which one, the
      width to beat, what its probe reported, the bytes the PNG and BMP
      sub-wrappers were last given, and whether some probe read past the
      buffer (undefined behaviour in the source, after which the rest of
      the state says nothing). */
  datatype Scan = Scan(found: bool, chosen: nat, largest: nat, probed: Probed, pngData: Bytes, bmpData: Bytes,
                       readPast: bool)

  const InitialScan: Scan := Scan(false, 0, 0, Probed(false, 0, 0, InvalidRgb), [], [], false)

  /** One iteration of the directory loop for entry `i`. Only an entry that
      is probed reads its resource; each probe hands the resource to its
      sub-wrapper even when the probe then fails. */
  function Step(s: Bytes, st: Scan, e: Entry, i: nat, png: Codec): (r: Scan)
    ensures var selects := Viable(s, e, png) && RealWidth(e) > st.largest;
            (selects ==> r.found && r.chosen == i && r.largest == RealWidth(e) && Some(r.probed) == Probe(s, e, png))
            && (!selects ==> r.found == st.found && r.chosen == st.chosen && r.largest == st.largest
                             && r.probed == st.probed)
    ensures r.readPast <==> st.readPast || (Probed32(e, st.largest) && !EntryHeld(s, e, png))
  {
    if !Probed32(e, st.largest) then st
    else if !EntryHeld(s, e, png) then st.(readPast := true)
    else
      var b := Resource(s, e, png);
      var written := if png.probe(b).Some? then st.(pngData := b) else st.(pngData := b, bmpData := b);
      match Probe(s, e, png)
      case None => written
      case Some(p) => written.(found := true, chosen := i, largest := RealWidth(e), probed := p)
  }

  /** The loop over the directory, entry after entry. */
  function Walk(s: Bytes, es: seq<Entry>, png: Codec): (st: Scan)
    ensures st.found ==>
              st.chosen < |es| && Viable(s, es[st.chosen], png)
              && Probe(s, es[st.chosen], png) == Some(st.probed) && st.largest == RealWidth(es[st.chosen])
    ensures !st.found ==> st.largest == 0
    decreases |es|
  {
    if |es| == 0 then InitialScan
    else
      var n := |es| - 1;
      var before := Walk(s, es[..n], png);
      Step(s, before, es[n], n, png)
  }

  /** The walk selects an entry exactly when a viable one exists. */
  lemma {:induction false} WalkFindsViable(s: Bytes, es: seq<Entry>, png: Codec)
    ensures Walk(s, es, png).found <==> exists i :: 0 <= i < |es| && Viable(s, es[i], png)
    decreases |es|
  {
    if |es| > 0 {
      var n := |es| - 1;
      var pre := es[..n];
      WalkFindsViable(s, pre, png);
      var before := Walk(s, pre, png);
      assert Walk(s, es, png) == Step(s, before, es[n], n, png);
      if before.found {
        var i :| 0 <= i < n && Viable(s, pre[i], png);
        assert es[i] == pre[i];
      }
      if exists i :: 0 <= i < |es| && Viable(s, es[i], png) {
        var i :| 0 <= i < |es| && Viable(s, es[i], png);
        if i < n {
          assert pre[i] == es[i];
        }
      }
    }
  }

  /** The entry the walk selects is the first of the widest viable ones:
      no viable entry is wider, and every earlier viable entry is
      narrower. */
  lemma {:induction false} WalkSelectsFirstWidest(s: Bytes, es: seq<Entry>, png: Codec)
    ensures var st := Walk(s, es, png);
            st.found ==>
              forall j :: 0 <= j < |es| && Viable(s, es[j], png) ==>
                RealWidth(es[j]) <= st.largest && (j < st.chosen ==> RealWidth(es[j]) < st.largest)
    decreases |es|
  {
    if |es| > 0 {
      var n := |es| - 1;
      var pre := es[..n];
      WalkSelectsFirstWidest(s, pre, png);
      // An earlier viable entry means the walk over the prefix had found one.
      WalkFindsViable(s, pre, png);
      assert Walk(s, es, png) == Step(s, Walk(s, pre, png), es[n], n, png);
      forall j | 0 <= j < n
        ensures es[j] == pre[j]
      {
      }
    }
  }

  /** Entry `j` is probed, with the width to beat the walk over the
      entries before it leaves, and its resource is not in the buffer. */
  predicate ProbedOutside(s: Bytes, es: seq<Entry>, j: nat, png: Codec)
    requires j < |es|
  {
    Probed32(es[j], Walk(s, es[..j], png).largest) && !EntryHeld(s, es[j], png)
  }

  /** The walk reads past the buffer exactly when an entry it probes, with
      the width to beat it meets, has a resource the buffer does not hold.
      An entry the walk does not probe is never read. */
  lemma {:induction false} WalkReadsPast(s: Bytes, es: seq<Entry>, png: Codec)
    ensures Walk(s, es, png).readPast <==> exists j :: 0 <= j < |es| && ProbedOutside(s, es, j, png)
    decreases |es|
  {
    if |es| > 0 {
      var n := |es| - 1;
      var pre := es[..n];
      var before := Walk(s, pre, png);
      WalkReadsPast(s, pre, png);
      assert Walk(s, es, png) == Step(s, before, es[n], n, png);
      assert ProbedOutside(s, es, n, png) <==> Probed32(es[n], before.largest) && !EntryHeld(s, es[n], png);
      forall j | 0 <= j < n
        ensures ProbedOutside(s, es, j, png) == ProbedOutside(s, pre, j, png)
      {
        assert es[j] == pre[j] && es[..j] == pre[..j];
      }
    }
  }

  /** A directory whose every resource is held is walked without reading
      past the buffer. */
  lemma HeldEntriesReadInside(s: Bytes, es: seq<Entry>, png: Codec)
    requires forall i :: 0 <= i < |es| ==> EntryHeld(s, es[i], png)
    ensures !Walk(s, es, png).readPast
  {
    WalkReadsPast(s, es, png);
  }

  /** What a successful LoadICOHeader leaves in the icon wrapper: the
      description of the selected image, where it lies, and two candidate
      sources for its bytes — the selected entry's own resource, and the
      buffer its sub-wrapper was given last. */
  datatype Icon = Icon(
    width: int, height: int, format: RgbFormat, isPng: bool,
    index: nat, imageOffset: nat, imageSize: nat,
    entry: Bytes, subData: Bytes)

  /** What the loader reads without checking lies in the buffer: the
      directory, and the resource of every entry the walk probes. */
  predicate HoldsData(s: Bytes, png: Codec)
  {
    |s| > 0 ==>
      |s| >= 4
      && (U16(s, 0) == 0 && U16(s, 2) == 1 ==>
            |s| >= DirectorySize && DirectorySize + EntrySize * U16(s, 4) <= |s|
            && !Walk(s, Entries(s, U16(s, 4)), png).readPast)
  }

  /** The directory header is that of an icon: idReserved 0, idType 1. */
  predicate IsIconDirectory(s: Bytes)
    requires |s| >= 4
  {
    U16(s, 0) == 0 && U16(s, 2) == 1
  }

  /** SetCompressed followed by LoadICOHeader. It fails (without a
      warning) for an empty buffer, a directory that is not an icon's, or
      one without a viable entry. */
  function LoadHeader(s: Bytes, png: Codec): (r: Result<Icon>)
    requires HoldsData(s, png)
    ensures r.Err? ==> r.message == ""
    ensures r.Ok? ==> |s| >= 4 && IsIconDirectory(s)
    ensures r.Ok? ==>
              var es := Entries(s, U16(s, 4));
              var icon := r.value;
              icon.index < |es|
              && var e := es[icon.index];
                 Viable(s, e, png)
                 && Probe(s, e, png) == Some(Probed(icon.isPng, icon.width, icon.height, icon.format))
                 && icon.imageOffset == e.imageOffset && icon.imageSize == e.bytesInRes
                 && icon.entry == Resource(s, e, png)
  {
    if |s| == 0 || !IsIconDirectory(s) then Err("")
    else
      var es := Entries(s, U16(s, 4));
      var st := Walk(s, es, png);
      if !st.found then Err("")
      else
        var e := es[st.chosen];
        var p := st.probed;
        Ok(Icon(p.width, p.height, p.format, p.isPng, st.chosen, e.imageOffset, e.bytesInRes,
                Resource(s, e, png), if p.isPng then st.pngData else st.bmpData))
  }

  /** An icon loads exactly when its directory has a viable entry, and the
      one it selects is the first of the widest. */
  lemma LoadSelectsFirstWidest(s: Bytes, png: Codec)
    requires HoldsData(s, png) && |s| >= 4 && IsIconDirectory(s)
    ensures var es := Entries(s, U16(s, 4));
            (LoadHeader(s, png).Ok? <==> exists i :: 0 <= i < |es| && Viable(s, es[i], png))
            && (LoadHeader(s, png).Ok? ==>
                  var k := LoadHeader(s, png).value.index;
                  forall j :: 0 <= j < |es| && Viable(s, es[j], png) ==>
                    RealWidth(es[j]) <= RealWidth(es[k]) && (j < k ==> RealWidth(es[j]) < RealWidth(es[k])))
  {
    WalkFindsViable(s, Entries(s, U16(s, 4)), png);
    WalkSelectsFirstWidest(s, Entries(s, U16(s, 4)), png);
  }

  /** The raw data a codec result leaves in the sub-wrapper: empty when
      decoding failed. */
  function OrEmpty(d: Option<Bytes>): Bytes
  {
    if d.Some? then d.value else []
  }

  /** The BMP sub-wrapper's raw data after Uncompress. */
  function BmpRaw(b: Bytes): Bytes
    requires Bmp.HoldsData(b, IconMode)
  {
    var r := Bmp.Uncompress(b, IconMode);
    if r.Some? then r.value.data else []
  }

  /** GetRaw as written: the sub-wrapper decodes the buffer it was given
      last, and the icon hands over whatever raw data that leaves; no error
      is ever set, so the call always succeeds. */
  function GetRawAsWritten(icon: Icon, png: Codec, format: RgbFormat, bitDepth: int): (r: Bytes)
    requires !icon.isPng ==> Bmp.HoldsData(icon.subData, IconMode)
    ensures icon.imageOffset == 0 || icon.imageSize == 0 ==> r == []
  {
    if icon.imageOffset != 0 && icon.imageSize != 0 then
      if icon.isPng then OrEmpty(png.raw(icon.subData, format, bitDepth)) else BmpRaw(icon.subData)
    else []
  }

  /** GetRaw with the selected entry's own bytes decoded. */
  function GetRaw(icon: Icon, png: Codec, format: RgbFormat, bitDepth: int): (r: Bytes)
    requires !icon.isPng ==> Bmp.HoldsData(icon.entry, IconMode)
    ensures icon.imageOffset == 0 || icon.imageSize == 0 ==> r == []
    ensures icon.imageOffset != 0 && icon.imageSize != 0 && icon.isPng ==>
              r == OrEmpty(png.raw(icon.entry, format, bitDepth))
    ensures icon.imageOffset != 0 && icon.imageSize != 0 && !icon.isPng ==>
              (Bmp.Uncompress(icon.entry, IconMode).Some? ==> r == Bmp.Uncompress(icon.entry, IconMode).value.data)
              && (Bmp.Uncompress(icon.entry, IconMode).None? ==> r == [])
  {
    if icon.imageOffset != 0 && icon.imageSize != 0 then
      if icon.isPng then OrEmpty(png.raw(icon.entry, format, bitDepth)) else BmpRaw(icon.entry)
    else []
  }

  /** The buffer the selected container's sub-wrapper was given last. */
  function LastGiven(st: Scan): Bytes
  {
    if st.probed.isPng then st.pngData else st.bmpData
  }

  /** When no entry after the selected one is probed, the sub-wrapper of
      the selected container still holds the selected resource. */
  lemma {:induction false} WalkKeepsSelected(s: Bytes, es: seq<Entry>, png: Codec)
    ensures var st := Walk(s, es, png);
            st.found && (forall j :: st.chosen < j < |es| ==> !Probed32(es[j], st.largest)) ==>
              LastGiven(st) == Resource(s, es[st.chosen], png)
    decreases |es|
  {
    if |es| > 0 {
      var n := |es| - 1;
      var pre := es[..n];
      WalkKeepsSelected(s, pre, png);
      var before := Walk(s, pre, png);
      var st := Walk(s, es, png);
      assert st == Step(s, before, es[n], n, png);
      if st.found && (forall j :: st.chosen < j < |es| ==> !Probed32(es[j], st.largest)) {
        if st.chosen < n {
          assert !Probed32(es[n], st.largest);
          assert st == before;
          forall j | before.chosen < j < |pre|
            ensures !Probed32(pre[j], before.largest)
          {
            assert pre[j] == es[j];
          }
          assert pre[st.chosen] == es[st.chosen];
        }
      }
    }
  }

  /** The two readings of GetRaw part only when an entry after the
      selected one was probed: otherwise the stored sub-data is the
      selected entry's own resource, and GetRaw as written hands back the
      same pixels as the corrected GetRaw. */
  lemma LoadedSubDataFresh(s: Bytes, png: Codec, format: RgbFormat, bitDepth: int)
    requires HoldsData(s, png) && LoadHeader(s, png).Ok?
    requires var es := Entries(s, U16(s, 4));
             var k := LoadHeader(s, png).value.index;
             forall j :: k < j < |es| ==> !Probed32(es[j], RealWidth(es[k]))
    requires var icon := LoadHeader(s, png).value;
             !icon.isPng ==> Bmp.HoldsData(icon.entry, IconMode)
    ensures var icon := LoadHeader(s, png).value;
            icon.subData == icon.entry
            && GetRawAsWritten(icon, png, format, bitDepth) == GetRaw(icon, png, format, bitDepth)
  {
    var es := Entries(s, U16(s, 4));
    WalkKeepsSelected(s, es, png);
  }

  /** A BMP icon decodes to width x height B8G8R8A8 pixels, the height
      being half the stored one. */
  lemma BmpIconSize(s: Bytes, png: Codec, format: RgbFormat, bitDepth: int)
    requires HoldsData(s, png) && LoadHeader(s, png).Ok?
    requires var icon := LoadHeader(s, png).value;
             !icon.isPng && icon.imageOffset != 0 && Bmp.HoldsData(icon.entry, IconMode)
    ensures var icon := LoadHeader(s, png).value;
            icon.width >= 0 && |GetRaw(icon, png, format, bitDepth)| == icon.width * icon.height * 4
  {
    var icon := LoadHeader(s, png).value;
    var b := icon.entry;
    Bmp.HalvedHeight(BmpSupport.Height(b, 0));
    assert Bmp.Uncompress(b, IconMode).Some?;
  }

  /** A 40-byte BMP info header of a 1 x 2 (image and mask) 32-bit bitmap
      with the given compression. */
  function InfoHeaderBytes(compression: byte): (b: Bytes)
    ensures |b| == 40
  {
    [40, 0, 0, 0, 1, 0, 0, 0, 2, 0, 0, 0, 1, 0, 32, 0, compression, 0, 0, 0]
    + seq(20, _ => 0)
  }

  /** An icon with two 32-bit entries: entry 0 (16 wide) is a BMP with one
      pixel; entry 1 (32 wide) has a run-length compressed BMP header,
      which the BMP wrapper refuses. */
  function TwoEntryIcon(): (s: Bytes)
    ensures |s| == 122
  {
    [0, 0, 1, 0, 2, 0]
    + [16, 32, 0, 0, 1, 0, 32, 0, 44, 0, 0, 0, 38, 0, 0, 0]
    + [32, 64, 0, 0, 1, 0, 32, 0, 40, 0, 0, 0, 82, 0, 0, 0]
    + InfoHeaderBytes(0) + [1, 2, 3, 4]
    + InfoHeaderBytes(1)
  }

  /** Entry 0's image: one opaque-alpha pixel under a 1 x 2 header. */
  function SmallBitmap(): (b: Bytes)
    ensures |b| == 44
  {
    InfoHeaderBytes(0) + [1, 2, 3, 4]
  }

  lemma SmallBitmapFields()
    ensures var b := SmallBitmap();
            BmpSupport.Width(b, 0) == 1 && BmpSupport.Height(b, 0) == 2
            && BmpSupport.Planes(b, 0) == 1 && BmpSupport.BitCount(b, 0) == 32
            && BmpSupport.Compression(b, 0) == 0
  {
  }

  /** A plain 32-bit info header of a 1 x 2 icon bitmap followed by one
      stored pixel decodes to one pixel. */
  lemma OnePixelBitmap(b: Bytes)
    requires |b| == 44
    requires BmpSupport.Width(b, 0) == 1 && BmpSupport.Height(b, 0) == 2
    requires BmpSupport.Planes(b, 0) == 1 && BmpSupport.BitCount(b, 0) == 32
    requires BmpSupport.Compression(b, 0) == 0
    ensures Bmp.HoldsData(b, IconMode)
    ensures Bmp.SetCompressed(b, IconMode) == Ok(Bmp.Properties(1, 2, Bgra, 32))
    ensures |BmpRaw(b)| == 4
  {
    assert ToInt32(1) == 1 && Bmp.Abs(2) == 2;
    Bmp.HalvedHeight(2);
    assert Bmp.ImageWidth(b, IconMode) == 1 && Bmp.ImageHeight(b, IconMode) == 1;
  }

  lemma SmallBitmapDecodes()
    ensures Bmp.HoldsData(SmallBitmap(), IconMode)
    ensures Bmp.SetCompressed(SmallBitmap(), IconMode) == Ok(Bmp.Properties(1, 2, Bgra, 32))
    ensures |BmpRaw(SmallBitmap())| == 4
  {
    SmallBitmapFields();
    OnePixelBitmap(SmallBitmap());
  }

  lemma RleBitmapRefused()
    ensures Bmp.HoldsData(InfoHeaderBytes(1), IconMode)
    ensures Bmp.SetCompressed(InfoHeaderBytes(1), IconMode).Err?
    ensures BmpRaw(InfoHeaderBytes(1)) == []
  {
    assert BmpSupport.Compression(InfoHeaderBytes(1), 0) == 1;
  }

  lemma TwoEntryIconLayout()
    ensures var s := TwoEntryIcon();
            IsIconDirectory(s) && U16(s, 4) == 2
            && Entries(s, 2) == [Entry(16, 32, 44, 38), Entry(32, 32, 40, 82)]
            && s[38..82] == SmallBitmap() && s[82..122] == InfoHeaderBytes(1)
  {
    var s := TwoEntryIcon();
    assert s[38..82] == SmallBitmap();
    assert s[82..122] == InfoHeaderBytes(1);
    var es := Entries(s, 2);
    assert es[0] == Entry(16, 32, 44, 38);
    assert es[1] == Entry(32, 32, 40, 82);
  }

  /** The walk over a directory whose first entry is a 16-wide BMP that
      decodes and whose second is a 32-wide BMP that does not. */
  lemma WalkKeepsLaterProbe(s: Bytes, png: Codec, b0: Bytes, b1: Bytes)
    requires |s| == 122 && s[38..82] == b0 && s[82..122] == b1
    requires png.probe(b0).None? && png.probe(b1).None?
    requires Bmp.SetCompressed(b0, IconMode) == Ok(Bmp.Properties(1, 2, Bgra, 32))
    requires Bmp.SetCompressed(b1, IconMode).Err?
    ensures var es := [Entry(16, 32, 44, 38), Entry(32, 32, 40, 82)];
            var st := Walk(s, es, png);
            !st.readPast && st.found && st.chosen == 0
            && !st.probed.isPng && st.probed.width == 1 && st.probed.height == 1 && st.bmpData == b1
  {
    var e0, e1 := Entry(16, 32, 44, 38), Entry(32, 32, 40, 82);
    var es := [e0, e1];
    assert ToInt32(44) == 44 && ToInt32(40) == 40;
    assert EntryHeld(s, e0, png) && Resource(s, e0, png) == b0;
    assert EntryHeld(s, e1, png) && Resource(s, e1, png) == b1;
    assert Probe(s, e0, png) == Some(Probed(false, 1, 1, Bgra));
    assert Probe(s, e1, png).None?;
    assert es[..1] == [e0];
    assert [e0][..0] == [];
    assert Walk(s, [], png) == InitialScan;
    var st0 := Walk(s, [e0], png);
    assert st0 == Step(s, InitialScan, e0, 0, png);
    assert Walk(s, es, png) == Step(s, st0, e1, 1, png);
  }

  /** The stale sub-wrapper for any buffer laid out like TwoEntryIcon. */
  lemma StaleSubWrapperAt(s: Bytes, png: Codec, b0: Bytes, b1: Bytes, format: RgbFormat, bitDepth: int)
    requires |s| == 122 && |s| >= 4 && IsIconDirectory(s) && U16(s, 4) == 2
    requires Entries(s, 2) == [Entry(16, 32, 44, 38), Entry(32, 32, 40, 82)]
    requires s[38..82] == b0 && s[82..122] == b1
    requires png.probe(b0).None? && png.probe(b1).None?
    requires Bmp.HoldsData(b0, IconMode) && Bmp.SetCompressed(b0, IconMode) == Ok(Bmp.Properties(1, 2, Bgra, 32))
    requires Bmp.HoldsData(b1, IconMode) && Bmp.SetCompressed(b1, IconMode).Err?
    ensures HoldsData(s, png) && LoadHeader(s, png).Ok?
    ensures var icon := LoadHeader(s, png).value;
            icon.index == 0 && icon.width == 1 && icon.height == 1 && !icon.isPng
            && icon.imageOffset == 38 && icon.imageSize == 44
            && icon.subData == b1 && icon.entry == b0
  {
    WalkKeepsLaterProbe(s, png, b0, b1);
    assert ToInt32(44) == 44;
  }

  /** What GetRaw hands over in both readings, for that layout. */
  lemma StaleSubWrapperRaw(s: Bytes, png: Codec, b0: Bytes, b1: Bytes, format: RgbFormat, bitDepth: int)
    requires |s| == 122 && |s| >= 4 && IsIconDirectory(s) && U16(s, 4) == 2
    requires Entries(s, 2) == [Entry(16, 32, 44, 38), Entry(32, 32, 40, 82)]
    requires s[38..82] == b0 && s[82..122] == b1
    requires png.probe(b0).None? && png.probe(b1).None?
    requires Bmp.HoldsData(b0, IconMode) && Bmp.SetCompressed(b0, IconMode) == Ok(Bmp.Properties(1, 2, Bgra, 32))
    requires Bmp.HoldsData(b1, IconMode) && Bmp.SetCompressed(b1, IconMode).Err?
    ensures HoldsData(s, png) && LoadHeader(s, png).Ok?
    ensures var icon := LoadHeader(s, png).value;
            icon.index == 0 && icon.width == 1 && icon.height == 1 && !icon.isPng
            && Bmp.HoldsData(icon.subData, IconMode) && Bmp.HoldsData(icon.entry, IconMode)
            && GetRawAsWritten(icon, png, format, bitDepth) == BmpRaw(b1)
            && GetRaw(icon, png, format, bitDepth) == BmpRaw(b0)
  {
    StaleSubWrapperAt(s, png, b0, b1, format, bitDepth);
  }

  /** With a PNG codec that refuses both resources, entry 0 is selected,
      but the probe of the wider entry 1 left its bytes in the BMP
      sub-wrapper: GetRaw as written decodes those, gets nothing and still
      succeeds with no data, where the selected image has one pixel. */
  lemma StaleSubWrapper(png: Codec, format: RgbFormat, bitDepth: int)
    requires png.probe(SmallBitmap()).None? && png.probe(InfoHeaderBytes(1)).None?
    ensures HoldsData(TwoEntryIcon(), png) && LoadHeader(TwoEntryIcon(), png).Ok?
    ensures var icon := LoadHeader(TwoEntryIcon(), png).value;
            icon.index == 0 && icon.width == 1 && icon.height == 1 && !icon.isPng
            && Bmp.HoldsData(icon.subData, IconMode) && Bmp.HoldsData(icon.entry, IconMode)
            && GetRawAsWritten(icon, png, format, bitDepth) == []
            && |GetRaw(icon, png, format, bitDepth)| == 4
  {
    TwoEntryIconLayout();
    SmallBitmapDecodes();
    RleBitmapRefused();
    StaleSubWrapperRaw(TwoEntryIcon(), png, SmallBitmap(), InfoHeaderBytes(1), format, bitDepth);
  }

  /** An icon with two 32-bit entries: entry 0 (256 wide) is the one-pixel
      BMP, and entry 1 (16 wide) claims 40 bytes at offset 1000 of a
      100-byte buffer. */
  function FarEntryIcon(): (s: Bytes)
    ensures |s| == 100
  {
    [0, 0, 1, 0, 2, 0]
    + [0, 0, 0, 0, 1, 0, 32, 0, 44, 0, 0, 0, 38, 0, 0, 0]
    + [16, 16, 0, 0, 1, 0, 32, 0, 40, 0, 0, 0, 0xE8, 3, 0, 0]
    + SmallBitmap() + seq(18, _ => 0)
  }

  lemma FarEntryIconLayout()
    ensures var s := FarEntryIcon();
            IsIconDirectory(s) && U16(s, 4) == 2
            && Entries(s, 2) == [Entry(0, 32, 44, 38), Entry(16, 32, 40, 1000)]
            && s[38..82] == SmallBitmap()
  {
    var s := FarEntryIcon();
    assert s[38..82] == SmallBitmap();
    var es := Entries(s, 2);
    assert es[0] == Entry(0, 32, 44, 38);
    assert es[1] == Entry(16, 32, 40, 1000);
  }

  /** The walk over a directory whose first entry is a 256-wide BMP that
      decodes: the narrower second entry is never probed, so its resource
      need not lie in the buffer. */
  lemma WalkSkipsNarrower(s: Bytes, png: Codec, b0: Bytes)
    requires |s| == 100 && s[38..82] == b0
    requires png.probe(b0).None?
    requires Bmp.SetCompressed(b0, IconMode) == Ok(Bmp.Properties(1, 2, Bgra, 32))
    ensures var es := [Entry(0, 32, 44, 38), Entry(16, 32, 40, 1000)];
            var st := Walk(s, es, png);
            !EntryHeld(s, es[1], png) && !st.readPast && st.found && st.chosen == 0
  {
    var e0, e1 := Entry(0, 32, 44, 38), Entry(16, 32, 40, 1000);
    var es := [e0, e1];
    assert ToInt32(44) == 44 && ToInt32(40) == 40;
    assert EntryHeld(s, e0, png) && Resource(s, e0, png) == b0;
    assert !EntryHeld(s, e1, png);
    assert Probe(s, e0, png) == Some(Probed(false, 1, 1, Bgra));
    assert es[..1] == [e0];
    assert [e0][..0] == [];
    assert Walk(s, [], png) == InitialScan;
    var st0 := Walk(s, [e0], png);
    assert st0 == Step(s, InitialScan, e0, 0, png);
    assert Walk(s, es, png) == Step(s, st0, e1, 1, png);
  }

  /** The load of any buffer laid out like FarEntryIcon. */
  lemma FarEntryUnreadAt(s: Bytes, png: Codec, b0: Bytes)
    requires |s| == 100 && |s| >= 4 && IsIconDirectory(s) && U16(s, 4) == 2
    requires Entries(s, 2) == [Entry(0, 32, 44, 38), Entry(16, 32, 40, 1000)]
    requires s[38..82] == b0 && png.probe(b0).None?
    requires Bmp.SetCompressed(b0, IconMode) == Ok(Bmp.Properties(1, 2, Bgra, 32))
    ensures !EntryHeld(s, Entries(s, 2)[1], png)
            && HoldsData(s, png) && LoadHeader(s, png).Ok? && LoadHeader(s, png).value.index == 0
  {
    WalkSkipsNarrower(s, png, b0);
  }

  /** An entry out of the buffer that the walk never reaches does not keep
      the icon from loading: FarEntryIcon loads its first entry. */
  lemma FarEntryUnread(png: Codec)
    requires png.probe(SmallBitmap()).None?
    ensures var s := FarEntryIcon();
            !EntryHeld(s, Entries(s, 2)[1], png)
            && HoldsData(s, png) && LoadHeader(s, png).Ok? && LoadHeader(s, png).value.index == 0
  {
    FarEntryIconLayout();
    SmallBitmapDecodes();
    FarEntryUnreadAt(FarEntryIcon(), png, SmallBitmap());
  }
}

=== FILE: pcx.dfy ===
/** The ZSoft PCX branch of DecodeImage (Source/Decoder/Decoder.cpp): the
    128-byte header, the palettised single-plane stream and the three-plane
    stream whose runs carry from one colour plane to the next. */
module Pcx {
  import opened Results
  import opened Bytes
  import opened Seqs
  import opened Formats
  import Grid

  // ---------------------------------------------------------------------------
  // Header
  // ---------------------------------------------------------------------------

  const HeaderSize: nat := 128
  /** 256 RGB triples at the very end of the file. */
  const PaletteSize: nat := 768
  const Manufacturer: byte := 10

  /** The fields of FPCXFileHeader the decoder reads: little-endian, in the
      128-byte header layout, which the source packs with byte alignment
      (Source/Decoder/Decoder.cpp:15). */
  datatype Header = Header(
    manufacturer: byte,
    bitsPerPixel: byte,
    xMin: nat,
    yMin: nat,
    xMax: nat,
    yMax: nat,
    numPlanes: byte,
    bytesPerLine: nat)

  function ParseHeader(s: Bytes): (h: Header)
    requires |s| >= HeaderSize
    ensures h.manufacturer == s[0] && h.bitsPerPixel == s[3] && h.numPlanes == s[65]
    ensures h.xMin < 0x1_0000 && h.yMin < 0x1_0000 && h.xMax < 0x1_0000 && h.yMax < 0x1_0000
    ensures h.bytesPerLine < 0x1_0000
  {
    Header(s[0], s[3], U16(s, 4), U16(s, 6), U16(s, 8), U16(s, 10), s[65], U16(s, 66))
  }

  /** NewU and NewV: the bounds are inclusive, and nothing keeps them from
      being negative. */
  function Width(h: Header): int
  {
    h.xMax + 1 - h.xMin
  }

  function Height(h: Header): int
  {
    h.yMax + 1 - h.yMin
  }

  // ---------------------------------------------------------------------------
  // Run-length streams
  // ---------------------------------------------------------------------------

  /** The single-plane stream: a byte with both top bits set is followed by a
      value written (byte & 0x3F) times; any other byte is itself one value.
      `n` values are produced, a run reaching past the end of the image
      being cut there; None when the stream runs past the buffer. */
  function PaletteIndices(s: Bytes, pos: nat, n: nat): (r: Option<seq<byte>>)
    ensures r.Some? ==> |r.value| == n
    decreases |s| - pos
  {
    if n == 0 then Some([])
    else if pos >= |s| then None
    else if s[pos] >= 0xC0 then
      if pos + 1 >= |s| then None
      else
        var k := Min(s[pos] % 0x40, n);
        Cat(Some(Repeat(s[pos + 1], k)), PaletteIndices(s, pos + 2, n - k))
    else Cat(Some([s[pos]]), PaletteIndices(s, pos + 1, n - 1))
  }

  /** The single-plane loop as written: the end of the image is checked
      only between packets, so a run is always written whole and more than
      `n` values can come out -- the excess lands past the output buffer. */
  function PaletteIndicesAsWritten(s: Bytes, pos: nat, n: nat): (r: Option<seq<byte>>)
    ensures r.Some? ==> |r.value| >= n
    decreases |s| - pos
  {
    if n == 0 then Some([])
    else if pos >= |s| then None
    else if s[pos] >= 0xC0 then
      if pos + 1 >= |s| then None
      else
        var k := s[pos] % 0x40;
        Cat(Some(Repeat(s[pos + 1], k)), PaletteIndicesAsWritten(s, pos + 2, if k >= n then 0 else n - k))
    else Cat(Some([s[pos]]), PaletteIndicesAsWritten(s, pos + 1, n - 1))
  }

  /** Both readers fail on the same streams, and the corrected one yields
      the first `n` values the written loop stores: they differ only in the
      values written past the end of the image. */
  lemma {:induction false} PaletteIndicesCutsAsWritten(s: Bytes, pos: nat, n: nat)
    ensures PaletteIndices(s, pos, n).Some? <==> PaletteIndicesAsWritten(s, pos, n).Some?
    ensures PaletteIndices(s, pos, n).Some? ==>
              PaletteIndices(s, pos, n).value == PaletteIndicesAsWritten(s, pos, n).value[..n]
    decreases |s| - pos
  {
    if n > 0 && pos < |s| {
      if s[pos] >= 0xC0 {
        if pos + 1 < |s| {
          var k := s[pos] % 0x40;
          var v := s[pos + 1];
          if k >= n {
            assert PaletteIndices(s, pos + 2, 0) == Some([]);
            assert PaletteIndicesAsWritten(s, pos + 2, 0) == Some([]);
            assert (Repeat(v, k) + [])[..n] == Repeat(v, n);
            assert Repeat(v, n) + [] == Repeat(v, n);
          } else {
            PaletteIndicesCutsAsWritten(s, pos + 2, n - k);
            var rest := PaletteIndicesAsWritten(s, pos + 2, n - k);
            if rest.Some? {
              assert (Repeat(v, k) + rest.value)[..n] == Repeat(v, k) + rest.value[..n - k];
            }
          }
        }
      } else {
        PaletteIndicesCutsAsWritten(s, pos + 1, n - 1);
        var rest := PaletteIndicesAsWritten(s, pos + 1, n - 1);
        if rest.Some? {
          assert ([s[pos]] + rest.value)[..n] == [s[pos]] + rest.value[..n - 1];
        }
      }
    }
  }

  /** The discrepancy: a one-pixel image whose stream is a run of two
      copies of 5. The written loop stores both, one past the end of the
      output; the corrected reader stores one. */
  lemma PaletteIndicesOvershoot()
    ensures PaletteIndicesAsWritten([0xC2, 5], 0, 1) == Some([5, 5])
    ensures PaletteIndices([0xC2, 5], 0, 1) == Some([5])
  {
    var s: Bytes := [0xC2, 5];
    assert s[0] >= 0xC0 && s[0] % 0x40 == 2 && Min(2, 1) == 1;
    assert Repeat(s[1], 2) == [5, 5] && Repeat(s[1], 1) == [5];
    assert PaletteIndicesAsWritten(s, 2, 0) == Some([]);
    assert PaletteIndices(s, 2, 0) == Some([]);
    assert [5, 5] + [] == [5, 5] && [5] + [] == [5];
  }

  /** One scanline of the three-plane stream: the same packets, `n` values,
      where a run reaching past the end of the scanline is cut there; also
      the position where the next scanline starts. */
  function ScanlineValues(s: Bytes, pos: nat, n: nat): (r: Option<(seq<byte>, nat)>)
    ensures r.Some? ==> |r.value.0| == n && r.value.1 >= pos
    decreases |s| - pos
  {
    if n == 0 then Some(([], pos))
    else if pos >= |s| then None
    else if s[pos] >= 0xC0 then
      if pos + 1 >= |s| then None
      else
        var k := Min(s[pos] % 0x40, n);
        var rest :- ScanlineValues(s, pos + 2, n - k);
        Some((Repeat(s[pos + 1], k) + rest.0, rest.1))
    else
      var rest :- ScanlineValues(s, pos + 1, n - 1);
      Some(([s[pos]] + rest.0, rest.1))
  }

  // ---------------------------------------------------------------------------
  // An encoder, as the partner of both stream readers
  // ---------------------------------------------------------------------------

  /** `count` copies of `value`. */
  datatype Run = Run(count: nat, value: byte)

  /** What one packet can carry: 1 to 63 copies. */
  predicate ValidRun(r: Run)
  {
    1 <= r.count <= 0x3F
  }

  predicate ValidRuns(rs: seq<Run>)
  {
    forall i :: 0 <= i < |rs| ==> ValidRun(rs[i])
  }

  /** A single value below 0xC0 is stored as itself; anything else as a
      count byte 0xC0 + count followed by the value. */
  function EncodeRun(r: Run): (e: Bytes)
    requires ValidRun(r)
    ensures |e| == 1 || |e| == 2
  {
    if r.count == 1 && r.value < 0xC0 then [r.value] else [0xC0 + r.count, r.value]
  }

  function Encode(rs: seq<Run>): Bytes
    requires ValidRuns(rs)
  {
    if |rs| == 0 then [] else EncodeRun(rs[0]) + Encode(rs[1..])
  }

  function Expand(rs: seq<Run>): seq<byte>
  {
    if |rs| == 0 then [] else Repeat(rs[0].value, rs[0].count) + Expand(rs[1..])
  }

  /** `s` holds the encoding of `rs` from `pos` on. */
  predicate EncodedAt(s: Bytes, pos: nat, rs: seq<Run>)
    requires ValidRuns(rs)
    decreases |rs|
  {
    |rs| == 0
    || (var e := EncodeRun(rs[0]);
        pos + |e| <= |s| && s[pos] == e[0] && (|e| == 2 ==> s[pos + 1] == e[1])
        && EncodedAt(s, pos + |e|, rs[1..]))
  }

  lemma {:induction false} EncodedAtPrefix(s: Bytes, pos: nat, rs: seq<Run>)
    requires ValidRuns(rs)
    requires pos + |Encode(rs)| <= |s| && s[pos .. pos + |Encode(rs)|] == Encode(rs)
    ensures EncodedAt(s, pos, rs)
    decreases |rs|
  {
    if |rs| > 0 {
      var e := EncodeRun(rs[0]);
      var tail := Encode(rs[1..]);
      assert Encode(rs) == e + tail;
      SliceSplit(s, pos, e, tail);
      assert s[pos] == s[pos .. pos + |e|][0];
      if |e| == 2 {
        assert s[pos + 1] == s[pos .. pos + |e|][1];
      }
      EncodedAtPrefix(s, pos + |e|, rs[1..]);
    }
  }

  /** The encoding of `rs` takes |Encode(rs)| bytes. */
  function EncodedEnd(pos: nat, rs: seq<Run>): (end: nat)
    requires ValidRuns(rs)
    ensures end == pos + |Encode(rs)|
    decreases |rs|
  {
    if |rs| == 0 then pos else EncodedEnd(pos + |EncodeRun(rs[0])|, rs[1..])
  }

  /** Decoding one encoded run at `pos` yields its copies and moves past it. */
  lemma PaletteIndicesRun(s: Bytes, pos: nat, rs: seq<Run>, m: nat)
    requires ValidRuns(rs) && |rs| > 0 && EncodedAt(s, pos, rs)
    ensures |Expand(rs)| == rs[0].count + |Expand(rs[1..])|
    ensures PaletteIndices(s, pos, |Expand(rs)| + m)
            == Cat(Some(Repeat(rs[0].value, rs[0].count)),
                   PaletteIndices(s, pos + |EncodeRun(rs[0])|, |Expand(rs[1..])| + m))
  {
    if |EncodeRun(rs[0])| == 1 {
      assert Repeat(rs[0].value, 1) == [rs[0].value];
    }
  }

  /** The single-plane reader decodes what Encode produces, then carries on
      with whatever follows. */
  lemma {:induction false} PaletteIndicesDecodes(s: Bytes, pos: nat, rs: seq<Run>, m: nat)
    requires ValidRuns(rs) && EncodedAt(s, pos, rs)
    ensures PaletteIndices(s, pos, |Expand(rs)| + m)
            == Cat(Some(Expand(rs)), PaletteIndices(s, EncodedEnd(pos, rs), m))
    decreases |rs|
  {
    if |rs| == 0 {
      var rest := PaletteIndices(s, pos, m);
      if rest.Some? {
        assert [] + rest.value == rest.value;
      }
    } else {
      var p := pos + |EncodeRun(rs[0])|;
      PaletteIndicesDecodes(s, p, rs[1..], m);
      PaletteIndicesRun(s, pos, rs, m);
      CatAssoc(Some(Repeat(rs[0].value, rs[0].count)), Some(Expand(rs[1..])),
               PaletteIndices(s, EncodedEnd(p, rs[1..]), m));
    }
  }

  /** Round trip: the single-plane reader gives back the values of any run
      list, whatever follows the encoding. */
  lemma PaletteIndicesRoundTrip(rs: seq<Run>, rest: Bytes)
    requires ValidRuns(rs)
    ensures PaletteIndices(Encode(rs) + rest, 0, |Expand(rs)|) == Some(Expand(rs))
  {
    var s := Encode(rs) + rest;
    assert s[0 .. |Encode(rs)|] == Encode(rs);
    EncodedAtPrefix(s, 0, rs);
    PaletteIndicesDecodes(s, 0, rs, 0);
    assert Expand(rs) + [] == Expand(rs);
  }

  lemma ScanlineValuesRun(s: Bytes, pos: nat, rs: seq<Run>, m: nat)
    requires ValidRuns(rs) && |rs| > 0 && EncodedAt(s, pos, rs)
    ensures |Expand(rs)| == rs[0].count + |Expand(rs[1..])|
    ensures ScanlineValues(s, pos, |Expand(rs)| + m)
            == Prepend(Repeat(rs[0].value, rs[0].count),
                       ScanlineValues(s, pos + |EncodeRun(rs[0])|, |Expand(rs[1..])| + m))
  {
    if |EncodeRun(rs[0])| == 1 {
      assert Repeat(rs[0].value, 1) == [rs[0].value];
    }
  }

  /** The scanline reader decodes what Encode produces, ending right after it. */
  lemma {:induction false} ScanlineValuesDecodes(s: Bytes, pos: nat, rs: seq<Run>, m: nat)
    requires ValidRuns(rs) && EncodedAt(s, pos, rs)
    ensures ScanlineValues(s, pos, |Expand(rs)| + m)
            == Prepend(Expand(rs), ScanlineValues(s, EncodedEnd(pos, rs), m))
    decreases |rs|
  {
    if |rs| == 0 {
      PrependNil(ScanlineValues(s, pos, m));
    } else {
      ScanlineValuesDecodes(s, pos + |EncodeRun(rs[0])|, rs[1..], m);
      ScanlineValuesDecodesStep(s, pos, rs, m);
    }
  }

  /** The inductive step of ScanlineValuesDecodes: the first run, then the
      claim for the others. */
  lemma ScanlineValuesDecodesStep(s: Bytes, pos: nat, rs: seq<Run>, m: nat)
    requires ValidRuns(rs) && |rs| > 0 && EncodedAt(s, pos, rs)
    requires var p := pos + |EncodeRun(rs[0])|;
             ScanlineValues(s, p, |Expand(rs[1..])| + m)
             == Prepend(Expand(rs[1..]), ScanlineValues(s, EncodedEnd(p, rs[1..]), m))
    ensures ScanlineValues(s, pos, |Expand(rs)| + m)
            == Prepend(Expand(rs), ScanlineValues(s, EncodedEnd(pos, rs), m))
  {
    var p := pos + |EncodeRun(rs[0])|;
    var rest := ScanlineValues(s, EncodedEnd(p, rs[1..]), m);
    ScanlineValuesRun(s, pos, rs, m);
    assert EncodedEnd(pos, rs) == EncodedEnd(p, rs[1..]);
    assert Expand(rs) == Repeat(rs[0].value, rs[0].count) + Expand(rs[1..]);
    PrependPrepend(Repeat(rs[0].value, rs[0].count), Expand(rs[1..]), rest);
  }

  /** Round trip: a scanline of exactly the run list's values is read back,
      and the next scanline starts right after its encoding. */
  lemma ScanlineValuesRoundTrip(rs: seq<Run>, rest: Bytes)
    requires ValidRuns(rs)
    ensures ScanlineValues(Encode(rs) + rest, 0, |Expand(rs)|) == Some((Expand(rs), |Encode(rs)|))
  {
    var s := Encode(rs) + rest;
    assert s[0 .. |Encode(rs)|] == Encode(rs);
    EncodedAtPrefix(s, 0, rs);
    ScanlineValuesDecodes(s, 0, rs, 0);
    assert Expand(rs) + [] == Expand(rs);
  }

  /** Values in front of a scanline result. */
  function Prepend(out: seq<byte>, r: Option<(seq<byte>, nat)>): (p: Option<(seq<byte>, nat)>)
    ensures p.Some? <==> r.Some?
    ensures p.Some? ==> p.value == (out + r.value.0, r.value.1)
  {
    match r
    case None => None
    case Some(v) => Some((out + v.0, v.1))
  }

  lemma PrependNil(r: Option<(seq<byte>, nat)>)
    ensures Prepend([], r) == r
  {
    if r.Some? {
      assert [] + r.value.0 == r.value.0;
    }
  }

  lemma PrependPrepend(a: seq<byte>, b: seq<byte>, r: Option<(seq<byte>, nat)>)
    ensures Prepend(a, Prepend(b, r)) == Prepend(a + b, r)
  {
    if r.Some? {
      assert a + (b + r.value.0) == (a + b) + r.value.0;
    }
  }

  /** A slice holding `a + b` holds `a` and then `b`. */
  lemma SliceSplit(s: Bytes, pos: nat, a: Bytes, b: Bytes)
    requires pos + |a + b| <= |s| && s[pos .. pos + |a + b|] == a + b
    ensures s[pos .. pos + |a|] == a
    ensures s[pos + |a| .. pos + |a| + |b|] == b
  {
    assert s[pos .. pos + |a|] == (a + b)[..|a|];
    assert s[pos + |a| .. pos + |a| + |b|] == (a + b)[|a|..];
  }

  // ---------------------------------------------------------------------------
  // The three-plane scanline loop
  // ---------------------------------------------------------------------------

  /** What is left of a scanline of `n` values when the loop stands at `pos`
      with `overflow` copies of `color` still owed from the last run. */
  function Resume(s: Bytes, pos: nat, overflow: nat, color: byte, n: nat): Option<(seq<byte>, nat)>
  {
    if overflow > 0 && n > 0 then
      var k := Min(overflow, n);
      Prepend(Repeat(color, k), ScanlineValues(s, pos, n - k))
    else ScanlineValues(s, pos, n)
  }

  /** Paying off an overflow over the `m` values left in the plane. */
  lemma ResumeOverflow(s: Bytes, pos: nat, overflow: nat, color: byte, n: nat, m: nat)
    requires overflow > 0 && 1 <= m <= n
    ensures var k := Min(overflow, m);
            Resume(s, pos, overflow, color, n)
            == Prepend(Repeat(color, k), Resume(s, pos, overflow - k, color, n - k))
  {
    var k := Min(overflow, m);
    var rest := ScanlineValues(s, pos, n - Min(overflow, n));
    if overflow - k > 0 && n - k > 0 {
      RepeatAdd(color, k, Min(overflow - k, n - k));
      PrependPrepend(Repeat(color, k), Repeat(color, Min(overflow - k, n - k)), rest);
    } else {
      assert Min(overflow, n) == k;
    }
  }

  /** Reading a literal value. */
  lemma ResumeLiteral(s: Bytes, pos: nat, color: byte, n: nat)
    requires n > 0 && pos < |s| && s[pos] < 0xC0
    ensures Resume(s, pos, 0, color, n) == Prepend([s[pos]], Resume(s, pos + 1, 0, s[pos], n - 1))
  {
  }

  /** Reading a run header and its value, when `m` values are left in the
      plane: the run is cut at the plane's end and the rest is owed. */
  lemma ResumeRun(s: Bytes, pos: nat, color: byte, n: nat, m: nat)
    requires 1 <= m <= n && pos + 1 < |s| && s[pos] >= 0xC0
    ensures var k := Min(s[pos] % 0x40, m);
            Resume(s, pos, 0, color, n)
            == Prepend(Repeat(s[pos + 1], k), Resume(s, pos + 2, s[pos] % 0x40 - k, s[pos + 1], n - k))
  {
    var len := s[pos] % 0x40;
    var k := Min(len, m);
    var c := s[pos + 1];
    var rest := ScanlineValues(s, pos + 2, n - Min(len, n));
    assert Resume(s, pos, 0, color, n) == Prepend(Repeat(c, Min(len, n)), rest);
    if len - k > 0 && n - k > 0 {
      RepeatAdd(c, k, Min(len - k, n - k));
      PrependPrepend(Repeat(c, k), Repeat(c, Min(len - k, n - k)), rest);
    } else {
      assert Min(len, n) == k;
    }
  }

  /** One iteration of the plane loop, with `m` values left in the plane
      and `n` in the scanline: pay off an owed run, or read a literal, or
      read a run header and its value. `ok` is false where the source would
      read past the buffer. */
  method ScanlineStep(s: Bytes, pos: nat, overflow: nat, color: byte, n: nat, m: nat)
    returns (ok: bool, runLength: nat, pos': nat, overflow': nat, color': byte)
    requires 1 <= m <= n
    ensures ok ==> runLength <= m && pos' >= pos && (runLength > 0 || (pos' > pos && pos' <= |s|))
    ensures ok ==> Resume(s, pos, overflow, color, n)
                   == Prepend(Repeat(color', runLength), Resume(s, pos', overflow', color', n - runLength))
    ensures !ok ==> Resume(s, pos, overflow, color, n).None?
  {
    if overflow == 0 {
      if pos >= |s| {
        return false, 0, pos, 0, color;
      }
      var c := s[pos];
      if c >= 0xC0 {
        if pos + 1 >= |s| {
          return false, 0, pos, 0, color;
        }
        ResumeRun(s, pos, color, n, m);
        runLength := Min(c % 0x40, m);
        return true, runLength, pos + 2, c % 0x40 - runLength, s[pos + 1];
      } else {
        ResumeLiteral(s, pos, color, n);
        assert Repeat(c, 1) == [c];
        ok, runLength, pos', overflow', color' := true, 1, pos + 1, 0, c;
        assert Resume(s, pos, overflow, color, n) == Prepend([c], Resume(s, pos', 0, c, n - 1));
        assert Repeat(color', runLength) == [c];
        assert Resume(s, pos', overflow', color', n - runLength) == Resume(s, pos', 0, c, n - 1);
        assert Resume(s, pos, overflow, color, n)
               == Prepend(Repeat(color', runLength), Resume(s, pos', overflow', color', n - runLength));
      }
    } else {
      ResumeOverflow(s, pos, overflow, color, n, m);
      runLength := Min(overflow, m);
      return true, runLength, pos, overflow - runLength, color;
    }
  }

  /** The `j` loop over one colour plane of `countU` values. */
  method DecodePlane(s: Bytes, pos: nat, overflow: nat, color: byte, countU: nat, n: nat)
    returns (ok: bool, values: seq<byte>, pos': nat, overflow': nat, color': byte)
    requires countU <= n
    ensures ok ==> |values| == countU
    ensures ok ==> Resume(s, pos, overflow, color, n)
                   == Prepend(values, Resume(s, pos', overflow', color', n - countU))
    ensures !ok ==> Resume(s, pos, overflow, color, n).None?
  {
    values, pos', overflow', color' := [], pos, overflow, color;
    PrependNil(Resume(s, pos, overflow, color, n));
    var j := 0;
    while j < countU
      invariant 0 <= j <= countU && |values| == j
      invariant Resume(s, pos, overflow, color, n)
                == Prepend(values, Resume(s, pos', overflow', color', n - j))
      decreases countU - j, |s| - pos'
    {
      var stepOk, runLength, p, o, c := ScanlineStep(s, pos', overflow', color', n - j, countU - j);
      if !stepOk {
        return false, values, pos', overflow', color';
      }
      PrependPrepend(values, Repeat(c, runLength), Resume(s, p, o, c, n - j - runLength));
      values, pos', overflow', color' := values + Repeat(c, runLength), p, o, c;
      j := j + runLength;
    }
    ok := true;
  }

  /** The scanline loop of the three-plane path: colour planes 2, 1 and 0,
      `countU` values each, with the run still owed at the end of one plane
      carried into the next and dropped at the end of the scanline. Returns
      the values in file order and where the next scanline starts, or None
      when it reads past the buffer. */
  method DecodeScanline(s: Bytes, start: nat, countU: nat) returns (r: Option<(seq<byte>, nat)>)
    ensures r == ScanlineValues(s, start, 3 * countU)
  {
    var out: seq<byte> := [];
    var pos: nat := start;
    var overflow: nat := 0;
    var color: byte := 0;
    var plane := 3;
    PrependNil(ScanlineValues(s, start, 3 * countU));
    while plane > 0
      invariant 0 <= plane <= 3
      invariant plane == 3 ==> |out| == 0
      invariant plane == 2 ==> |out| == countU
      invariant plane == 1 ==> |out| == 2 * countU
      invariant plane == 0 ==> |out| == 3 * countU
      invariant ScanlineValues(s, start, 3 * countU)
                == Prepend(out, Resume(s, pos, overflow, color, 3 * countU - |out|))
    {
      plane := plane - 1;
      var n := 3 * countU - |out|;
      var ok, values, p, o, c := DecodePlane(s, pos, overflow, color, countU, n);
      if !ok {
        return None;
      }
      PrependPrepend(out, values, Resume(s, p, o, c, n - countU));
      out, pos, overflow, color := out + values, p, o, c;
    }
    assert Resume(s, pos, overflow, color, 0) == Some(([], pos));
    assert out + [] == out;
    r := Some((out, pos));
  }

  // ---------------------------------------------------------------------------
  // Images
  // ---------------------------------------------------------------------------

  /** Palette entry `i` from the last 768 bytes, stored as an FColor: the
      file's R, G, B go to the R, G, B fields, and entry 0 is transparent. */
  function PaletteEntry(s: Bytes, i: byte): (p: Pixel)
    requires |s| >= PaletteSize
    ensures p.r == s[|s| - PaletteSize + 3 * i]
    ensures p.g == s[|s| - PaletteSize + 3 * i + 1]
    ensures p.b == s[|s| - PaletteSize + 3 * i + 2]
    ensures p.a == (if i == 0 then 0 else 255)
  {
    var base := |s| - PaletteSize + 3 * i;
    Pixel(s[base + 2], s[base + 1], s[base], if i == 0 then 0 else 255)
  }

  /** Each palette index becomes its palette entry. */
  function Colours(s: Bytes, indices: seq<byte>): (ps: seq<Pixel>)
    requires |s| >= PaletteSize
    ensures |ps| == |indices|
    ensures forall i :: 0 <= i < |indices| ==> ps[i] == PaletteEntry(s, indices[i])
  {
    seq(|indices|, i requires 0 <= i < |indices| => PaletteEntry(s, indices[i]))
  }

  /** One output row of the three-plane path from its `3 * countU` values:
      the first plane segment fills byte 2 (R), the second byte 1 (G), the
      third byte 0 (B). Columns from countU on, and every alpha byte, keep
      the 0xFF the buffer was filled with. */
  function PlanarRow(v: seq<byte>, w: nat, countU: nat): (row: seq<Pixel>)
    requires countU <= w && |v| == 3 * countU
    ensures |row| == w
    ensures forall k :: 0 <= k < countU ==> row[k] == Pixel(v[2 * countU + k], v[countU + k], v[k], 255)
    ensures forall k :: countU <= k < w ==> row[k] == Pixel(255, 255, 255, 255)
  {
    seq(w, k requires 0 <= k < w =>
      if k < countU then Pixel(v[2 * countU + k], v[countU + k], v[k], 255)
      else Pixel(255, 255, 255, 255))
  }

  /** `h` scanlines of the three-plane stream, top row first. */
  function PlanarRows(s: Bytes, pos: nat, w: nat, h: nat, countU: nat): (r: Option<seq<seq<Pixel>>>)
    requires countU <= w
    ensures r.Some? ==> Grid.IsGrid(r.value, w, h)
    decreases h
  {
    if h == 0 then Some([])
    else
      var line :- ScanlineValues(s, pos, 3 * countU);
      var rest :- PlanarRows(s, line.1, w, h - 1, countU);
      Some([PlanarRow(line.0, w, countU)] + rest)
  }

  /** The values of each plane segment: CountU = min(bytesPerLine, NewU). */
  function CountU(h: Header, w: nat): (c: nat)
    ensures c <= w && c <= h.bytesPerLine
  {
    Min(h.bytesPerLine, w)
  }

  predicate SinglePlane(h: Header)
  {
    h.numPlanes == 1 && h.bitsPerPixel == 8
  }

  predicate ThreePlanes(h: Header)
  {
    h.numPlanes == 3 && h.bitsPerPixel == 8
  }

  /** The buffer holds what the source reads from it without a check: a
      non-negative size, the palette and a stream long enough for the
      image. */
  predicate HoldsData(s: Bytes)
  {
    |s| >= HeaderSize && s[0] == Manufacturer ==>
      var h := ParseHeader(s);
      (SinglePlane(h) || ThreePlanes(h) ==> Width(h) >= 0 && Height(h) >= 0)
      && (SinglePlane(h) && Width(h) >= 0 && Height(h) >= 0 ==>
            |s| >= PaletteSize && PaletteIndices(s, HeaderSize, Width(h) * Height(h)).Some?)
      && (ThreePlanes(h) && Width(h) >= 0 && Height(h) >= 0 ==>
            PlanarRows(s, HeaderSize, Width(h), Height(h), CountU(h, Width(h))).Some?)
  }

  /** The PCX branch of DecodeImage. A short buffer or a wrong manufacturer
      byte fails without a warning; 8-bit images of one or three planes
      decode to B8G8R8A8; other plane and depth combinations fail with a
      warning naming both. */
  function Decode(s: Bytes): (r: Result<DecodedImage>)
    requires HoldsData(s)
    ensures r.Ok? <==> |s| >= HeaderSize && s[0] == 10 && s[3] == 8 && (s[65] == 1 || s[65] == 3)
    ensures r.Ok? ==>
              r.value.sourceType == Pcx && r.value.sourceFormat == Bgra && r.value.sourceBitDepth == 8
              && r.value.textureFormat == BGRA8 && r.value.bitDepth == 8
              && r.value.width == Width(ParseHeader(s)) && r.value.height == Height(ParseHeader(s))
              && |r.value.data| == r.value.width * r.value.height * 4
    ensures r.Err? ==> (r.message == "" <==> |s| < HeaderSize || s[0] != 10)
    ensures r.Err? && r.message != "" ==>
              r.message == "PCX uses an unsupported format (" + NatToString(s[65]) + "/" + NatToString(s[3]) + ")"
  {
    if |s| < HeaderSize || s[0] != Manufacturer then Err("")
    else
      var h := ParseHeader(s);
      if SinglePlane(h) then
        var w: nat, ht: nat := Width(h), Height(h);
        var indices := PaletteIndices(s, HeaderSize, w * ht).value;
        Ok(DecodedImage(Pcx, Bgra, 8, w, ht, BGRA8, 8, PixelBytes(Colours(s, indices))))
      else if ThreePlanes(h) then
        var w: nat, ht: nat := Width(h), Height(h);
        var rows := PlanarRows(s, HeaderSize, w, ht, CountU(h, w)).value;
        ImageBytesLength(rows, w, ht);
        Ok(DecodedImage(Pcx, Bgra, 8, w, ht, BGRA8, 8, ImageBytes(rows)))
      else
        Err("PCX uses an unsupported format (" + NatToString(h.numPlanes) + "/" + NatToString(h.bitsPerPixel) + ")")
  }

  /** Pixel `i` of a single-plane image is the palette entry of the `i`-th
      index of the stream, written B, G, R, A. */
  lemma SinglePlanePixel(s: Bytes, i: nat)
    requires HoldsData(s)
    requires |s| >= HeaderSize && s[0] == Manufacturer && SinglePlane(ParseHeader(s))
    requires i < Width(ParseHeader(s)) * Height(ParseHeader(s))
    ensures Decode(s).Ok?
    ensures var p := PaletteEntry(s, PaletteIndices(s, HeaderSize, Width(ParseHeader(s)) * Height(ParseHeader(s))).value[i]);
            var data := Decode(s).value.data;
            |data| > 4 * i + 3
            && data[4 * i] == p.b && data[4 * i + 1] == p.g && data[4 * i + 2] == p.r && data[4 * i + 3] == p.a
  {
    var h := ParseHeader(s);
    var indices := PaletteIndices(s, HeaderSize, Width(h) * Height(h)).value;
    PixelBytesIndex(Colours(s, indices), i);
  }

  /** The rows a three-plane image decodes to. */
  function ThreePlaneRows(s: Bytes): (rows: seq<seq<Pixel>>)
    requires HoldsData(s)
    requires |s| >= HeaderSize && s[0] == Manufacturer && ThreePlanes(ParseHeader(s))
    ensures Grid.IsGrid(rows, Width(ParseHeader(s)), Height(ParseHeader(s)))
  {
    var h := ParseHeader(s);
    PlanarRows(s, HeaderSize, Width(h), Height(h), CountU(h, Width(h))).value
  }

  /** Pixel (x, y) of a three-plane image: R, G and B come from the three
      plane segments of scanline `y` at column `x` when `x` is below CountU,
      and the bytes stay 0xFF otherwise. */
  lemma ThreePlanePixel(s: Bytes, x: nat, y: nat)
    requires HoldsData(s)
    requires |s| >= HeaderSize && s[0] == Manufacturer && ThreePlanes(ParseHeader(s))
    requires x < Width(ParseHeader(s)) && y < Height(ParseHeader(s))
    ensures Decode(s).Ok?
    ensures var data := Decode(s).value.data;
            var px := ThreePlaneRows(s)[y][x];
            var i := PixelOffset(x, y, Width(ParseHeader(s)));
            i + 3 < |data| && data[i] == px.b && data[i + 1] == px.g && data[i + 2] == px.r && data[i + 3] == 255
  {
    var h := ParseHeader(s);
    var rows := ThreePlaneRows(s);
    assert Decode(s).value.data == ImageBytes(rows);
    ImageBytesPixel(rows, Width(h), Height(h), x, y);
    ThreePlaneRowsOpaque(s, y, x);
  }

  /** Every pixel of a three-plane row is opaque. */
  lemma ThreePlaneRowsOpaque(s: Bytes, y: nat, x: nat)
    requires HoldsData(s)
    requires |s| >= HeaderSize && s[0] == Manufacturer && ThreePlanes(ParseHeader(s))
    requires x < Width(ParseHeader(s)) && y < Height(ParseHeader(s))
    ensures ThreePlaneRows(s)[y][x].a == 255
  {
    var h := ParseHeader(s);
    PlanarRowsOpaque(s, HeaderSize, Width(h), Height(h), CountU(h, Width(h)), y, x);
  }

  lemma {:induction false} PlanarRowsOpaque(s: Bytes, pos: nat, w: nat, h: nat, countU: nat, y: nat, x: nat)
    requires countU <= w && PlanarRows(s, pos, w, h, countU).Some?
    requires y < h && x < w
    ensures PlanarRows(s, pos, w, h, countU).value[y][x].a == 255
    decreases y
  {
    var line := ScanlineValues(s, pos, 3 * countU).value;
    if y > 0 {
      PlanarRowsOpaque(s, line.1, w, h - 1, countU, y - 1, x);
    }
  }

  /** A 1x1 single-plane image whose one stream byte is the index 1, and
      whose palette entry 1 holds R = 10, G = 20, B = 30. */
  lemma OnePixelDecodes(s: Bytes)
    requires |s| == HeaderSize + 1 + PaletteSize
    requires s[0] == Manufacturer && s[3] == 8 && s[65] == 1
    requires s[4] == s[5] == s[6] == s[7] == s[8] == s[9] == s[10] == s[11] == 0
    requires s[HeaderSize] == 1
    requires s[HeaderSize + 4] == 10 && s[HeaderSize + 5] == 20 && s[HeaderSize + 6] == 30
    ensures HoldsData(s) && Decode(s).Ok? && Decode(s).value.data == [30, 20, 10, 255]
  {
    var h := ParseHeader(s);
    assert h.xMin == 0 && h.xMax == 0 && h.yMin == 0 && h.yMax == 0;
    assert PaletteIndices(s, HeaderSize + 1, 0) == Some([]);
    assert [1] + [] == [1];
    assert PaletteIndices(s, HeaderSize, 1) == Some([1]);
    var p := PaletteEntry(s, 1);
    assert p == Pixel(30, 20, 10, 255);
    assert Colours(s, [1]) == [p];
  }

  /** The same image written out byte by byte decodes to the bytes 30, 20,
      10, 255. */
  lemma OnePixelExample()
    ensures var header := seq(HeaderSize, i requires 0 <= i < HeaderSize =>
                                if i == 0 then 10 else if i == 3 then 8 else if i == 65 then 1 else 0);
            var palette := seq(PaletteSize, i requires 0 <= i < PaletteSize =>
                                 if i == 3 then 10 else if i == 4 then 20 else if i == 5 then 30 else 0);
            var s: Bytes := header + [1] + palette;
            HoldsData(s) && Decode(s).Ok? && Decode(s).value.data == [30, 20, 10, 255]
  {
    var header: Bytes := seq(HeaderSize, i requires 0 <= i < HeaderSize =>
                             if i == 0 then 10 else if i == 3 then 8 else if i == 65 then 1 else 0);
    var palette: Bytes := seq(PaletteSize, i requires 0 <= i < PaletteSize =>
                              if i == 3 then 10 else if i == 4 then 20 else if i == 5 then 30 else 0);
    var s: Bytes := header + [1] + palette;
    assert s[0] == header[0] && s[3] == header[3] && s[65] == header[65];
    assert s[4] == s[5] == s[6] == s[7] == s[8] == s[9] == s[10] == s[11] == 0;
    assert s[HeaderSize] == 1;
    assert s[HeaderSize + 4] == palette[3] && s[HeaderSize + 5] == palette[4] && s[HeaderSize + 6] == palette[5];
    OnePixelDecodes(s);
  }
}

=== FILE: results.dfy ===
/** Failure-compatible result types shared by every codec.

    The library reports failure as `false` plus an optional warning string;
    here that pair becomes `Err(message)`. Paths that return `false` without
    writing a warning carry the empty message. */
module Results {

  /** Either a value or the warning text that explains the failure. */
  datatype Result<+T> = Ok(value: T) | Err(message: string) {

    predicate IsFailure() {
      Err?
    }

    function PropagateFailure<U>(): Result<U>
      requires Err?
    {
      Err(message)
    }

    function Extract(): T
      requires Ok?
    {
      value
    }
  }

  /** A value that may be absent. Decoders use None for an input on which
      the source would read outside its buffer. */
  datatype Option<+T> = None | Some(value: T) {

    predicate IsFailure() {
      None?
    }

    function PropagateFailure<U>(): Option<U>
      requires None?
    {
      None
    }

    function Extract(): T
      requires Some?
    {
      value
    }
  }
}

=== FILE: seqs.dfy ===
/** Sequence helpers shared by the run-length decoders. */
module Seqs {
  import opened Results

  function Min(a: int, b: int): (m: int)
    ensures m <= a && m <= b && (m == a || m == b)
  {
    if a < b then a else b
  }

  /** `k` copies of `x`. */
  function Repeat<T>(x: T, k: nat): (r: seq<T>)
    ensures |r| == k
    ensures forall i :: 0 <= i < k ==> r[i] == x
  {
    seq(k, _ => x)
  }

  lemma RepeatCons<T>(x: T, k: nat)
    ensures Repeat(x, k + 1) == [x] + Repeat(x, k)
  {
  }

  lemma RepeatAdd<T>(x: T, a: nat, b: nat)
    ensures Repeat(x, a) + Repeat(x, b) == Repeat(x, a + b)
  {
  }

  /** Concatenation that fails when either part failed. */
  function Cat<T>(a: Option<seq<T>>, b: Option<seq<T>>): (r: Option<seq<T>>)
    ensures r.Some? <==> a.Some? && b.Some?
    ensures r.Some? ==> r.value == a.value + b.value
  {
    if a.Some? && b.Some? then Some(a.value + b.value) else None
  }

  lemma CatAssoc<T>(a: Option<seq<T>>, b: Option<seq<T>>, c: Option<seq<T>>)
    ensures Cat(Cat(a, b), c) == Cat(a, Cat(b, c))
  {
    if a.Some? && b.Some? && c.Some? {
      assert (a.value + b.value) + c.value == a.value + (b.value + c.value);
    }
  }
}

=== FILE: tga.dfy ===
/** The Truevision TGA decoder of Source/Decoder/Decoder.cpp: the 18-byte
    header, the run-length packet scheme, the raw 32/24/16/8-bit paths, the
    A1R5G5B5 expansion and the mirror flags of the image descriptor. */
module Tga {
  import opened Results
  import opened Bytes
  import Grid
  import Arith
  import opened Seqs
  import opened Formats

  // ---------------------------------------------------------------------------
  // Header
  // ---------------------------------------------------------------------------

  const HeaderSize: nat := 18

  /** FTGAFileHeader, packed, little-endian. */
  datatype Header = Header(
    idLength: byte,
    colorMapType: byte,
    imageType: byte,
    colorMapOrigin: nat,
    colorMapLength: nat,
    colorMapEntrySize: byte,
    xOrigin: nat,
    yOrigin: nat,
    width: nat,
    height: nat,
    bitsPerPixel: byte,
    descriptor: byte)

  /** Every 16-bit field fits in 16 bits. */
  predicate ValidHeader(h: Header)
  {
    h.colorMapOrigin < 0x1_0000 && h.colorMapLength < 0x1_0000
    && h.xOrigin < 0x1_0000 && h.yOrigin < 0x1_0000
    && h.width < 0x1_0000 && h.height < 0x1_0000
  }

  function ParseHeader(s: Bytes): (h: Header)
    requires |s| >= HeaderSize
    ensures ValidHeader(h)
  {
    Header(s[0], s[1], s[2], U16(s, 3), U16(s, 5), s[7],
           U16(s, 8), U16(s, 10), U16(s, 12), U16(s, 14), s[16], s[17])
  }

  /** The 18 header bytes as they are laid out in the file. */
  function EncodeHeader(h: Header): (s: Bytes)
    requires ValidHeader(h)
    ensures |s| == HeaderSize
  {
    [h.idLength, h.colorMapType, h.imageType]
    + LE16(h.colorMapOrigin) + LE16(h.colorMapLength) + [h.colorMapEntrySize]
    + LE16(h.xOrigin) + LE16(h.yOrigin) + LE16(h.width) + LE16(h.height)
    + [h.bitsPerPixel, h.descriptor]
  }

  /** The header reader recovers every field from its packed layout. */
  lemma ParseEncodeHeader(h: Header, rest: Bytes)
    requires ValidHeader(h)
    ensures ParseHeader(EncodeHeader(h) + rest) == h
  {
    var s := EncodeHeader(h) + rest;
    var e := EncodeHeader(h);
    forall k | 0 <= k < HeaderSize
      ensures s[k] == e[k]
    {
    }
    U16OfBytes(h.colorMapOrigin, s, 3);
    U16OfBytes(h.colorMapLength, s, 5);
    U16OfBytes(h.xOrigin, s, 8);
    U16OfBytes(h.yOrigin, s, 10);
    U16OfBytes(h.width, s, 12);
    U16OfBytes(h.height, s, 14);
  }

  /** Pixel data follows the header, the image id and the colour map, whose
      entries take (entrySize + 4) / 8 bytes each. */
  function DataOffset(h: Header): (off: nat)
    ensures off >= HeaderSize + h.idLength
    ensures h.colorMapLength == 0 ==> off == HeaderSize + h.idLength
  {
    HeaderSize + h.idLength + (h.colorMapEntrySize + 4) / 8 * h.colorMapLength
  }

  /** The colour map skipped before the pixels takes two bytes per entry of
      15 or 16 bits, three of 24 bits and four of 32 bits. */
  lemma DataOffsetByEntrySize(h: Header)
    ensures h.colorMapEntrySize in {15, 16} ==> DataOffset(h) == HeaderSize + h.idLength + 2 * h.colorMapLength
    ensures h.colorMapEntrySize == 24 ==> DataOffset(h) == HeaderSize + h.idLength + 3 * h.colorMapLength
    ensures h.colorMapEntrySize == 32 ==> DataOffset(h) == HeaderSize + h.idLength + 4 * h.colorMapLength
  {
  }

  // ---------------------------------------------------------------------------
  // Pixel formats
  // ---------------------------------------------------------------------------

  /** The pixel encodings of the true-colour paths. */
  datatype Depth = Depth32 | Depth24 | Depth16

  function PixelSize(d: Depth): (n: nat)
    ensures 2 <= n <= 4
  {
    match d
    case Depth32 => 4
    case Depth24 => 3
    case Depth16 => 2
  }

  /** A1R5G5B5 to B8G8R8A8, the source's
      `(p & 0x1F) << 3 | (p & 0x3E0) << 6 | (p & 0x7C00) << 9 | (p & 0x8000) << 16`
      read as four memory bytes: each 5-bit field moves to the top of its
      byte and bit 15 becomes 0x80 in the alpha byte. */
  function Expand16(p: nat): (px: Pixel)
    requires p < 0x1_0000
    ensures px.b % 8 == 0 && px.g % 8 == 0 && px.r % 8 == 0
    ensures px.a == 0 || px.a == 0x80
  {
    Pixel((p % 32) * 8, (p / 32 % 32) * 8, (p / 1024 % 32) * 8, (p / 32768) * 0x80)
  }

  /** Packs the top bits of a B8G8R8A8 pixel back into A1R5G5B5. */
  function Pack16(px: Pixel): (p: nat)
    ensures p < 0x1_0000
  {
    px.b / 8 + 32 * (px.g / 8) + 1024 * (px.r / 8) + 32768 * (px.a / 0x80)
  }

  /** The expansion loses nothing: packing an expanded pixel gives the file
      pixel back. */
  lemma Pack16Expand16(p: nat)
    requires p < 0x1_0000
    ensures Pack16(Expand16(p)) == p
  {
    var b, q := p % 32, p / 32;
    var g, q2 := q % 32, q / 32;
    var r, a := q2 % 32, q2 / 32;
    assert p / 1024 == q2 && p / 32768 == a;
    assert a <= 1;
    assert Expand16(p) == Pixel(b * 8, g * 8, r * 8, a * 0x80);
    assert Pack16(Pixel(b * 8, g * 8, r * 8, a * 0x80)) == b + 32 * g + 1024 * r + 32768 * a;
  }

  /** Each 5-bit field of the file pixel is the top of one output byte. */
  lemma Expand16Fields(p: nat)
    requires p < 0x1_0000
    ensures Expand16(p).b / 8 == p % 32
    ensures Expand16(p).g / 8 == p / 32 % 32
    ensures Expand16(p).r / 8 == p / 1024 % 32
    ensures Expand16(p).a == (if p >= 0x8000 then 0x80 else 0)
  {
  }

  /** One pixel of the given encoding at `off`. 24-bit pixels get alpha 255. */
  function ReadPixel(s: Bytes, off: nat, d: Depth): (px: Pixel)
    requires off + PixelSize(d) <= |s|
    ensures d == Depth24 ==> px.a == 255
    ensures d != Depth16 ==> px.b == s[off] && px.g == s[off + 1] && px.r == s[off + 2]
    ensures d == Depth32 ==> px.a == s[off + 3]
    ensures d == Depth16 ==> px == Expand16(U16(s, off))
  {
    match d
    case Depth32 => Pixel(s[off], s[off + 1], s[off + 2], s[off + 3])
    case Depth24 => Pixel(s[off], s[off + 1], s[off + 2], 255)
    case Depth16 => Expand16(U16(s, off))
  }

  /** `n` consecutive pixels from `off`; None when they run past the buffer. */
  function ReadPixels(s: Bytes, off: nat, n: nat, d: Depth): (r: Option<seq<Pixel>>)
    ensures r.Some? ==> |r.value| == n
    decreases n
  {
    if n == 0 then Some([])
    else if off + PixelSize(d) > |s| then None
    else
      var rest :- ReadPixels(s, off + PixelSize(d), n - 1, d);
      Some([ReadPixel(s, off, d)] + rest)
  }

  /** The read fails exactly when the pixels run past the buffer. */
  lemma {:induction false} ReadPixelsInBounds(s: Bytes, off: nat, n: nat, d: Depth)
    ensures ReadPixels(s, off, n, d).Some? <==> n == 0 || off + n * PixelSize(d) <= |s|
    decreases n
  {
    if n > 0 {
      ReadPixelsInBounds(s, off + PixelSize(d), n - 1, d);
      MulStep(n, PixelSize(d));
    }
  }

  lemma MulStep(k: nat, size: nat)
    requires k >= 1
    ensures k * size == size + (k - 1) * size
  {
  }

  lemma {:induction false} ReadPixelsIndex(s: Bytes, off: nat, n: nat, d: Depth, i: nat)
    requires ReadPixels(s, off, n, d).Some? && i < n
    ensures off + (i + 1) * PixelSize(d) <= |s|
    ensures ReadPixels(s, off, n, d).value[i] == ReadPixel(s, off + i * PixelSize(d), d)
    decreases i
  {
    if i > 0 {
      ReadPixelsIndex(s, off + PixelSize(d), n - 1, d, i - 1);
      assert off + PixelSize(d) + (i - 1) * PixelSize(d) == off + i * PixelSize(d);
    }
  }

  // ---------------------------------------------------------------------------
  // Run-length packets
  // ---------------------------------------------------------------------------

  /** The packet scheme itself, as a reference for the decoder loop: a
      header byte with bit 7 set is followed by one pixel that is repeated
      (header & 0x7F) + 1 times; a header byte with bit 7 clear is followed
      by (header & 0x7F) + 1 literal pixels. `n` pixels are produced, so
      the last packet is cut short when the image ends inside it. */
  function Packets(s: Bytes, pos: nat, n: nat, d: Depth): (r: Option<seq<Pixel>>)
    ensures r.Some? ==> |r.value| == n
    decreases n, 1
  {
    if n == 0 then Some([])
    else if pos >= |s| then None
    else
      var k := Min(s[pos] % 0x80 + 1, n);
      if s[pos] >= 0x80 then
        if pos + 1 + PixelSize(d) > |s| then None
        else Cat(Some(Repeat(ReadPixel(s, pos + 1, d), k)),
                 Packets(s, pos + 1 + PixelSize(d), n - k, d))
      else
        Literals(s, pos + 1, k, n, d)
  }

  /** `k` literal pixels from `pos`, then packets up to `n` pixels in all. */
  function Literals(s: Bytes, pos: nat, k: nat, n: nat, d: Depth): (r: Option<seq<Pixel>>)
    requires 1 <= k <= n
    ensures r.Some? ==> |r.value| == n
    decreases n, 0
  {
    if pos + PixelSize(d) > |s| then None
    else
      var px := ReadPixel(s, pos, d);
      if k == 1 then Cat(Some([px]), Packets(s, pos + PixelSize(d), n - 1, d))
      else Cat(Some([px]), Literals(s, pos + PixelSize(d), k - 1, n - 1, d))
  }

  /** The registers of the decoder loop between two pixels: the read
      position, RLERun, RAWRun and the last pixel read. RLERun is a signed
      counter that the loop also decrements during literal packets, so it
      goes below zero there. */
  datatype RunState = RunState(pos: nat, rleRun: int, rawRun: nat, pixel: Pixel)

  /** The loop is never inside a repeat run and a literal packet at once. */
  predicate ValidState(st: RunState)
  {
    !(st.rleRun > 0 && st.rawRun > 0)
  }

  function InitialState(pos: nat): (st: RunState)
    ensures ValidState(st)
  {
    RunState(pos, 0, 0, Pixel(0, 0, 0, 0))
  }

  /** The second half of a loop iteration, once the counters are updated:
      read a pixel if a literal is pending, decrementing both counters, and
      store the current pixel. */
  function Emit(s: Bytes, pos: nat, rle: int, raw: nat, pixel: Pixel, d: Depth): (r: Option<(Pixel, RunState)>)
    requires !(rle > 0 && raw > 1)
    ensures r.Some? ==> ValidState(r.value.1) && r.value.1.pos >= pos
  {
    if raw > 0 then
      if pos + PixelSize(d) > |s| then None
      else
        var px := ReadPixel(s, pos, d);
        Some((px, RunState(pos + PixelSize(d), rle - 1, raw - 1, px)))
    else
      Some((pixel, RunState(pos, rle, raw, pixel)))
  }

  /** One iteration of the source's inner loop: continue a repeat run, or
      read a packet header when no literal pixels are pending; then Emit. */
  function Step(s: Bytes, st: RunState, d: Depth): (r: Option<(Pixel, RunState)>)
    requires ValidState(st)
    ensures r.Some? ==> ValidState(r.value.1) && r.value.1.pos >= st.pos
  {
    if st.rleRun > 0 then Emit(s, st.pos, st.rleRun - 1, st.rawRun, st.pixel, d)
    else if st.rawRun == 0 then
      if st.pos >= |s| then None
      else if s[st.pos] >= 0x80 then Emit(s, st.pos + 1, s[st.pos] % 0x80 + 1, 1, st.pixel, d)
      else Emit(s, st.pos + 1, st.rleRun, s[st.pos] % 0x80 + 1, st.pixel, d)
    else Emit(s, st.pos, st.rleRun, st.rawRun, st.pixel, d)
  }

  /** `n` iterations of the loop. */
  function Run(s: Bytes, st: RunState, n: nat, d: Depth): (r: Option<seq<Pixel>>)
    requires ValidState(st)
    ensures r.Some? ==> |r.value| == n
    decreases n
  {
    if n == 0 then Some([])
    else
      var next :- Step(s, st, d);
      var rest :- Run(s, next.1, n - 1, d);
      Some([next.0] + rest)
  }

  /** What the packet scheme says the loop emits from a given register
      state: the rest of the current repeat run or literal packet, then
      whole packets. */
  function FromState(s: Bytes, st: RunState, n: nat, d: Depth): Option<seq<Pixel>>
    requires ValidState(st)
  {
    if n == 0 then Some([])
    else if st.rleRun > 0 then
      var k := Min(st.rleRun, n);
      Cat(Some(Repeat(st.pixel, k)), Packets(s, st.pos, n - k, d))
    else if st.rawRun > 0 then
      Literals(s, st.pos, Min(st.rawRun, n), n, d)
    else
      Packets(s, st.pos, n, d)
  }

  /** The property one loop iteration has: it emits the first pixel the
      packet scheme promises from `st` and leaves a state that promises the
      rest, or fails exactly where the scheme reads past the buffer. */
  predicate StepAgrees(s: Bytes, st: RunState, n: nat, d: Depth)
    requires ValidState(st) && n > 0
  {
    var step := Step(s, st, d);
    (step.Some? ==>
       FromState(s, st, n, d) == Cat(Some([step.value.0]), FromState(s, step.value.1, n - 1, d)))
    && (step.None? ==> FromState(s, st, n, d).None?)
  }

  /** Repeating a pixel k times and then decoding is emitting it once and
      then repeating it k - 1 times. */
  lemma RepeatSplit(p: Pixel, k: nat, rest: Option<seq<Pixel>>)
    requires k >= 1
    ensures Cat(Some(Repeat(p, k)), rest)
            == Cat(Some([p]), if k == 1 then rest else Cat(Some(Repeat(p, k - 1)), rest))
  {
    RepeatCons(p, k - 1);
    CatAssoc(Some([p]), Some(Repeat(p, k - 1)), rest);
    if k == 1 {
      assert Repeat(p, 1) == [p];
    }
  }

  lemma StepInRepeatRun(s: Bytes, st: RunState, n: nat, d: Depth)
    requires ValidState(st) && n > 0 && st.rleRun > 0
    ensures StepAgrees(s, st, n, d)
  {
    var k := Min(st.rleRun, n);
    RepeatSplit(st.pixel, k, Packets(s, st.pos, n - k, d));
  }

  lemma StepInLiteralPacket(s: Bytes, st: RunState, n: nat, d: Depth)
    requires ValidState(st) && n > 0 && st.rleRun <= 0 && st.rawRun > 0
    ensures StepAgrees(s, st, n, d)
  {
  }

  lemma StepAtRepeatHeader(s: Bytes, st: RunState, n: nat, d: Depth)
    requires ValidState(st) && n > 0 && st.rleRun <= 0 && st.rawRun == 0
    requires st.pos + 1 + PixelSize(d) <= |s| && s[st.pos] >= 0x80
    ensures StepAgrees(s, st, n, d)
  {
    var k := Min(s[st.pos] % 0x80 + 1, n);
    RepeatSplit(ReadPixel(s, st.pos + 1, d), k, Packets(s, st.pos + 1 + PixelSize(d), n - k, d));
  }

  lemma StepAtLiteralHeader(s: Bytes, st: RunState, n: nat, d: Depth)
    requires ValidState(st) && n > 0 && st.rleRun <= 0 && st.rawRun == 0
    requires st.pos + 1 + PixelSize(d) <= |s| && s[st.pos] < 0x80
    ensures StepAgrees(s, st, n, d)
  {
    var k := Min(s[st.pos] % 0x80 + 1, n);
    var px := ReadPixel(s, st.pos + 1, d);
    var next := st.pos + 1 + PixelSize(d);
    assert FromState(s, st, n, d) == Literals(s, st.pos + 1, k, n, d);
    if k == 1 {
      assert Literals(s, st.pos + 1, k, n, d) == Cat(Some([px]), Packets(s, next, n - 1, d));
    } else {
      assert Literals(s, st.pos + 1, k, n, d) == Cat(Some([px]), Literals(s, next, k - 1, n - 1, d));
    }
  }

  lemma StepAtPacketHeader(s: Bytes, st: RunState, n: nat, d: Depth)
    requires ValidState(st) && n > 0 && st.rleRun <= 0 && st.rawRun == 0
    ensures StepAgrees(s, st, n, d)
  {
    if st.pos < |s| && st.pos + 1 + PixelSize(d) <= |s| {
      if s[st.pos] >= 0x80 {
        StepAtRepeatHeader(s, st, n, d);
      } else {
        StepAtLiteralHeader(s, st, n, d);
      }
    } else if st.pos < |s| && s[st.pos] < 0x80 {
      assert Literals(s, st.pos + 1, Min(s[st.pos] % 0x80 + 1, n), n, d).None?;
    }
  }

  /** The decoder loop emits exactly what the packet scheme describes, from
      any register state it can reach; in particular from the initial state
      it decodes whole packets, carrying runs across scanlines. */
  lemma {:induction false} RunMatchesPackets(s: Bytes, st: RunState, n: nat, d: Depth)
    requires ValidState(st)
    ensures Run(s, st, n, d) == FromState(s, st, n, d)
    decreases n
  {
    if n > 0 {
      if st.rleRun > 0 {
        StepInRepeatRun(s, st, n, d);
      } else if st.rawRun > 0 {
        StepInLiteralPacket(s, st, n, d);
      } else {
        StepAtPacketHeader(s, st, n, d);
      }
      var step := Step(s, st, d);
      if step.Some? {
        RunMatchesPackets(s, step.value.1, n - 1, d);
      }
    }
  }

  // ---------------------------------------------------------------------------
  // Scanline order
  // ---------------------------------------------------------------------------

  /** Every TGA path stores the file's pixel stream bottom-up: the first `w`
      pixels of the stream become the last row of the texture. */
  function BottomUp<T>(stream: seq<T>, w: nat, h: nat): (rows: seq<seq<T>>)
    requires |stream| == w * h
    ensures Grid.IsGrid(rows, w, h)
  {
    Grid.Reverse(Grid.Chunk(stream, w, h))
  }

  /** Texture row `y`, pixel `x` of a bottom-up image is stream element
      RawIndex, `(h - 1 - y) * w + x`. */
  lemma BottomUpIndex<T>(stream: seq<T>, w: nat, h: nat, x: nat, y: nat)
    requires |stream| == w * h && x < w && y < h
    ensures BottomUp(stream, w, h)[y][x] == stream[RawIndex(w, h, x, y)]
  {
    var j := h - 1 - y;
    Grid.ChunkRow(stream, w, h, j);
    assert BottomUp(stream, w, h)[y] == Grid.Chunk(stream, w, h)[j];
    assert RawIndex(w, h, x, y) == j * w + x;
  }

  /** One pixel read, then the rest. */
  lemma ReadPixelsStep(s: Bytes, off: nat, n: nat, d: Depth)
    requires n > 0 && off + PixelSize(d) <= |s|
    ensures ReadPixels(s, off, n, d) == Cat(Some([ReadPixel(s, off, d)]), ReadPixels(s, off + PixelSize(d), n - 1, d))
  {
  }

  /** The inductive step of ReadPixelsCat: from the claim for the pixels
      after the first to the claim for all of them. */
  lemma ReadPixelsCatStep(s: Bytes, off: nat, a: nat, b: nat, d: Depth)
    requires a > 0 && off + PixelSize(d) <= |s|
    requires ReadPixels(s, off + PixelSize(d), (a - 1) + b, d)
             == Cat(ReadPixels(s, off + PixelSize(d), a - 1, d),
                    ReadPixels(s, off + PixelSize(d) + (a - 1) * PixelSize(d), b, d))
    ensures ReadPixels(s, off, a + b, d)
            == Cat(ReadPixels(s, off, a, d), ReadPixels(s, off + a * PixelSize(d), b, d))
  {
    var size := PixelSize(d);
    var first := Some([ReadPixel(s, off, d)]);
    Arith.MulSucc(a - 1, size);
    assert off + size + (a - 1) * size == off + a * size;
    ReadPixelsStep(s, off, a + b, d);
    ReadPixelsStep(s, off, a, d);
    assert a + b - 1 == (a - 1) + b;
    CatAssoc(first, ReadPixels(s, off + size, a - 1, d), ReadPixels(s, off + a * size, b, d));
  }

  /** Reading `a + b` pixels is reading `a` and then `b` more. */
  lemma {:induction false} ReadPixelsCat(s: Bytes, off: nat, a: nat, b: nat, d: Depth)
    ensures ReadPixels(s, off, a + b, d)
            == Cat(ReadPixels(s, off, a, d), ReadPixels(s, off + a * PixelSize(d), b, d))
    decreases a
  {
    if a > 0 && off + PixelSize(d) <= |s| {
      ReadPixelsCat(s, off + PixelSize(d), a - 1, b, d);
      ReadPixelsCatStep(s, off, a, b, d);
    } else if a > 0 {
      assert ReadPixels(s, off, a, d).None? && ReadPixels(s, off, a + b, d).None?;
    } else {
      var r := ReadPixels(s, off, b, d);
      if r.Some? {
        assert [] + r.value == r.value;
      }
    }
  }

  lemma ReadPixelsAppend(s: Bytes, off: nat, a: nat, b: nat, d: Depth)
    requires off + (a + b) * PixelSize(d) <= |s|
    ensures ReadPixels(s, off, a + b, d).Some?
    ensures ReadPixels(s, off, a, d).Some? && ReadPixels(s, off + a * PixelSize(d), b, d).Some?
    ensures ReadPixels(s, off, a + b, d).value
            == ReadPixels(s, off, a, d).value + ReadPixels(s, off + a * PixelSize(d), b, d).value
  {
    ReadPixelsInBounds(s, off, a + b, d);
    ReadPixelsCat(s, off, a, b, d);
  }

  // ---------------------------------------------------------------------------
  // Uncompressed paths
  // ---------------------------------------------------------------------------

  /** Texture pixel (x, y) is stream pixel `(h - 1 - y) * w + x`. */
  function RawIndex(w: nat, h: nat, x: nat, y: nat): (i: nat)
    requires x < w && y < h
    ensures i < w * h
  {
    var j := h - 1 - y;
    Arith.MulSucc(j, w);
    Arith.MulLe(j + 1, h, w);
    Arith.MulComm(h, w);
    j * w + x
  }

  /** The byte offset of stream pixel `i`. */
  function PixelOffset(off: nat, i: nat, n: nat, d: Depth): (p: nat)
    requires i < n
    ensures p + PixelSize(d) <= off + n * PixelSize(d)
  {
    Arith.MulLe(i + 1, n, PixelSize(d));
    Arith.MulSucc(i, PixelSize(d));
    off + i * PixelSize(d)
  }

  /** The 32-bit and 24-bit raw paths: texture row `y` is file row
      `h - 1 - y` (a row-sized memcpy for 32 bits, a per-pixel copy with
      alpha 255 for 24 bits). Used for 16 bits too; DecodeRaw16 shows its
      sequential loop computes the same rows. */
  function RawRows(s: Bytes, off: nat, w: nat, h: nat, d: Depth): (rows: seq<seq<Pixel>>)
    requires off + w * h * PixelSize(d) <= |s|
    ensures Grid.IsGrid(rows, w, h)
  {
    seq(h, y requires 0 <= y < h =>
      seq(w, x requires 0 <= x < w =>
        ReadPixel(s, PixelOffset(off, RawIndex(w, h, x, y), w * h, d), d)))
  }

  /** The raw paths read the data as one stream of `w * h` pixels and store
      it bottom-up. */
  lemma RawRowsAreBottomUp(s: Bytes, off: nat, w: nat, h: nat, d: Depth)
    requires off + w * h * PixelSize(d) <= |s|
    ensures ReadPixels(s, off, w * h, d).Some?
    ensures RawRows(s, off, w, h, d) == BottomUp(ReadPixels(s, off, w * h, d).value, w, h)
  {
    ReadPixelsInBounds(s, off, w * h, d);
    var stream := ReadPixels(s, off, w * h, d).value;
    var rows := RawRows(s, off, w, h, d);
    var spec := BottomUp(stream, w, h);
    forall y | 0 <= y < h
      ensures rows[y] == spec[y]
    {
      forall x | 0 <= x < w
        ensures rows[y][x] == spec[y][x]
      {
        var i := RawIndex(w, h, x, y);
        BottomUpIndex(stream, w, h, x, y);
        ReadPixelsIndex(s, off, w * h, d, i);
      }
    }
  }

  /** One row of the 16-bit raw loop: `w` pixels read from `start` on. */
  method ReadRow16(s: Bytes, start: nat, w: nat) returns (row: seq<Pixel>)
    requires start + w * 2 <= |s|
    ensures ReadPixels(s, start, w, Depth16).Some?
    ensures row == ReadPixels(s, start, w, Depth16).value
  {
    var d := Depth16;
    row := [];
    var pos := start;
    var x := 0;
    while x < w
      invariant 0 <= x <= w
      invariant pos == start + x * 2
      invariant ReadPixels(s, start, x, d).Some?
      invariant row == ReadPixels(s, start, x, d).value
    {
      ReadPixelsAppend(s, start, x, 1, d);
      row := row + [Expand16(U16(s, pos))];
      pos := pos + 2;
      x := x + 1;
    }
  }

  /** Reading one more row of `w` pixels after the first `done` puts that
      row on top of the bottom-up image built so far. */
  lemma BottomUpStep(s: Bytes, off: nat, w: nat, k: nat, done: nat, row: seq<Pixel>)
    requires done == w * k && off + (done + w) * 2 <= |s|
    requires ReadPixels(s, off + done * 2, w, Depth16).Some?
    requires row == ReadPixels(s, off + done * 2, w, Depth16).value
    ensures ReadPixels(s, off, done, Depth16).Some? && ReadPixels(s, off, done + w, Depth16).Some?
    ensures [row] + Grid.Reverse(Grid.Chunk(ReadPixels(s, off, done, Depth16).value, w, k))
            == Grid.Reverse(Grid.Chunk(ReadPixels(s, off, done + w, Depth16).value, w, k + 1))
  {
    ReadPixelsAppend(s, off, done, w, Depth16);
    var prev := ReadPixels(s, off, done, Depth16).value;
    Grid.ChunkSnoc(prev, row, w, k);
    Grid.ReverseSnoc(Grid.Chunk(prev, w, k), row);
  }

  /** The 16-bit raw loop: the read pointer walks the data once while the
      row index counts down from the bottom. */
  method DecodeRaw16(s: Bytes, off: nat, w: nat, h: nat) returns (rows: seq<seq<Pixel>>)
    requires off + w * h * 2 <= |s|
    ensures ReadPixels(s, off, w * h, Depth16).Some?
    ensures rows == BottomUp(ReadPixels(s, off, w * h, Depth16).value, w, h)
  {
    rows := [];
    var pos := off;
    var done := 0;
    var y := h;
    while y > 0
      invariant 0 <= y <= h
      invariant done == w * (h - y) && pos == off + done * 2
      invariant ReadPixels(s, off, done, Depth16).Some?
      invariant rows == Grid.Reverse(Grid.Chunk(ReadPixels(s, off, done, Depth16).value, w, h - y))
    {
      var k := h - y;
      Arith.MulSuccRight(w, k);
      Arith.MulLeRight(w, k + 1, h);
      var row := ReadRow16(s, pos, w);
      BottomUpStep(s, off, w, k, done, row);
      rows := [row] + rows;
      pos := pos + w * 2;
      done := done + w;
      y := y - 1;
    }
    Arith.MulComm(w, h);
  }

  /** Where file row `h - 1 - r` starts in a `w`-wide 8-bit image. */
  function RowStart(off: nat, w: nat, h: nat, r: nat): (p: nat)
    requires r < h
    ensures p + w <= off + w * h
  {
    var j := h - 1 - r;
    Arith.MulSucc(j, w);
    Arith.MulLe(j + 1, h, w);
    Arith.MulComm(h, w);
    off + j * w
  }

  /** The 8-bit path: texture row `r` is a memcpy of file row `h - 1 - r`. */
  function GrayRows(s: Bytes, off: nat, w: nat, h: nat): (rows: seq<seq<byte>>)
    requires off + w * h <= |s|
    ensures Grid.IsGrid(rows, w, h)
  {
    seq(h, r requires 0 <= r < h => s[RowStart(off, w, h, r) .. RowStart(off, w, h, r) + w])
  }

  /** Row `r` of the 8-bit path is row `r` of the bottom-up data. */
  lemma GrayRowIsBottomUp(s: Bytes, off: nat, w: nat, h: nat, r: nat)
    requires off + w * h <= |s| && r < h
    ensures GrayRows(s, off, w, h)[r] == BottomUp(s[off .. off + w * h], w, h)[r]
  {
    var t := s[off .. off + w * h];
    var j := h - 1 - r;
    Grid.ChunkRow(t, w, h, j);
    assert BottomUp(t, w, h)[r] == Grid.Chunk(t, w, h)[j];
    assert RowStart(off, w, h, r) == off + j * w;
    assert t[j * w .. j * w + w] == s[off + j * w .. off + j * w + w];
  }

  /** The 8-bit path stores the `w * h` data bytes bottom-up. */
  lemma GrayRowsAreBottomUp(s: Bytes, off: nat, w: nat, h: nat)
    requires off + w * h <= |s|
    ensures GrayRows(s, off, w, h) == BottomUp(s[off .. off + w * h], w, h)
  {
    forall r | 0 <= r < h
      ensures GrayRows(s, off, w, h)[r] == BottomUp(s[off .. off + w * h], w, h)[r]
    {
      GrayRowIsBottomUp(s, off, w, h, r);
    }
  }

  // ---------------------------------------------------------------------------
  // Run-length paths
  // ---------------------------------------------------------------------------

  /** The run-length loop over `w * h` pixels, stored bottom-up; None when
      the packets run past the buffer. */
  function DecodeRle(s: Bytes, off: nat, w: nat, h: nat, d: Depth): (r: Option<seq<seq<Pixel>>>)
    ensures r.Some? ==> Grid.IsGrid(r.value, w, h)
  {
    var stream :- Run(s, InitialState(off), w * h, d);
    Some(BottomUp(stream, w, h))
  }

  /** The run-length paths decode whole packets from the start of the data,
      the pixels of a packet continuing from one scanline to the next. */
  lemma DecodeRleIsPackets(s: Bytes, off: nat, w: nat, h: nat, d: Depth)
    ensures DecodeRle(s, off, w, h, d).Some? <==> Packets(s, off, w * h, d).Some?
    ensures DecodeRle(s, off, w, h, d).Some? ==>
              DecodeRle(s, off, w, h, d).value == BottomUp(Packets(s, off, w * h, d).value, w, h)
  {
    RunMatchesPackets(s, InitialState(off), w * h, d);
  }

  // ---------------------------------------------------------------------------
  // Dispatch
  // ---------------------------------------------------------------------------

  /** The bit depths the true-colour paths take. */
  function DepthOf(bitsPerPixel: byte): (r: Option<Depth>)
    ensures r.Some? ==> bitsPerPixel == 8 * PixelSize(r.value)
  {
    if bitsPerPixel == 32 then Some(Depth32)
    else if bitsPerPixel == 24 then Some(Depth24)
    else if bitsPerPixel == 16 then Some(Depth16)
    else None
  }

  /** Every depth is taken at its own bit count. */
  lemma DepthOfBits(d: Depth)
    ensures DepthOf(8 * PixelSize(d)) == Some(d)
  {
  }

  /** How the pixel data is laid out, as chosen from the header. */
  datatype Layout = Gray8 | Rle(depth: Depth) | Raw(depth: Depth)

  /** An 8-bit alpha glyph image (colour-mapped, type 1) or a grayscale
      image (type 3). */
  predicate IsGray8(h: Header)
  {
    h.bitsPerPixel == 8
    && ((h.colorMapType == 1 && h.imageType == 1) || (h.colorMapType == 0 && h.imageType == 3))
  }

  /** The checks of DecompressTGA and the dispatch of its helper, with the
      warning each rejection sets. */
  function Classify(h: Header): (r: Result<Layout>)
    ensures r.Ok? ==> (r.value == Gray8 <==> IsGray8(h))
    ensures r.Ok? && r.value.Rle? ==> h.imageType == 10
    ensures r.Ok? && r.value.Raw? ==> h.imageType == 2
  {
    if IsGray8(h) then Ok(Gray8)
    else if h.imageType == 10 then
      match DepthOf(h.bitsPerPixel)
      case None => Err("TGA uses an unsupported rle-compressed bit-depth: " + NatToString(h.bitsPerPixel))
      case Some(d) => Ok(Rle(d))
    else
      match DepthOf(h.bitsPerPixel)
      case None => Err("TGA uses an unsupported bit-depth: " + NatToString(h.bitsPerPixel))
      case Some(d) =>
        if h.imageType == 2 then Ok(Raw(d))
        else Err("TGA is an unsupported type: " + NatToString(h.imageType))
  }

  /** The headers DecodeImage lets through to DecompressTGA. */
  predicate Accepted(s: Bytes)
  {
    |s| >= HeaderSize
    && var h := ParseHeader(s);
       (h.colorMapType == 0 && (h.imageType == 2 || h.imageType == 3 || h.imageType == 10))
       || (h.colorMapType == 1 && h.imageType == 1 && h.bitsPerPixel == 8)
  }

  /** The buffer holds the pixel data its header announces: DecompressTGA
      reads it without a bounds check. */
  predicate HoldsData(s: Bytes)
  {
    |s| >= HeaderSize ==>
      var h := ParseHeader(s);
      var off := DataOffset(h);
      match Classify(h)
      case Err(_) => true
      case Ok(Gray8) => off + h.width * h.height <= |s|
      case Ok(Raw(d)) => off + h.width * h.height * PixelSize(d) <= |s|
      case Ok(Rle(d)) => DecodeRle(s, off, h.width, h.height, d).Some?
  }

  /** The mirror step at the end of the helper: bit 4 of the descriptor
      mirrors each row, bit 5 the order of the rows. */
  function Mirror<T>(rows: seq<seq<T>>, descriptor: byte): (r: seq<seq<T>>)
    ensures |r| == |rows|
  {
    var flipX := descriptor / 0x10 % 2 == 1;
    var flipY := descriptor / 0x20 % 2 == 1;
    if flipX || flipY then Grid.Flip(rows, flipX, flipY) else rows
  }

  lemma MirrorIsGrid<T>(rows: seq<seq<T>>, w: nat, h: nat, descriptor: byte)
    requires Grid.IsGrid(rows, w, h)
    ensures Grid.IsGrid(Mirror(rows, descriptor), w, h)
  {
    Grid.FlipIsGrid(rows, w, h, descriptor / 0x10 % 2 == 1, descriptor / 0x20 % 2 == 1);
  }

  /** Mirroring twice by the same descriptor gives the image back. */
  lemma MirrorTwice<T>(rows: seq<seq<T>>, descriptor: byte)
    ensures Mirror(Mirror(rows, descriptor), descriptor) == rows
  {
    Grid.FlipInvolution(rows, descriptor / 0x10 % 2 == 1, descriptor / 0x20 % 2 == 1);
  }

  /** The texture rows of a supported layout, before mirroring. */
  function PixelRows(s: Bytes, h: Header, d: Depth, rle: bool): (rows: seq<seq<Pixel>>)
    requires rle ==> DecodeRle(s, DataOffset(h), h.width, h.height, d).Some?
    requires !rle ==> DataOffset(h) + h.width * h.height * PixelSize(d) <= |s|
    ensures Grid.IsGrid(rows, h.width, h.height)
  {
    if rle then DecodeRle(s, DataOffset(h), h.width, h.height, d).value
    else RawRows(s, DataOffset(h), h.width, h.height, d)
  }

  /** DecompressTGA followed by its helper: G8 output for the 8-bit layouts,
      B8G8R8A8 for the others, mirrored as the descriptor asks. */
  function Decompress(s: Bytes): (r: Result<DecodedImage>)
    requires |s| >= HeaderSize && HoldsData(s)
    ensures r.Ok? ==> r.value.sourceType == Tga && r.value.bitDepth == 8 && r.value.sourceBitDepth == 8
    ensures r.Ok? ==> r.value.width == ParseHeader(s).width && r.value.height == ParseHeader(s).height
    ensures r.Ok? ==>
              (r.value.textureFormat == G8 && r.value.sourceFormat == Gray
               && |r.value.data| == r.value.width * r.value.height)
              || (r.value.textureFormat == BGRA8 && r.value.sourceFormat == Bgra
                  && |r.value.data| == r.value.width * r.value.height * 4)
  {
    var h := ParseHeader(s);
    var layout :- Classify(h);
    var off := DataOffset(h);
    if layout == Gray8 then
      var rows := GrayRows(s, off, h.width, h.height);
      MirrorIsGrid(rows, h.width, h.height, h.descriptor);
      Grid.FlattenLength(Mirror(rows, h.descriptor), h.width, h.height);
      Ok(DecodedImage(Tga, Gray, 8, h.width, h.height, G8, 8, Grid.Flatten(Mirror(rows, h.descriptor))))
    else
      var rows := PixelRows(s, h, layout.depth, layout.Rle?);
      MirrorIsGrid(rows, h.width, h.height, h.descriptor);
      ImageBytesLength(Mirror(rows, h.descriptor), h.width, h.height);
      Ok(DecodedImage(Tga, Bgra, 8, h.width, h.height, BGRA8, 8, ImageBytes(Mirror(rows, h.descriptor))))
  }

  /** The TGA branch of DecodeImage. Exactly the 8-bit layouts and the
      16, 24 and 32-bit colour-mapless types 2 and 10 decode; a header
      outside the accepted types fails silently, and an accepted one that
      cannot be decoded fails with a warning naming the offending depth or
      type. Only an accepted header reaches DecompressTGA and its reads, so
      only then must the buffer hold the data. */
  function Decode(s: Bytes): (r: Result<DecodedImage>)
    requires Accepted(s) ==> HoldsData(s)
    ensures r.Ok? ==> r.value.sourceType == Tga
    ensures r.Ok? ==>
              (r.value.textureFormat == G8 && |r.value.data| == r.value.width * r.value.height)
              || (r.value.textureFormat == BGRA8 && |r.value.data| == r.value.width * r.value.height * 4)
    ensures r.Ok? <==>
              |s| >= HeaderSize
              && var h := ParseHeader(s);
                 IsGray8(h)
                 || (h.colorMapType == 0 && (h.imageType == 2 || h.imageType == 10)
                     && (h.bitsPerPixel == 16 || h.bitsPerPixel == 24 || h.bitsPerPixel == 32))
    ensures r.Err? ==> (!Accepted(s) <==> r.message == "")
    ensures r.Err? && Accepted(s) ==>
              var h := ParseHeader(s);
              (h.imageType == 10 && r.message == "TGA uses an unsupported rle-compressed bit-depth: " + NatToString(h.bitsPerPixel))
              || (h.imageType != 10 && DepthOf(h.bitsPerPixel).None?
                  && r.message == "TGA uses an unsupported bit-depth: " + NatToString(h.bitsPerPixel))
              || (h.imageType == 3 && DepthOf(h.bitsPerPixel).Some?
                  && r.message == "TGA is an unsupported type: " + NatToString(h.imageType))
  {
    if !Accepted(s) then Err("") else Decompress(s)
  }

  /** A 32-bit type-2 header with a colour map and no pixel data: DecodeImage
      refuses it before reading anything, so it needs no data behind it. */
  lemma UnacceptedNeedsNoData()
    ensures var s: Bytes := [0, 1, 2, 0, 0, 0, 0, 0, 0, 0, 0, 0, 1, 0, 1, 0, 32, 0];
            !Accepted(s) && !HoldsData(s) && Decode(s) == Err("")
  {
    var s: Bytes := [0, 1, 2, 0, 0, 0, 0, 0, 0, 0, 0, 0, 1, 0, 1, 0, 32, 0];
    var h := ParseHeader(s);
    assert h.colorMapType == 1 && h.imageType == 2 && h.bitsPerPixel == 32;
    assert h.width == 1 && h.height == 1 && DataOffset(h) == HeaderSize;
  }

  // ---------------------------------------------------------------------------
  // Pixel-level statement
  // ---------------------------------------------------------------------------

  /** The file's pixel stream as the packet scheme (type 10) or as plain
      pixels (type 2) describe it. */
  function Stream(s: Bytes, h: Header, d: Depth, rle: bool): (r: Option<seq<Pixel>>)
    ensures r.Some? ==> |r.value| == h.width * h.height
  {
    if rle then Packets(s, DataOffset(h), h.width * h.height, d)
    else ReadPixels(s, DataOffset(h), h.width * h.height, d)
  }

  lemma PixelRowsAreStream(s: Bytes, h: Header, d: Depth, rle: bool)
    requires rle ==> DecodeRle(s, DataOffset(h), h.width, h.height, d).Some?
    requires !rle ==> DataOffset(h) + h.width * h.height * PixelSize(d) <= |s|
    ensures Stream(s, h, d, rle).Some?
    ensures PixelRows(s, h, d, rle) == BottomUp(Stream(s, h, d, rle).value, h.width, h.height)
  {
    if rle {
      DecodeRleIsPackets(s, DataOffset(h), h.width, h.height, d);
    } else {
      RawRowsAreBottomUp(s, DataOffset(h), h.width, h.height, d);
    }
  }

  /** Where pixel (x, y) of the texture lands after the mirror step. */
  function Destination(w: nat, h: nat, descriptor: byte, x: nat, y: nat): (i: nat)
    requires x < w && y < h
    ensures i < w * h
  {
    var dx := if descriptor / 0x10 % 2 == 1 then w - x - 1 else x;
    var dy := if descriptor / 0x20 % 2 == 1 then h - y - 1 else y;
    Arith.MulLe(dy + 1, h, w);
    Arith.MulSucc(dy, w);
    Arith.MulComm(h, w);
    dx + dy * w
  }

  /** Where pixel `(x, y)` of an image goes when the image is mirrored. */
  lemma MirrorAt<T>(rows: seq<seq<T>>, w: nat, h: nat, descriptor: byte, x: nat, y: nat)
    requires Grid.IsGrid(rows, w, h) && x < w && y < h
    ensures Grid.IsGrid(Mirror(rows, descriptor), w, h)
    ensures var dx := if descriptor / 0x10 % 2 == 1 then w - x - 1 else x;
            var dy := if descriptor / 0x20 % 2 == 1 then h - y - 1 else y;
            Mirror(rows, descriptor)[dy][dx] == rows[y][x]
  {
    Grid.FlipPixel(rows, w, h, descriptor / 0x10 % 2 == 1, descriptor / 0x20 % 2 == 1, x, y);
    MirrorIsGrid(rows, w, h, descriptor);
  }

  /** Pixel `(x, y)` of an image lands at element Destination of the
      mirrored image's buffer. */
  lemma MirrorPixel<T>(rows: seq<seq<T>>, w: nat, h: nat, descriptor: byte, x: nat, y: nat)
    requires Grid.IsGrid(rows, w, h) && x < w && y < h
    ensures |Grid.Flatten(Mirror(rows, descriptor))| == w * h
    ensures Grid.Flatten(Mirror(rows, descriptor))[Destination(w, h, descriptor, x, y)] == rows[y][x]
  {
    var dx: nat := if descriptor / 0x10 % 2 == 1 then w - x - 1 else x;
    var dy: nat := if descriptor / 0x20 % 2 == 1 then h - y - 1 else y;
    assert Destination(w, h, descriptor, x, y) == dx + dy * w;
    MirrorAt(rows, w, h, descriptor, x, y);
    Grid.FlattenIndex(Mirror(rows, descriptor), w, h, dx, dy);
  }

  /** A stream stored bottom-up and mirrored: its pixel `(h - 1 - y) * w + x`
      is element Destination of the texture buffer. */
  lemma MirroredStreamIndex<T>(stream: seq<T>, w: nat, h: nat, descriptor: byte, x: nat, y: nat)
    requires |stream| == w * h && x < w && y < h
    ensures |Grid.Flatten(Mirror(BottomUp(stream, w, h), descriptor))| == w * h
    ensures Grid.Flatten(Mirror(BottomUp(stream, w, h), descriptor))[Destination(w, h, descriptor, x, y)]
            == stream[RawIndex(w, h, x, y)]
  {
    BottomUpIndex(stream, w, h, x, y);
    MirrorPixel(BottomUp(stream, w, h), w, h, descriptor, x, y);
  }

  /** The same for the four bytes of a true-colour pixel. */
  lemma MirroredStreamPixel(stream: seq<Pixel>, w: nat, h: nat, descriptor: byte, x: nat, y: nat)
    requires |stream| == w * h && x < w && y < h
    ensures var data := ImageBytes(Mirror(BottomUp(stream, w, h), descriptor));
            var i := Destination(w, h, descriptor, x, y);
            var p := stream[RawIndex(w, h, x, y)];
            4 * i + 3 < |data|
            && data[4 * i] == p.b && data[4 * i + 1] == p.g && data[4 * i + 2] == p.r && data[4 * i + 3] == p.a
  {
    MirroredStreamIndex(stream, w, h, descriptor, x, y);
    var flat := Grid.Flatten(Mirror(BottomUp(stream, w, h), descriptor));
    PixelBytesIndex(flat, Destination(w, h, descriptor, x, y));
  }

  /** The true-colour output is the file's stream, bottom-up and mirrored. */
  lemma DecodedTrueColour(s: Bytes)
    requires HoldsData(s) && Decode(s).Ok? && Decode(s).value.textureFormat == BGRA8
    ensures var h := ParseHeader(s);
            var d := DepthOf(h.bitsPerPixel);
            d.Some?
            && Stream(s, h, d.value, h.imageType == 10).Some?
            && Decode(s).value.data
               == ImageBytes(Mirror(BottomUp(Stream(s, h, d.value, h.imageType == 10).value, h.width, h.height), h.descriptor))
  {
    var h := ParseHeader(s);
    var layout := Classify(h).value;
    PixelRowsAreStream(s, h, layout.depth, layout.Rle?);
  }

  /** End to end, for the true-colour types: pixel (x, y) of the texture
      before the mirror step is pixel `(h - 1 - y) * w + x` of the file's
      stream, and the mirror step moves its four bytes B, G, R, A to
      Destination. */
  lemma DecodedPixel(s: Bytes, x: nat, y: nat)
    requires HoldsData(s) && Decode(s).Ok? && Decode(s).value.textureFormat == BGRA8
    requires x < ParseHeader(s).width && y < ParseHeader(s).height
    ensures var h := ParseHeader(s);
            var d := DepthOf(h.bitsPerPixel);
            var data := Decode(s).value.data;
            var i := Destination(h.width, h.height, h.descriptor, x, y);
            d.Some?
            && Stream(s, h, d.value, h.imageType == 10).Some?
            && 4 * i + 3 < |data|
            && var p := Stream(s, h, d.value, h.imageType == 10).value[RawIndex(h.width, h.height, x, y)];
               data[4 * i] == p.b && data[4 * i + 1] == p.g && data[4 * i + 2] == p.r && data[4 * i + 3] == p.a
  {
    var h := ParseHeader(s);
    DecodedTrueColour(s);
    var stream := Stream(s, h, DepthOf(h.bitsPerPixel).value, h.imageType == 10).value;
    MirroredStreamPixel(stream, h.width, h.height, h.descriptor, x, y);
  }

  /** The 8-bit branch of the decoder: the header classifies as Gray8 and
      the output is the mirrored GrayRows. */
  lemma DecodedGrayRows(s: Bytes)
    requires HoldsData(s) && Decode(s).Ok? && Decode(s).value.textureFormat == G8
    ensures var h := ParseHeader(s);
            var off := DataOffset(h);
            Classify(h) == Ok(Gray8) && off + h.width * h.height <= |s|
            && Decode(s).value.data == Grid.Flatten(Mirror(GrayRows(s, off, h.width, h.height), h.descriptor))
  {
  }

  /** The 8-bit output is the data bytes, bottom-up and mirrored. */
  lemma DecodedGray(s: Bytes)
    requires HoldsData(s) && Decode(s).Ok? && Decode(s).value.textureFormat == G8
    ensures var h := ParseHeader(s);
            var off := DataOffset(h);
            off + h.width * h.height <= |s|
            && Decode(s).value.data
               == Grid.Flatten(Mirror(BottomUp(s[off .. off + h.width * h.height], h.width, h.height), h.descriptor))
  {
    var h := ParseHeader(s);
    DecodedGrayRows(s);
    GrayRowsAreBottomUp(s, DataOffset(h), h.width, h.height);
  }

  /** Byte (x, y) of a bottom-up, mirrored block of `w * h` bytes at `off`
      is data byte `off + RawIndex` and lands at Destination. */
  lemma GrayBytePlacement(s: Bytes, off: nat, w: nat, h: nat, descriptor: byte, data: seq<byte>, x: nat, y: nat)
    requires off + w * h <= |s| && x < w && y < h
    requires data == Grid.Flatten(Mirror(BottomUp(s[off .. off + w * h], w, h), descriptor))
    ensures Destination(w, h, descriptor, x, y) < |data|
    ensures data[Destination(w, h, descriptor, x, y)] == s[off + RawIndex(w, h, x, y)]
  {
    var stream := s[off .. off + w * h];
    MirroredStreamIndex(stream, w, h, descriptor, x, y);
    var j := RawIndex(w, h, x, y);
    assert stream[j] == s[off + j];
  }

  /** End to end, for the 8-bit types: byte (x, y) of the texture before the
      mirror step is data byte `(h - 1 - y) * w + x`, and the mirror step
      moves it to Destination. */
  lemma DecodedGrayPixel(s: Bytes, x: nat, y: nat)
    requires HoldsData(s) && Decode(s).Ok? && Decode(s).value.textureFormat == G8
    requires x < ParseHeader(s).width && y < ParseHeader(s).height
    ensures var h := ParseHeader(s);
            var data := Decode(s).value.data;
            var i := Destination(h.width, h.height, h.descriptor, x, y);
            DataOffset(h) + h.width * h.height <= |s|
            && i < |data|
            && data[i] == s[DataOffset(h) + RawIndex(h.width, h.height, x, y)]
  {
    var h := ParseHeader(s);
    var data := Decode(s).value.data;
    DecodedGray(s);
    GrayBytePlacement(s, DataOffset(h), h.width, h.height, h.descriptor, data, x, y);
  }
}

=== FILE: vector.dfy ===
/** The growable array `Vector<T>` of Source/Decoder.h, as an immutable
    value: the live elements and the allocated capacity. Slots past the size
    are not observable through the interface and are not kept. */
module Vectors {
  import opened Bits
  import opened Seqs
  import Arith

  /** `_max_capacity`, SIZE_MAX of a 64-bit size_t. */
  const MaxCapacity: nat := TwoTo64 - 1
  const TwoTo63: nat := 0x8000_0000_0000_0000

  datatype Vector<T> = Vector(elems: seq<T>, capacity: nat)

  /** The representation invariant: the live elements fit, and the capacity
      is a power of two or the cap. */
  predicate Valid<T>(v: Vector<T>)
  {
    |v.elems| <= v.capacity <= MaxCapacity && (IsPowerOfTwo(v.capacity) || v.capacity == MaxCapacity)
  }

  lemma DoublePowerOfTwo(c: nat)
    requires IsPowerOfTwo(c)
    ensures IsPowerOfTwo(2 * c)
  {
    assert (2 * c) / 2 == c;
  }

  /** The default constructor (and `clear`): no elements, capacity 1. */
  function Empty<T>(): (v: Vector<T>)
    ensures Valid(v) && |v.elems| == 0 && v.capacity == 1
  {
    Vector([], 1)
  }

  /** `Vector(n, a)` with its doubling loop capped the way push_back caps
      growth: `n` copies of `a` in the smallest power-of-two capacity that
      holds them, or SIZE_MAX when no power of two below it does. */
  method Filled<T>(n: nat, a: T) returns (v: Vector<T>)
    requires n <= MaxCapacity
    ensures Valid(v)
    ensures |v.elems| == n && forall i :: 0 <= i < n ==> v.elems[i] == a
    ensures n <= v.capacity
    ensures n <= TwoTo63 ==> IsPowerOfTwo(v.capacity)
    ensures v.capacity == 1 || v.capacity < 2 * n
  {
    var capacity: nat := 1;
    while capacity < n
      invariant capacity <= MaxCapacity && (IsPowerOfTwo(capacity) || capacity == MaxCapacity)
      invariant n <= TwoTo63 ==> IsPowerOfTwo(capacity)
      invariant capacity == 1 || capacity < 2 * n
      decreases n - capacity
    {
      capacity := Grow(capacity);
    }
    v := Vector(Repeat(a, n), capacity);
  }

  lemma {:induction false} Pow2Add(a: nat, b: nat)
    ensures Pow2(a + b) == Pow2(a) * Pow2(b)
    decreases a
  {
    if a > 0 {
      Pow2Add(a - 1, b);
      assert Pow2(a + b) == 2 * Pow2(a - 1 + b);
    }
  }

  /** Pow2Add with both factors known. */
  lemma Pow2Join(a: nat, b: nat, pa: nat, pb: nat)
    requires Pow2(a) == pa && Pow2(b) == pb
    ensures Pow2(a + b) == pa * pb
  {
    Pow2Add(a, b);
  }

  lemma Pow2Of63()
    ensures Pow2(62) == TwoTo63 / 2 && Pow2(63) == TwoTo63
  {
    assert Pow2(2) == 4;
    Pow2Join(2, 2, 4, 4);
    Pow2Join(4, 4, 0x10, 0x10);
    Pow2Join(8, 8, 0x100, 0x100);
    Pow2Join(16, 16, 0x1_0000, 0x1_0000);
    Pow2Join(32, 16, 0x1_0000_0000, 0x1_0000);
    Pow2Join(48, 8, 0x1_0000_0000_0000, 0x100);
    Pow2Join(56, 4, 0x100_0000_0000_0000, 0x10);
    Pow2Join(60, 2, 0x1000_0000_0000_0000, 4);
    Pow2Join(62, 1, 0x4000_0000_0000_0000, 2);
  }

  lemma Pow2Below63(k: nat)
    requires k <= 62
    ensures Pow2(k) <= TwoTo63 / 2
  {
    Pow2Add(k, 62 - k);
    Pow2Of63();
    Arith.MulLeRight(Pow2(k), 1, Pow2(62 - k));
  }

  /** The capacity the constructor's loop reaches after `k` doublings as
      written: the doubling is size_t arithmetic, so it wraps. */
  function CapacityAsWritten(k: nat): (c: nat)
    ensures c < TwoTo64
  {
    if k == 0 then 1 else (2 * CapacityAsWritten(k - 1)) % TwoTo64
  }

  /** The written doubling reaches 2^63 after 63 steps and 0 after 64, and
      stays at 0. */
  lemma {:induction false} CapacityAsWrittenValues(k: nat)
    ensures CapacityAsWritten(k) == if k < 64 then Pow2(k) else 0
  {
    if k > 0 {
      CapacityAsWrittenValues(k - 1);
      var c := CapacityAsWritten(k - 1);
      if k - 1 < 63 {
        Pow2Below63(k - 1);
        assert c == Pow2(k - 1) && 2 * c < TwoTo64;
      } else if k - 1 == 63 {
        Pow2Of63();
        assert c == TwoTo63 && 2 * c == TwoTo64;
      } else {
        assert c == 0;
      }
    }
  }

  /** The discrepancy: for a size above 2^63 the capacity never reaches
      the size, so the constructor's loop never ends. */
  lemma FilledAsWrittenNeverStops(n: nat, k: nat)
    requires TwoTo63 < n <= MaxCapacity
    ensures CapacityAsWritten(k) < n
  {
    CapacityAsWrittenValues(k);
    if k < 64 {
      if k <= 62 {
        Pow2Below63(k);
      } else {
        Pow2Of63();
      }
    }
  }

  /** The capacity after a full vector grows: doubled, capped at the
      maximum. */
  function Grow(c: nat): (r: nat)
    requires IsPowerOfTwo(c) && c < MaxCapacity
    ensures c < r && (IsPowerOfTwo(r) || r == MaxCapacity) && r <= MaxCapacity
    ensures r == Min(2 * c, MaxCapacity)
  {
    DoublePowerOfTwo(c);
    if 2 * c >= MaxCapacity then MaxCapacity else 2 * c
  }

  /** The growth step as written: the doubling happens in size_t, so it
      wraps before the cap is compared. */
  function GrowAsWritten(c: nat): nat
    requires c < TwoTo64
  {
    var doubled := (2 * c) % TwoTo64;
    if doubled >= MaxCapacity then MaxCapacity else doubled
  }

  /** Below 2^63 the written step is the intended one. */
  lemma GrowAsWrittenAgrees(c: nat)
    requires IsPowerOfTwo(c) && c < TwoTo63
    ensures GrowAsWritten(c) == Grow(c)
  {
    assert (2 * c) % TwoTo64 == 2 * c;
  }

  /** At 2^63 the written step wraps to capacity 0, where the intended cap
      is SIZE_MAX; push_back then writes past a zero-length buffer. */
  lemma GrowAsWrittenWraps()
    ensures GrowAsWritten(TwoTo63) == 0
    ensures Min(2 * TwoTo63, MaxCapacity) == MaxCapacity
  {
  }

  /** push_back: stores into spare capacity, or grows first; a vector at
      the maximum size is left as it is. */
  function PushBack<T>(v: Vector<T>, x: T): (r: Vector<T>)
    requires Valid(v)
    ensures Valid(r)
    ensures |v.elems| < MaxCapacity ==> r.elems == v.elems + [x]
    ensures |v.elems| == MaxCapacity ==> r == v
    ensures |v.elems| < v.capacity ==> r.capacity == v.capacity
    ensures |v.elems| == v.capacity < MaxCapacity ==> r.capacity == Min(2 * v.capacity, MaxCapacity)
  {
    if |v.elems| < v.capacity then Vector(v.elems + [x], v.capacity)
    else if |v.elems| == MaxCapacity then v
    else Vector(v.elems + [x], Grow(v.capacity))
  }

  /** pop_back: drops the last element and keeps the buffer. */
  function PopBack<T>(v: Vector<T>): (r: Vector<T>)
    requires Valid(v) && |v.elems| > 0
    ensures Valid(r) && r.capacity == v.capacity
    ensures |r.elems| == |v.elems| - 1 && r.elems == v.elems[..|r.elems|]
  {
    Vector(v.elems[..|v.elems| - 1], v.capacity)
  }

  /** pop_back undoes push_back. */
  lemma PopBackPushBack<T>(v: Vector<T>, x: T)
    requires Valid(v) && |v.elems| < MaxCapacity
    ensures PopBack(PushBack(v, x)).elems == v.elems
  {
    assert (v.elems + [x])[..|v.elems|] == v.elems;
  }

  /** The shrinking loop of resize as written: the counter climbs from the
      new size while the size falls, so the loop stops half way. */
  function ShrinkAsWritten<T>(v: Vector<T>, s: nat): (r: Vector<T>)
    requires Valid(v)
    ensures Valid(r)
    decreases |v.elems| - s
  {
    if s < |v.elems| then ShrinkAsWritten(PopBack(v), s + 1) else v
  }

  /** resize as written. `fill` stands for the default-constructed values
      the growing loop appends (indeterminate for a byte vector). */
  function ResizeAsWritten<T>(v: Vector<T>, n: nat, fill: T): (r: Vector<T>)
    requires Valid(v)
  {
    if n == |v.elems| then v
    else
      var v' := if n == 0 then Empty() else v;
      if n < |v'.elems| then ShrinkAsWritten(v', n) else Append(v', fill, n - |v'.elems|)
  }

  /** The written shrinking loop keeps n + (size - n) / 2 elements. */
  lemma {:induction false} ShrinkAsWrittenSize<T>(v: Vector<T>, s: nat)
    requires Valid(v) && s <= |v.elems|
    ensures |ShrinkAsWritten(v, s).elems| == s + (|v.elems| - s) / 2
    decreases |v.elems| - s
  {
    if s < |v.elems| {
      if s + 1 <= |v.elems| - 1 {
        ShrinkAsWrittenSize(PopBack(v), s + 1);
      }
    }
  }

  /** Resizing four elements down to one keeps two. */
  lemma ResizeAsWrittenKeepsTwo(a: int)
    ensures |ResizeAsWritten(Vector([a, a, a, a], 4), 1, 0).elems| == 2
  {
    var v := Vector([a, a, a, a], 4);
    assert IsPowerOfTwo(4) by { assert IsPowerOfTwo(2); }
    ShrinkAsWrittenSize(v, 1);
  }

  /** `k` pushes of `fill`. */
  function Append<T>(v: Vector<T>, fill: T, k: nat): (r: Vector<T>)
    requires Valid(v)
    ensures Valid(r)
    ensures |v.elems| + k <= MaxCapacity ==> r.elems == v.elems + Repeat(fill, k)
    ensures v.capacity <= r.capacity
    decreases k
  {
    if k == 0 then v
    else
      var r := Append(PushBack(v, fill), fill, k - 1);
      assert [fill] + Repeat(fill, k - 1) == Repeat(fill, k);
      r
  }

  /** resize with the shrinking loop corrected: exactly `n` elements, the
      first min(size, n) of them unchanged. */
  method Resize<T>(v: Vector<T>, n: nat, fill: T) returns (r: Vector<T>)
    requires Valid(v) && n <= MaxCapacity
    ensures Valid(r) && |r.elems| == n
    ensures r.elems[..Min(n, |v.elems|)] == v.elems[..Min(n, |v.elems|)]
    ensures n == |v.elems| ==> r == v
    ensures 0 < n < |v.elems| ==> r.capacity == v.capacity
    ensures n == 0 < |v.elems| ==> r == Empty()
  {
    if n == |v.elems| {
      return v;
    }
    r := v;
    if n == 0 {
      r := Empty();
    }
    if n < |r.elems| {
      while n < |r.elems|
        invariant Valid(r) && n <= |r.elems| <= |v.elems|
        invariant r.elems == v.elems[..|r.elems|] && r.capacity == v.capacity
        decreases |r.elems|
      {
        r := PopBack(r);
      }
    } else {
      var k := |r.elems|;
      while k < n
        invariant Valid(r) && |r.elems| == k <= n
        invariant n == 0 ==> r == Empty()
        invariant r.elems[..Min(n, |v.elems|)] == v.elems[..Min(n, |v.elems|)]
      {
        r := PushBack(r, fill);
        k := k + 1;
      }
    }
  }
}

=== FILE: wrapper.dfy ===
/** The state every image wrapper shares (FImageWrapperBase in
    Source/Wrapper/ImageWrapperBase.cpp), as an immutable value. The
    format-specific steps (Uncompress, Compress) are parameters. */
module Wrapper {
  import opened Results
  import opened Bytes
  import opened Formats

  datatype State = State(
    compressedData: Bytes,
    rawData: Bytes,
    rawFormat: RgbFormat,
    rawBitDepth: int,
    format: RgbFormat,
    bitDepth: int,
    width: int,
    height: int,
    numFrames: int,
    framerate: int,
    lastError: string)

  /** The description fields hold their initial values. */
  predicate IsReset(w: State)
  {
    w.rawFormat == InvalidRgb && w.rawBitDepth == 0 && w.format == InvalidRgb && w.bitDepth == 0
    && w.width == 0 && w.height == 0 && w.numFrames == 1 && w.framerate == 0
  }

  /** The constructor: no data, no error, initial description. */
  function New(): (w: State)
    ensures IsReset(w) && w.compressedData == [] && w.rawData == [] && w.lastError == ""
  {
    State([], [], InvalidRgb, 0, InvalidRgb, 0, 0, 0, 1, 0, "")
  }

  /** Reset clears the error and the description; the buffers stay. */
  function Reset(w: State): (r: State)
    ensures IsReset(r) && r.lastError == ""
    ensures r.compressedData == w.compressedData && r.rawData == w.rawData
  {
    w.(rawFormat := InvalidRgb, rawBitDepth := 0, format := InvalidRgb, bitDepth := 0,
       width := 0, height := 0, numFrames := 1, framerate := 0, lastError := "")
  }

  /** SetCompressed: an empty buffer is refused and nothing changes;
      otherwise the wrapper is reset, the raw data dropped and the buffer
      copied in. */
  function SetCompressed(w: State, data: Bytes): (r: (bool, State))
    ensures r.0 <==> |data| > 0
    ensures !r.0 ==> r.1 == w
    ensures r.0 ==> r.1.compressedData == data && r.1.rawData == [] && IsReset(r.1) && r.1.lastError == ""
  {
    if |data| > 0 then (true, Reset(w).(rawData := [], compressedData := data)) else (false, w)
  }

  /** The state after a successful SetCompressed does not depend on what
      the wrapper held before. */
  lemma SetCompressedForgets(w: State, w': State, data: Bytes)
    requires |data| > 0
    ensures SetCompressed(w, data) == SetCompressed(w', data)
  {
  }

  /** SetRaw: the caller must pass a non-empty buffer and positive
      dimensions; the wrapper is reset, the compressed data dropped and the
      raw buffer and its description recorded. The raw depth field is a
      byte, so the depth is kept modulo 256. */
  function SetRaw(w: State, data: Bytes, width: int, height: int, format: RgbFormat, bitDepth: int): (r: State)
    requires |data| > 0 && width > 0 && height > 0
    ensures r.rawData == data && r.compressedData == []
    ensures r.rawFormat == format && r.rawBitDepth == bitDepth % 256 && r.width == width && r.height == height
    ensures r.format == InvalidRgb && r.bitDepth == 0 && r.numFrames == 1 && r.framerate == 0
    ensures r.lastError == ""
  {
    Reset(w).(compressedData := [], rawData := data, rawFormat := format, rawBitDepth := bitDepth % 256,
              width := width, height := height)
  }

  /** A format's decoding step: it may fill rawData and may set
      lastError. */
  type Uncompress = (State, RgbFormat, int) -> State

  /** GetRaw: clears the error, runs the decoding step, and hands the raw
      buffer over (leaving the wrapper's buffer empty) when no error was
      set; the outcome is the error text or the buffer. */
  function GetRaw(w: State, uncompress: Uncompress, format: RgbFormat, bitDepth: int): (r: (Result<Bytes>, State))
    ensures var after := uncompress(w.(lastError := ""), format, bitDepth);
            (r.0.Ok? <==> after.lastError == "")
            && (r.0.Ok? ==> r.0.value == after.rawData && r.1 == after.(rawData := []))
            && (r.0.Err? ==> r.0.message == after.lastError && r.1 == after)
  {
    var after := uncompress(w.(lastError := ""), format, bitDepth);
    if after.lastError == "" then (Ok(after.rawData), after.(rawData := [])) else (Err(after.lastError), after)
  }

  /** An error left over from an earlier call never decides GetRaw. */
  lemma GetRawIgnoresOldError(w: State, e: string, uncompress: Uncompress, format: RgbFormat, bitDepth: int)
    ensures GetRaw(w.(lastError := e), uncompress, format, bitDepth) == GetRaw(w, uncompress, format, bitDepth)
  {
    assert w.(lastError := e).(lastError := "") == w.(lastError := "");
  }

  /** With a decoding step that keeps an already-filled buffer, the bytes
      given to SetRaw are the bytes GetRaw hands back. */
  lemma SetRawGetRaw(w: State, data: Bytes, width: int, height: int, format: RgbFormat, bitDepth: int,
                     uncompress: Uncompress)
    requires |data| > 0 && width > 0 && height > 0
    requires forall s: State, f: RgbFormat, d: int {:trigger uncompress(s, f, d)} ::
               s.rawData != [] ==> uncompress(s, f, d) == s
    ensures GetRaw(SetRaw(w, data, width, height, format, bitDepth), uncompress, format, bitDepth).0 == Ok(data)
  {
    var s := SetRaw(w, data, width, height, format, bitDepth);
    assert s.(lastError := "") == s;
  }

  /** A format's encoding step. */
  type Compress = (State, int) -> State

  /** GetCompressed: clears the error, runs the encoding step and returns
      the compressed buffer it leaves. */
  function GetCompressed(w: State, compress: Compress, quality: int): (r: (Bytes, State))
    ensures r.1 == compress(w.(lastError := ""), quality) && r.0 == r.1.compressedData
  {
    var after := compress(w.(lastError := ""), quality);
    (after.compressedData, after)
  }

  /** An error left over from an earlier call never decides GetCompressed. */
  lemma GetCompressedIgnoresOldError(w: State, e: string, compress: Compress, quality: int)
    ensures GetCompressed(w.(lastError := e), compress, quality) == GetCompressed(w, compress, quality)
  {
    assert w.(lastError := e).(lastError := "") == w.(lastError := "");
  }

  /** With an encoding step that leaves the compressed buffer alone, as the
      BMP and ICO ones do, GetCompressed hands back the bytes given to
      SetCompressed. */
  lemma SetCompressedGetCompressed(w: State, data: Bytes, compress: Compress, quality: int)
    requires |data| > 0
    requires forall s: State, q: int {:trigger compress(s, q)} :: compress(s, q).compressedData == s.compressedData
    ensures GetCompressed(SetCompressed(w, data).1, compress, quality).0 == data
  {
    var s := SetCompressed(w, data).1;
    assert s.(lastError := "").compressedData == data;
  }

  /** SetAnimationInfo: stores both values and succeeds. */
  function SetAnimationInfo(w: State, numFrames: int, framerate: int): (r: (bool, State))
    ensures r.0 && r.1.numFrames == numFrames && r.1.framerate == framerate
    ensures r.1.(numFrames := w.numFrames, framerate := w.framerate) == w
  {
    (true, w.(numFrames := numFrames, framerate := framerate))
  }
}
